=== FILE: README.md ===
# pydrobert-pytorch data and estimator core in Dafny

This project models two parts of `pydrobert-pytorch`. The file plumbing,
tensor storage and autograd are stripped away.

- **Transcripts and batches** (`pydrobert/torch/data.py`):
  - the NIST sclite "trn" reader and writer;
  - the "ctm" reader and writer;
  - the conversion between transcripts and `(R, 3)` token tensors;
  - context-window extraction;
  - utterance-id discovery in a `SpectDataSet` directory;
  - validation of a data set;
  - the collate functions that sort, pad and batch utterances.
- **Discrete gradient estimators** (`pydrobert/torch/estimators.py`):
  - the dispatch on a distribution tag (Bernoulli, categorical, one-hot);
  - `to_z`, and the hard map `to_b`;
  - the conditional noise `_to_z_tilde`;
  - how `reinforce` and `relax` assemble their terms;
  - the REBAR control variate.

Conventions:

- A tensor is a sequence of rows, and a file listing is a sequence of names.
- A file's contents is a string.
- Python exceptions are the `Err` case of a `Result`.
- `log`, `exp` and `sigmoid` are fields of a `Maths` record passed in. The laws the proofs need are stated by the predicate `RealMath.Lawful`:
  - `log` increases;
  - `exp` inverts `log`;
  - `sigmoid` maps into `(0, 1)` and the logit inverts it.

Modules, one per concern:

| file | module | models |
|---|---|---|
| results.dfy | Results | exceptions as `Result`/`Option` |
| text.dfy | Text | `str.strip`, `str.split`, `rindex`, lines of a file, string order |
| sorting.dfy | Sorting | Python's stable `sorted` with a key |
| transcripts.dfy | Transcripts | transcript elements: tokens, timed tokens, alternates |
| trn.dfy, trn_props.dfy | Trn, TrnProps | `read_trn`, `write_trn` and their round trip |
| ctm.dfy | Ctm | `read_ctm`, `write_ctm` |
| tokens.dfy | Tokens | `transcript_to_token`, `token_to_transcript` |
| windows.dfy | Windows | `extract_window`, `context_window_seq_to_batch` |
| spectdata.dfy | SpectData | `find_utt_ids`, `validate_spect_data_set`, `spect_seq_to_batch`, `eval_collate_fn` |
| realmath.dfy | RealMath | truncation, sums, softmax over a lawful `Maths` |
| dists.dfy | Dists | the synonym sets and the tag dispatch |
| estimators.dfy | Estimators | `to_z`, `to_b`, `_to_z_tilde`, `reinforce`, `relax` |
| rebar.dfy | Rebar | `REBARControlVariate` |

## Model

| member | source | states |
|---|---|---|
| Trn.ReadLine | pydrobert/torch/data.py:544-547 | A line is skipped (read as `None`) exactly when it is blank after stripping. |
| Trn.ReadUtterance | pydrobert/torch/data.py:555-556 | The utterance id is the text strictly between the last `(` and the last `)`. The transcript is read from the stripped text before that `(`. The line fails exactly when that text fails to parse. |
| Trn.ReadLineMissingId | pydrobert/torch/data.py:548-554 | A non-blank line without a `(` or without a `)` raises IOError. |
| Trn.ReadLineUttId | pydrobert/torch/data.py:549-554 | A line whose last `(` comes after its last `)` raises IOError. Otherwise it is read at those two positions. |
| TrnProps.PlainBody | pydrobert/torch/data.py:589-599 | Without `{`, the transcript is the maximal runs of non-space characters. `/`, `}` and `)` are ordinary characters there. |
| TrnProps.EmptyAlternateRejected | pydrobert/torch/data.py:578-583 | `{` followed by only spaces and then `}` raises IOError, whatever was read before. |
| TrnProps.EmptyLastBranchRejected | pydrobert/torch/data.py:573-583 | Inside an alternate, `/` followed by only spaces and then `}` (an empty last branch) raises IOError. |
| TrnProps.UnclosedAlternateDropped | pydrobert/torch/data.py:596-599 | An alternate still open at the end of the line is discarded, with everything read inside it. |
| TrnProps.ReadWrittenBody | pydrobert/torch/data.py:630-641 | Writing a well-formed transcript (tokens and nested alternates) and parsing the stripped text gives the transcript back. |
| TrnProps.ReadWrittenLine | pydrobert/torch/data.py:642-660 | A written utterance is one line, and reading that line gives the utterance back. |
| TrnProps.RoundTrip | pydrobert/torch/data.py:540-660 | For well-formed utterances (ids free of `(`, `)`, `'\n'` and `'\r'`), reading the written text gives the same utterances in the same order. It still does after the universal-newline translation of a file opened in text mode. |
| TrnProps.CarriageReturnId | pydrobert/torch/data.py:540-553 | An id holding `'\r'` is written as one line, but a file opened in text mode splits that line in two. The first half has no `)`, so reading fails with IOError. This is why the round trip excludes such ids. |
| Ctm.ParseReal | pydrobert/torch/data.py:724-725 | `float()` succeeds exactly when the text parses; otherwise ValueError. |
| Ctm.UttOf | pydrobert/torch/data.py:720-723 | Without `wc2utt` the utterance is the file name. With it, the `(wfn, chan)` entry is used, and a missing key raises KeyError. |
| Ctm.ParseFields | pydrobert/torch/data.py:717-727 | A line without 5 or 6 fields raises ValueError. An accepted entry has `0 <= start <= end`. |
| Ctm.FiveFields | pydrobert/torch/data.py:717-728 | For a line of five fields, or six with a confidence, whose times parse and are not negative: the entry is the mapped utterance, the token, `start` and `start + dur`. A sixth field does not change the result. |
| Ctm.UnknownChannel | pydrobert/torch/data.py:720-723 | With a `wc2utt` table, an unknown `(wfn, chan)` raises KeyError whatever the numbers, because the lookup comes before they are parsed. |
| Ctm.BadTimes | pydrobert/torch/data.py:724-727 | Once the utterance is known, a start or duration that does not parse, or is negative, raises ValueError. |
| Ctm.ParseLine | pydrobert/torch/data.py:711-728 | Text after `;;` is dropped. A line that is then blank yields nothing, and every accepted line yields an entry with `0 <= start <= end`. |
| Ctm.ReadEntries | pydrobert/torch/data.py:711-735 | Reading succeeds exactly when every line is readable. |
| Ctm.FirstBadLine | pydrobert/torch/data.py:711-735 | The first unreadable line decides the exception raised. |
| Ctm.Dedup | pydrobert/torch/data.py:710-728 | Utterance ids in order of first appearance: distinct, the same set, first occurrences first. |
| Ctm.EntriesOf | pydrobert/torch/data.py:728 | An utterance's entries are the entries naming it and no others. |
| Ctm.EntriesOfCount | pydrobert/torch/data.py:728 | Each entry naming the utterance is kept as often as it occurs in the file. Every other entry is kept zero times. |
| Ctm.EntriesOfConcat | pydrobert/torch/data.py:712-728 | The entries are appended in file order: those from an earlier part of the file come before those from a later part. |
| Ctm.GroupIds | pydrobert/torch/data.py:736-739 | The output has one transcript per distinct utterance. Every entry's utterance appears, in order of first appearance. |
| Ctm.TranscriptSorted | pydrobert/torch/data.py:736-739 | Each transcript is sorted by start time and is a permutation of that utterance's entries. Entries with equal start keep their file order. |
| Ctm.WcOf | pydrobert/torch/data.py:764-770 | With a channel string, the utterance id is the file name. With a dict, an unmapped id raises KeyError. |
| Ctm.SegmentOf | pydrobert/torch/data.py:771-786 | An element becomes a segment exactly when it is a timed token with `0 <= start <= end`. The duration is `end - start`. An integer token raises TypeError, and every other failure is ValueError. |
| Ctm.SegmentsOf | pydrobert/torch/data.py:771-786 | A transcript converts exactly when each of its elements does, element by element. |
| Ctm.Collect | pydrobert/torch/data.py:766-786 | Writing succeeds exactly when every utterance has a `(wfn, chan)` and all its elements convert. |
| Ctm.WriteCtm | pydrobert/torch/data.py:787 | The written segments are a permutation of the collected ones. |
| Ctm.WriteCtmSorted | pydrobert/torch/data.py:787 | The written segments are sorted by `(wfn, chan, start, dur, token)`. |
| Ctm.SegLeTotalPreorder | pydrobert/torch/data.py:787 | The tuple order used to sort segments is total and transitive. |
| Ctm.WriteCtmText | pydrobert/torch/data.py:788-789 | The file is written exactly when the segments can be. |
| Ctm.ReadWrittenLine | pydrobert/torch/data.py:789 | A written segment line reads back as the token with `start` and `end = start + dur`, when the number format round-trips. |
| Ctm.WriteThenRead | pydrobert/torch/data.py:710-789 | Reading a written file line by line gives one entry per segment, in the order written. `read_ctm` returns those entries grouped by utterance and sorted by start. |
| Tokens.IdOf | pydrobert/torch/data.py:830-832 | The id is `token2id.get(token, token)` and is never negative: a negative id raises ValueError. A string with no id raises TypeError. |
| Tokens.ElementRow | pydrobert/torch/data.py:799-835 | A row is `[id, start, end]`. The id is `token2id.get(token, token)` and must be non-negative. A timed token's start and end become frames (seconds times 1000 over the frame shift when one is given, then truncated). An untimed token gets `-1, -1`. An alternate cannot be converted. |
| Tokens.TranscriptToToken | pydrobert/torch/data.py:818-836 | The tensor has exactly one row per transcript element. It fails exactly when some element fails. |
| Tokens.RowElement | pydrobert/torch/data.py:855-866 | A row converts exactly when it is a triple with a non-negative id, and the token is `id2token.get(id, id)`. It is an untimed token exactly when a time is `-1`. Otherwise its times are the frames converted to seconds when a frame shift is given, and the frames themselves when not. |
| Tokens.TokenToTranscript | pydrobert/torch/data.py:854-867 | The transcript has one element per row. It fails exactly when some row fails. |
| Tokens.ElementRoundTrip | pydrobert/torch/data.py:819-866 | With inverse id maps and no frame shift, converting an element to a row and back gives the element back. |
| Tokens.TranscriptRoundTrip | pydrobert/torch/data.py:839-867 | `token_to_transcript(transcript_to_token(t)) == t` with inverse id maps, no frame shift, and no time equal to `-1`. |
| Tokens.RowRoundTrip | pydrobert/torch/data.py:855-866 | For a convertible row, converting to an element and back gives the row back, with or without a frame shift. |
| Tokens.TokenRoundTrip | pydrobert/torch/data.py:792-836 | `transcript_to_token(token_to_transcript(tok)) == tok` for convertible rows, with or without a frame shift. |
| Tokens.FramesBack | pydrobert/torch/data.py:824-827 | Converting a frame to seconds and back gives the frame again. |
| Tokens.FrameContainsTime | pydrobert/torch/data.py:824-827 | The frame computed for a non-negative time `t` is the frame whose interval contains `t`. |
| Windows.ExtractWindow | pydrobert/torch/data.py:870-910 | A window has `1 + left + right` frames. |
| Windows.WindowFrames | pydrobert/torch/data.py:894-910 | Frame `j` of the window is `feat[clamp(frame_idx - left + j)]`, counted from the other end when reversed. Frames past an edge repeat that edge. |
| Windows.PaddedFrames | pydrobert/torch/data.py:895-905 | In the padded branch, frame `j` of the window is `feat[clamp(frame_idx - left + j)]`. The `left_pad` copies of the first frame and the `right_pad` copies of the last stand exactly where the window runs past an edge. |
| Windows.UtteranceWindows | pydrobert/torch/data.py:984-994 | There is one window per frame. Window `t` has frame `t` at row `left` (row `right` when reversed), and its other rows are the neighbouring frames clamped to the utterance. |
| Windows.CatBlocks | pydrobert/torch/data.py:1453 | `torch.cat` succeeds exactly on a non-empty list of blocks with equal trailing sizes; otherwise RuntimeError. |
| Windows.ConcatBlocksAt | pydrobert/torch/data.py:1444-1453 | Each element's windows appear in the batch in order, after those of the elements before it. |
| Windows.SeqToBatch | pydrobert/torch/data.py:1425-1434 | The windows are concatenated. The alignments are `None` exactly when some element lacks one. Otherwise they are the `(N,)` concatenation of every element's alignment. |
| Windows.ConcatAlisAt | pydrobert/torch/data.py:1425-1432 | Alignment `k` of element `i` sits after the alignments of the earlier elements, as its windows do. |
| Windows.AccumulateFails | pydrobert/torch/data.py:1444-1452 | The loop as written fails with AttributeError exactly when a present alignment follows a missing one. |
| Windows.AsWrittenAgrees | pydrobert/torch/data.py:1444-1456 | Whenever the code as written succeeds, it returns what the documented behaviour returns. |
| Windows.MissingThenPresent | pydrobert/torch/data.py:1448-1452 | A missing alignment followed by a present one makes the code as written fail, while the documented result exists. |
| Windows.EmptyBatch | pydrobert/torch/data.py:1453 | An empty sequence raises RuntimeError. |
| SpectData.StemOfName | pydrobert/torch/data.py:253-258 | The file `prefix + u + suffix` matches, and its stem is `u`, including with an empty suffix (a `None` slice end). |
| SpectData.NameOfStem | pydrobert/torch/data.py:253-260 | A matching name is `prefix + stem + suffix`. When prefix and suffix overlap, the stem is empty. |
| SpectData.IdsInNames | pydrobert/torch/data.py:257-261 | An id is listed exactly when its file name is in the listing, or it is empty and an overlapping name matches. |
| SpectData.FindUttIds | pydrobert/torch/data.py:251-300 | A non-empty id is found exactly when it has a feature file, is in the subset if one is given, and has alignment and reference files where those directories hold data. |
| SpectData.Candidates | pydrobert/torch/data.py:257-263 | The candidates are exactly the listed ids kept by the filter. |
| SpectData.Uniq | pydrobert/torch/data.py:242-243 | Removing repeats keeps the same ids, and a sorted input becomes strictly increasing. |
| SpectData.UttIds | pydrobert/torch/data.py:242-243 | `utt_ids` is strictly increasing and holds exactly the ids found. |
| SpectData.IncreasingUnique | pydrobert/torch/data.py:242-243 | Two strictly increasing sequences with the same elements are equal, so `utt_ids` is determined by the id set. |
| SpectData.ValidateSpectDataSet | pydrobert/torch/data.py:413-480 | The data set is accepted exactly when every utterance meets the rules: a float feature with two axes and a shared filter count; a long alignment of one axis as long as the feature; a long `(D, 3)` reference whose bounds are both negative or `0 <= r[1] < r[2] <= T`. Otherwise the first offending utterance is reported. |
| SpectData.MaxRefs | pydrobert/torch/data.py:1126 | `R*` bounds every reference count and is attained. |
| SpectData.SortedShaped | pydrobert/torch/data.py:1121-1127 | Sorting keeps the shapes and the presence of alignments and references, and puts the longest utterance first. |
| SpectData.BuildFeats | pydrobert/torch/data.py:1122-1143 | Row `n` of `feats` is utterance `n` padded with zero frames to `T*`, and `feat_sizes[n]` is its frame count. |
| SpectData.BuildAlis | pydrobert/torch/data.py:1128-1145 | Row `n` of `alis` is alignment `n` padded with `ALI_PAD_VALUE` to `T*`. |
| SpectData.BuildRefs | pydrobert/torch/data.py:1133-1149 | Row `n` of `refs` is reference `n` padded with `REF_PAD_VALUE` triples to `R*`, and `ref_sizes[n]` is its length. |
| SpectData.SpectSeqToBatch | pydrobert/torch/data.py:1121-1155 | An empty sequence raises IndexError. Otherwise each utterance, in sorted order, is its padded row. `alis` is present exactly when every utterance has one, and so are `refs`. |
| SpectData.BatchOrder | pydrobert/torch/data.py:1121 | The batch order is longest first, a permutation of the input, and stable among equal lengths. |
| SpectData.UnbatchBatch | pydrobert/torch/data.py:1140-1155 | Cutting each row back to its recorded size gives the utterances in sorted order. An alignment or reference is lost only when some utterance lacks one. |
| SpectData.EvalCollate | pydrobert/torch/data.py:1379-1390 | An empty batch raises ValueError (unpacking `zip()`). Otherwise there is one id per batch row. |
| SpectData.EvalIdsSorted | pydrobert/torch/data.py:1384-1387 | The sorted ids are the ids of the samples in their sorted order. |
| SpectData.EvalCollateAligned | pydrobert/torch/data.py:1382-1389 | `utt_ids[n]` is the id of the utterance whose features fill row `n`. |
| RealMath.Trunc | pydrobert/torch/data.py:827 | `int(x)` truncates toward zero. |
| RealMath.SoftmaxDistribution | pydrobert/torch/estimators.py:428-429 | A softmax row is positive and sums to one. |
| Dists.DistOf | pydrobert/torch/estimators.py:93-95 | A tag names the Bernoulli, categorical or one-hot family exactly when it is in that synonym set. Any other tag raises ValueError. |
| Dists.SynonymsDisjoint | pydrobert/torch/estimators.py:93-95 | The three synonym sets are pairwise disjoint, so the dispatch is unambiguous. |
| Estimators.ToZ | pydrobert/torch/estimators.py:121-128 | `z` has the shape of the logits. An unknown tag raises ValueError. |
| Estimators.ToZShared | pydrobert/torch/estimators.py:125-127 | The categorical and one-hot families draw `z` with the same formula. |
| Estimators.BernZPositive | pydrobert/torch/estimators.py:123-124 | A Bernoulli `z` is positive exactly when the noise exceeds `sigmoid(-logits)`. |
| Estimators.Argmax | pydrobert/torch/estimators.py:148 | `argmax` returns an index attaining the row maximum, the first such. |
| Estimators.ToB | pydrobert/torch/estimators.py:133-153 | Bernoulli: `b` has the shape of `z`, with `1` exactly where `z > 0` and `0` elsewhere. Categorical: one whole index per row, at that row's first maximum. One-hot: a row marking exactly that index. A row without entries raises RuntimeError; an unknown tag raises ValueError. |
| Estimators.ToBSample | pydrobert/torch/estimators.py:145-153 | Every result of `to_b` is a sample: zeros and ones, an index within its row, or a one-hot row. |
| Estimators.OneHotMatchesCategorical | pydrobert/torch/estimators.py:147-151 | The one-hot sample's `1` sits at the index the categorical branch returns. |
| Estimators.ToBIdempotent | pydrobert/torch/estimators.py:145-151 | Applying `to_b` to a Bernoulli or one-hot sample gives the sample back. |
| Estimators.BernNoiseRange | pydrobert/torch/estimators.py:423-424 | `v'` lies in `(1 - θ, 1)` when `b = 1` and in `(0, 1 - θ)` when `b = 0`. |
| Estimators.BernTildeSign | pydrobert/torch/estimators.py:422-425 | A Bernoulli entry of `z~` is positive exactly when `b = 1`. |
| Estimators.TildeArgmax | pydrobert/torch/estimators.py:428-445 | With the mask on the observed index alone, that entry of `z~` strictly exceeds every other, so `argmax` returns it. |
| Estimators.OneHotTildeArgmax | pydrobert/torch/estimators.py:437-445 | For a one-hot `b`, the byte mask and `b.argmax()` pick the index of its `1`, and `argmax` of `z~` returns that index. |
| Estimators.ToZTilde | pydrobert/torch/estimators.py:420-448 | `z~` has the shape of the logits. A categorical index outside its row or an empty one-hot row raises RuntimeError, and an unknown tag raises ValueError. |
| Estimators.ZTildeRecovers | pydrobert/torch/estimators.py:420-448 | `z~ ~ Pr(z \| b, logits)` is consistent with `b`: for every family and every noise in `(0, 1)`, `to_b(z~) == b`. |
| Estimators.Reinforce | pydrobert/torch/estimators.py:209-224 | Each entry is `f(b) * d log Pr(b)`, with `f(b)` spread along the categories for the categorical families. An unknown tag raises ValueError. |
| Estimators.Relax | pydrobert/torch/estimators.py:291-323 | An unknown distribution tag raises ValueError. A known tag gives the relax estimate for that family. |
| Estimators.RelaxAs | pydrobert/torch/estimators.py:297-323 | The estimate is `(f(b) - c(z~)) d log Pr(b) + d c(z) - d c(z~)` entry by entry. The components are returned as given, with `diff` gaining a trailing axis only for the categorical families. |
| Estimators.RelaxComponents | pydrobert/torch/estimators.py:320-323 | `diff * dlog_pb + dc_z - dc_z_tilde`, from the components, is the estimate. |
| Rebar.Reset | pydrobert/torch/estimators.py:408-410 | `reset_parameters` sets `η` to `start_eta` and leaves the configuration alone. |
| Rebar.ResetTemperature | pydrobert/torch/estimators.py:408-410 | After a reset, `exp(log_temp) == start_temp`. |
| Rebar.ResetForgets | pydrobert/torch/estimators.py:408-410 | A reset is idempotent and forgets the trained parameters. |
| Rebar.NewRebar | pydrobert/torch/estimators.py:381-406 | `start_temp <= 0` raises ValueError before the tag is examined. A Bernoulli tag selects the sigmoid, a one-hot or categorical tag the softmax, and any other tag raises ValueError. The parameters start reset. |
| Rebar.RelaxAt | pydrobert/torch/estimators.py:412-417 | The relaxation has the shape of `z`. Sigmoid entries lie in `(0, 1)`, and softmax rows are positive and sum to one. |
| Rebar.Relaxed | pydrobert/torch/estimators.py:412-417 | `forward` relaxes at the current temperature, with the same guarantees. |
| Rebar.Scale | pydrobert/torch/estimators.py:415-417 | `η f(...)` multiplies every entry by `η` and keeps the shape. |
| Rebar.ForwardAtStart | pydrobert/torch/estimators.py:381-417 | A freshly built control variate computes `start_eta * f(σ(z / start_temp))`, with the sigmoid for a Bernoulli tag and the softmax otherwise. |

## Left out

- File and tensor I/O is replaced by inputs:
  - `open`, `os.listdir`, `os.path.isdir`, `torch.load`/`torch.save`, `get_utterance_tuple`, `write_pdf`, `write_hyp`;
  - directory listings, loaded tensors and file texts are passed in;
  - a path given instead of a file object is not modelled.
- Text handling:
  - Readers take a file's text after newline translation. For "trn" files, `Text.Translate` models the universal-newline translation of text mode, and `TrnProps.RoundTrip` is stated both before and after it;
  - `str.split()` and `str.strip()` use Python 3's `str.isspace` set. This includes the ASCII whitespace and separators, U+0085, U+00A0, U+1680, U+2000 to U+200A, U+2028, U+2029, U+202F, U+205F and U+3000.
- `warnings.warn` calls are left out:
  - missing ali/ref/feat files in `find_utt_ids`;
  - alternates in `read_trn`;
  - the categorical REBAR tag;
  - `requires_grad` in `to_z`.
- Parsing and printing floating-point numbers in "ctm" files (`float()`, `'{}'.format`) are parameters. `Ctm.ReadWrittenLine` and `Ctm.WriteThenRead` assume that the parser inverts the printer.
- All numbers are mathematical reals and integers. There is no floating-point rounding, NaN, infinity, or `int64`/`uint8` overflow. The one exception is the `uint8` conversion in the one-hot branch of `_to_z_tilde`, which is modelled as truncation modulo 256.
- `Ctm.SegLeTotalPreorder`: in `write_ctm`, two segments that tie up to their tokens, where one token is a string and the other an integer, make Python's `sorted` raise TypeError. The model orders integer tokens before string tokens instead.
- `Trn.WriteLine` and `Tokens.ElementRow`: the tuple test in `write_trn` and `transcript_to_token` (`len(x) == 3 and np.isreal(x[1]) and np.isreal(x[2])`) is modelled as true only for timed triples. This assumes `numpy.isreal` is false for one-character strings, so three-character string tokens are written whole and looked up whole.
- `Estimators.Argmax`: torch does not document which index `argmax` returns among equal maxima. The model takes the first.
- `Estimators.ToZ`: the noise is an input (`rand_like` and `clamp_probs` are not modelled), and `log1p(-u)` is written `log(1 - u)`.
- `torch.distributions` `log_prob` and `torch.autograd.grad` (with `create_graph`/`retain_graph`) are not modelled. Their results are the inputs of `Estimators.Reinforce` and `Estimators.Relax`. `relax` and `reinforce` are modelled from the point where those gradients exist.
- `Rebar.Relaxed`: the objective `f` is a parameter, and `torch.nn.Parameter` storage is a plain field. The uninitialised `torch.Tensor(1)` values are never observable, because the constructor resets them at once.
- Broadcasting is modelled only where the source relies on it: a single-entry row against a full row. Other operand shapes are excluded by preconditions (`Shaped`, `Conforms`, `Fits`, `GradsShaped`).
- `SpectData.ValidateSpectDataSet` works on the loaded `(feat, ali, ref)` triples. It reports the offending index rather than formatting the error message.
- `SpectData.FindUttIds` and `SpectData.UttIds`: the empty utterance id (a file named exactly `prefix + suffix`, or one where prefix and suffix overlap) is characterised by `SpectData.IdsInNames` but left out of the ids the contracts enumerate.
- The `DataLoader` subclasses, the `param.Parameterized` classes and `EpochRandomSampler` are left out: they wrap torch, param and numpy's random generator. Only their collate functions are modelled.
- `ContextWindowEvaluationDataLoader.eval_collate_fn` is left out. It only unzips the samples, passes the `(window, ali)` pairs to `context_window_seq_to_batch` (`Windows.SeqToBatch`), and returns the window counts and ids unchanged as a tensor and a tuple.
- The `to_z` noise formulas are modelled, but nothing is proved about their distribution.

## Findings

| source | as written | input that shows it | evidently intended | confidence | as-written member | corrected member |
|---|---|---|---|---|---|---|
| pydrobert/torch/data.py:1444-1456 | `context_window_seq_to_batch` sets `batch_ali = None` at the first missing alignment, then calls `batch_ali.append(ali)` for any later present one | `[(w, None), (w, a)]`: the second element appends to `None` and raises AttributeError | the docstring's rule: if `ali` is `None` in any element, `alis` is `None` and the windows are still batched | not executed | Windows.MissingThenPresent | Windows.SeqToBatch |

=== FILE: ctm.dfy ===
/** NIST sclite "ctm" (time-marked conversation) files: `read_ctm` and
    `write_ctm` of `pydrobert/torch/data.py`.

    A "ctm" line is `wfn chan start dur token [conf]`, with `;;` starting a
    comment. Reading groups the lines by utterance, in order of first
    appearance, and sorts each utterance's tokens by start time; writing emits
    one line per timed token, all lines sorted as tuples.

    Decimal numbers are kept abstract: the reader takes the parser of Python's
    `float` as a parameter and the writer takes the formatter of `str.format`,
    and both work on `real` values. */
module Ctm {

  import opened Results
  import opened Text
  import opened Sorting
  import opened Transcripts

  // ----------------------------------------------------------------------
  // Reading

  /** One token line: the utterance it belongs to, the token, and its start
      and end times in seconds. */
  datatype Entry = Entry(utt: string, token: string, start: real, end: real)

  /** `float(s)`, with `ValueError` for text that is not a number. */
  function ParseReal(s: string, parse: string -> Option<real>): (r: Result<real>)
    ensures r.Ok? <==> parse(s).Some?
    ensures r.Ok? ==> r.value == parse(s).value
    ensures r.Err? ==> r.error == ValueError
  {
    match parse(s)
    case Some(x) => Ok(x)
    case None => Err(ValueError)
  }

  /** The utterance of a line: the waveform file name itself, or its entry
      (with the channel) in `wc2utt`, `KeyError` when there is none. */
  function UttOf(wfn: string, chan: string, wc2utt: Option<map<(string, string), string>>): (r: Result<string>)
    ensures wc2utt.None? ==> r == Ok(wfn)
    ensures wc2utt.Some? ==> (r.Ok? <==> (wfn, chan) in wc2utt.value)
    ensures wc2utt.Some? && r.Ok? ==> r.value == wc2utt.value[(wfn, chan)]
    ensures r.Err? ==> r.error == KeyError
  {
    if wc2utt.None? then Ok(wfn)
    else if (wfn, chan) in wc2utt.value then Ok(wc2utt.value[(wfn, chan)])
    else Err(KeyError)
  }

  /** The text of a line that is read: comment removed, then stripped. */
  function Content(line: string): string {
    Strip(BeforeComment(line))
  }

  /** One line of a "ctm" file: `None` when it is blank or only a comment.
      A wrong number of fields, an unparsable number or a negative start or
      duration is a `ValueError`; an unknown `(wfn, chan)` is a `KeyError`,
      noticed before the numbers are parsed. */
  function ParseLine(line: string, wc2utt: Option<map<(string, string), string>>,
                     parse: string -> Option<real>): (r: Result<Option<Entry>>)
    ensures Content(line) == [] ==> r == Ok(None)
    ensures Content(line) != [] && r.Ok? ==> r.value.Some?
    ensures r.Ok? && r.value.Some? ==> 0.0 <= r.value.value.start <= r.value.value.end
  {
    var l := Content(line);
    if l == [] then Ok(None)
    else
      var e :- ParseFields(Fields(l, IsSpace), wc2utt, parse);
      Ok(Some(e))
  }

  /** The fields of a line that is not blank. */
  function ParseFields(f: seq<string>, wc2utt: Option<map<(string, string), string>>,
                       parse: string -> Option<real>): (r: Result<Entry>)
    ensures |f| != 5 && |f| != 6 ==> r == Err(ValueError)
    ensures r.Ok? ==> 0.0 <= r.value.start <= r.value.end
  {
    if |f| != 5 && |f| != 6 then Err(ValueError)
    else
      var utt :- UttOf(f[0], f[1], wc2utt);
      var start :- ParseReal(f[2], parse);
      var dur :- ParseReal(f[3], parse);
      var end := start + dur;
      if start < 0.0 || start > end then Err(ValueError)
      else Ok(Entry(utt, f[4], start, end))
  }

  /** The entries of the lines read, in file order; the first line that
      cannot be read decides the error. */
  function Gather(rs: seq<Result<Option<Entry>>>): (r: Result<seq<Entry>>)
    ensures r.Ok? <==> forall i :: 0 <= i < |rs| ==> rs[i].Ok?
  {
    if rs == [] then Ok([])
    else
      var e :- rs[0];
      var rest :- Gather(rs[1..]);
      Ok((if e.Some? then [e.value] else []) + rest)
  }

  function ReadEntries(ls: seq<string>, wc2utt: Option<map<(string, string), string>>,
                       parse: string -> Option<real>): (r: Result<seq<Entry>>)
    ensures r.Ok? <==> forall i :: 0 <= i < |ls| ==> ParseLine(ls[i], wc2utt, parse).Ok?
  {
    Gather(MapSeq(ls, (l: string) => ParseLine(l, wc2utt, parse)))
  }

  /** The distinct elements of `s` in order of first appearance (the key
      order of an `OrderedDict` filled with `setdefault`). */
  function Dedup(s: seq<string>): (r: seq<string>)
    ensures forall i, j :: 0 <= i < j < |r| ==> r[i] != r[j]
    ensures forall x :: x in r <==> x in s
    ensures forall i, j, k :: 0 <= i < j < |r| && 0 <= k < |s| && s[k] == r[j] ==> r[i] in s[..k]
  {
    if s == [] then []
    else
      var n := |s| - 1;
      var r := Dedup(s[..n]);
      assert forall x :: x in s <==> x in s[..n] || x == s[n] by {
        assert s == s[..n] + [s[n]];
      }
      assert forall k :: 0 <= k < n ==> s[..k] == s[..n][..k];
      if s[n] in r then r else r + [s[n]]
  }

  function Utts(es: seq<Entry>): (r: seq<string>)
    ensures |r| == |es| && forall k :: 0 <= k < |es| ==> r[k] == es[k].utt
  {
    MapSeq(es, (e: Entry) => e.utt)
  }

  /** The entries of utterance `u`, in file order. */
  function EntriesOf(es: seq<Entry>, u: string): (r: seq<Entry>)
    ensures multiset(r) <= multiset(es)
    ensures forall x :: x in r <==> x in es && x.utt == u
  {
    if es == [] then []
    else
      assert es == [es[0]] + es[1..];
      (if es[0].utt == u then [es[0]] else []) + EntriesOf(es[1..], u)
  }

  /** Each entry of utterance `u` is kept as often as it occurs, and no other
      entry is kept. */
  lemma {:induction false} EntriesOfCount(es: seq<Entry>, u: string, x: Entry)
    ensures multiset(EntriesOf(es, u))[x] == if x.utt == u then multiset(es)[x] else 0
  {
    if es != [] {
      EntriesOfCount(es[1..], u, x);
      assert es == [es[0]] + es[1..];
      var h := if es[0].utt == u then [es[0]] else [];
      assert EntriesOf(es, u) == h + EntriesOf(es[1..], u);
      assert multiset(EntriesOf(es, u)) == multiset(h) + multiset(EntriesOf(es[1..], u));
      assert multiset(es) == multiset([es[0]]) + multiset(es[1..]);
    }
  }

  /** Picking out an utterance's entries keeps file order: those of an earlier
      part of the file come before those of a later part. */
  lemma {:induction false} EntriesOfConcat(a: seq<Entry>, b: seq<Entry>, u: string)
    ensures EntriesOf(a + b, u) == EntriesOf(a, u) + EntriesOf(b, u)
  {
    if a == [] {
      assert a + b == b;
      assert EntriesOf(a, u) == [];
    } else {
      var ab := a + b;
      assert ab[0] == a[0] && ab[1..] == a[1..] + b;
      EntriesOfConcat(a[1..], b, u);
      EntriesOfCons(ab, u);
      EntriesOfCons(a, u);
    }
  }

  lemma EntriesOfCons(es: seq<Entry>, u: string)
    requires es != []
    ensures EntriesOf(es, u) == (if es[0].utt == u then [es[0]] else []) + EntriesOf(es[1..], u)
  {
  }

  predicate ByStart(a: Entry, b: Entry) {
    a.start <= b.start
  }

  function ToTimed(e: Entry): Element {
    Timed(Str(e.token), e.start, e.end)
  }

  /** The transcript of utterance `u`: its entries stably sorted by start. */
  function TranscriptOf(es: seq<Entry>, u: string): seq<Element> {
    MapSeq(Sort(EntriesOf(es, u), ByStart), ToTimed)
  }

  function Group(es: seq<Entry>): seq<Utterance> {
    MapSeq(Dedup(Utts(es)), (u: string) => Utterance(u, TranscriptOf(es, u)))
  }

  /** `read_ctm` on the text of a file. */
  function ReadCtm(text: string, wc2utt: Option<map<(string, string), string>>,
                   parse: string -> Option<real>): Result<seq<Utterance>> {
    var es :- ReadEntries(Lines(text), wc2utt, parse);
    Ok(Group(es))
  }

  // ----------------------------------------------------------------------
  // Properties of reading

  /** The first line that cannot be read decides the error. */
  lemma {:induction false} FirstBad(rs: seq<Result<Option<Entry>>>, i: nat)
    requires i < |rs| && rs[i].Err?
    requires forall k :: 0 <= k < i ==> rs[k].Ok?
    ensures Gather(rs) == Err(rs[i].error)
  {
    if i > 0 {
      FirstBad(rs[1..], i - 1);
    }
  }

  /** Reading stops at the first line that cannot be read, with its error. */
  lemma FirstBadLine(ls: seq<string>, wc2utt: Option<map<(string, string), string>>,
                     parse: string -> Option<real>, i: nat)
    requires i < |ls| && ParseLine(ls[i], wc2utt, parse).Err?
    requires forall k :: 0 <= k < i ==> ParseLine(ls[k], wc2utt, parse).Ok?
    ensures ReadEntries(ls, wc2utt, parse) == Err(ParseLine(ls[i], wc2utt, parse).error)
  {
    FirstBad(MapSeq(ls, (l: string) => ParseLine(l, wc2utt, parse)), i);
  }

  /** Lines that are blank or only a comment contribute nothing, and every
      other line its entry, in file order: reading two parts of a file one
      after the other gives the entries of the whole. */
  lemma {:induction false} GatherAppend(a: seq<Result<Option<Entry>>>, b: seq<Result<Option<Entry>>>)
    requires Gather(a).Ok? && Gather(b).Ok?
    ensures Gather(a + b) == Ok(Gather(a).value + Gather(b).value)
  {
    if a == [] {
      assert a + b == b;
      assert Gather(a).value == [];
      assert [] + Gather(b).value == Gather(b).value;
    } else {
      assert (a + b)[0] == a[0];
      assert (a + b)[1..] == a[1..] + b;
      GatherAppend(a[1..], b);
      var e := a[0].value;
      assert (if e.Some? then [e.value] else []) + (Gather(a[1..]).value + Gather(b).value)
          == Gather(a).value + Gather(b).value;
    }
  }

  lemma GatherOne(r: Result<Option<Entry>>)
    requires r.Ok?
    ensures Gather([r]) == Ok(if r.value.Some? then [r.value.value] else [])
  {
    assert [r][1..] == [];
    var e := r.value;
    assert (if e.Some? then [e.value] else []) + [] == (if e.Some? then [e.value] else []);
  }

  /** The utterances come out once each, in order of their first line, and
      every utterance of the file is among them. */
  lemma GroupIds(es: seq<Entry>)
    ensures |Group(es)| == |Dedup(Utts(es))|
    ensures forall i, j :: 0 <= i < j < |Group(es)| ==> Group(es)[i].id != Group(es)[j].id
    ensures forall k :: 0 <= k < |es| ==> exists i :: 0 <= i < |Group(es)| && Group(es)[i].id == es[k].utt
    ensures forall i, j, k :: 0 <= i < j < |Group(es)| && 0 <= k < |es| && es[k].utt == Group(es)[j].id
              ==> exists m :: 0 <= m < k && es[m].utt == Group(es)[i].id
  {
    var us := Utts(es);
    var d := Dedup(us);
    var g := Group(es);
    assert forall i :: 0 <= i < |g| ==> g[i].id == d[i];
    forall k | 0 <= k < |es|
      ensures exists i :: 0 <= i < |g| && g[i].id == es[k].utt
    {
      assert us[k] in us;
      var i :| 0 <= i < |d| && d[i] == us[k];
      assert g[i].id == es[k].utt;
    }
    forall i, j, k | 0 <= i < j < |g| && 0 <= k < |es| && es[k].utt == g[j].id
      ensures exists m :: 0 <= m < k && es[m].utt == g[i].id
    {
      assert us[k] == d[j];
      assert d[i] in us[..k];
      var m :| 0 <= m < k && us[..k][m] == d[i];
      assert es[m].utt == g[i].id;
    }
  }

  lemma ByStartTotal()
    ensures TotalPreorder(ByStart)
  {
  }

  /** Each utterance's tokens are ordered by start time, are exactly the
      tokens of its lines, and tokens starting at the same time keep their
      file order. */
  lemma TranscriptSorted(es: seq<Entry>, u: string, k: Entry)
    ensures var t := TranscriptOf(es, u);
            forall i, j :: 0 <= i < j < |t| ==> t[i].start <= t[j].start
    ensures multiset(Sort(EntriesOf(es, u), ByStart)) == multiset(EntriesOf(es, u))
    ensures Equivalents(Sort(EntriesOf(es, u), ByStart), k, ByStart) == Equivalents(EntriesOf(es, u), k, ByStart)
  {
    ByStartTotal();
    var s := Sort(EntriesOf(es, u), ByStart);
    SortSorted(EntriesOf(es, u), ByStart);
    SortStable(EntriesOf(es, u), k, ByStart);
    var t := TranscriptOf(es, u);
    forall i, j | 0 <= i < j < |t|
      ensures t[i].start <= t[j].start
    {
      assert ByStart(s[i], s[j]);
    }
  }

  // ----------------------------------------------------------------------
  // Writing

  /** How utterances map to `(wfn, chan)`: a channel shared by all (the
      utterance id being the file name), or a table. */
  datatype Utt2Wc = Channel(chan: string) | Table(m: map<string, (string, string)>)

  /** One line to write: the tuple `(wfn, chan, start, duration, token)`. */
  datatype Segment = Segment(wfn: string, chan: string, start: real, dur: real, token: Sym)

  function WcOf(id: string, utt2wc: Utt2Wc): (r: Result<(string, string)>)
    ensures utt2wc.Channel? ==> r == Ok((id, utt2wc.chan))
    ensures utt2wc.Table? ==> (r.Ok? <==> id in utt2wc.m)
    ensures r.Err? ==> r.error == KeyError
  {
    match utt2wc
    case Channel(c) => Ok((id, c))
    case Table(m) => if id in m then Ok(m[id]) else Err(KeyError)
  }

  /** A transcript element as a segment. Only `(token, start, end)` triples
      with non-negative times and duration are accepted: a bare string token
      or an alteration (whose times are -1) is a `ValueError`, and a bare
      integer token has no length, a `TypeError`. */
  function SegmentOf(wfn: string, chan: string, e: Element): (r: Result<Segment>)
    ensures r.Ok? <==> e.Timed? && 0.0 <= e.start <= e.end
    ensures r.Ok? ==> r.value.start == e.start && r.value.start + r.value.dur == e.end
                      && r.value.token == e.sym && r.value.wfn == wfn && r.value.chan == chan
    ensures r.Err? ==> (r.error == TypeError <==> e.Token? && e.sym.Id?)
  {
    match e
    case Token(Id(_)) => Err(TypeError)
    case Token(Str(_)) => Err(ValueError)
    case Alt(_) => Err(ValueError)
    case Timed(sym, start, end) =>
      if start < 0.0 || end < 0.0 then Err(ValueError)
      else if end - start < 0.0 then Err(ValueError)
      else Ok(Segment(wfn, chan, start, end - start, sym))
  }

  function SegmentsOf(wfn: string, chan: string, t: seq<Element>): (r: Result<seq<Segment>>)
    ensures r.Ok? <==> forall j :: 0 <= j < |t| ==> SegmentOf(wfn, chan, t[j]).Ok?
    ensures r.Ok? ==> |r.value| == |t| && forall j :: 0 <= j < |t| ==> r.value[j] == SegmentOf(wfn, chan, t[j]).value
  {
    if t == [] then Ok([])
    else
      var s :- SegmentOf(wfn, chan, t[0]);
      var rest :- SegmentsOf(wfn, chan, t[1..]);
      Ok([s] + rest)
  }

  /** The segments of all utterances, in order; an utterance's `(wfn, chan)`
      is looked up before its tokens are checked. */
  function Collect(ts: seq<Utterance>, utt2wc: Utt2Wc): (r: Result<seq<Segment>>)
    ensures r.Ok? <==> forall i :: 0 <= i < |ts| ==>
                         && WcOf(ts[i].id, utt2wc).Ok?
                         && var (w, c) := WcOf(ts[i].id, utt2wc).value;
                            SegmentsOf(w, c, ts[i].transcript).Ok?
  {
    if ts == [] then Ok([])
    else
      var wc :- WcOf(ts[0].id, utt2wc);
      var s :- SegmentsOf(wc.0, wc.1, ts[0].transcript);
      var rest :- Collect(ts[1..], utt2wc);
      Ok(s + rest)
  }

  /** Python's order on the tokens of a segment. Strings compare as strings and
      integers as integers; the model puts integers first where Python would
      raise `TypeError`. */
  predicate SymLe(a: Sym, b: Sym) {
    match (a, b)
    case (Str(x), Str(y)) => StrLe(x, y)
    case (Id(m), Id(n)) => m <= n
    case (Id(_), Str(_)) => true
    case (Str(_), Id(_)) => false
  }

  /** Python's tuple order on segments: field by field, left to right. */
  predicate SegLe(a: Segment, b: Segment) {
    if a.wfn != b.wfn then StrLe(a.wfn, b.wfn)
    else if a.chan != b.chan then StrLe(a.chan, b.chan)
    else if a.start != b.start then a.start < b.start
    else if a.dur != b.dur then a.dur < b.dur
    else SymLe(a.token, b.token)
  }

  /** `write_ctm`: the segments in the order their lines are written. */
  function WriteCtm(ts: seq<Utterance>, utt2wc: Utt2Wc): (r: Result<seq<Segment>>)
    ensures r.Ok? <==> Collect(ts, utt2wc).Ok?
    ensures r.Ok? ==> multiset(r.value) == multiset(Collect(ts, utt2wc).value)
  {
    var segs :- Collect(ts, utt2wc);
    Ok(Sort(segs, SegLe))
  }

  lemma {:induction false} SymLeTotal(a: Sym, b: Sym)
    ensures SymLe(a, b) || SymLe(b, a)
  {
    if a.Str? && b.Str? {
      StrLeTotal(a.s, b.s);
    }
  }

  lemma {:induction false} SymLeTransitive(a: Sym, b: Sym, c: Sym)
    requires SymLe(a, b) && SymLe(b, c)
    ensures SymLe(a, c)
  {
    if a.Str? && b.Str? && c.Str? {
      StrLeTransitive(a.s, b.s, c.s);
    }
  }

  lemma {:induction false} SegLeTotal(a: Segment, b: Segment)
    ensures SegLe(a, b) || SegLe(b, a)
  {
    StrLeTotal(a.wfn, b.wfn);
    StrLeTotal(a.chan, b.chan);
    SymLeTotal(a.token, b.token);
  }

  lemma {:induction false} SegLeTransitive(a: Segment, b: Segment, c: Segment)
    requires SegLe(a, b) && SegLe(b, c)
    ensures SegLe(a, c)
  {
    if a.wfn != b.wfn || b.wfn != c.wfn {
      StrFieldTransitive(a.wfn, b.wfn, c.wfn);
    } else if a.chan != b.chan || b.chan != c.chan {
      StrFieldTransitive(a.chan, b.chan, c.chan);
    } else if a.start == b.start == c.start && a.dur == b.dur == c.dur {
      SymLeTransitive(a.token, b.token, c.token);
    }
  }

  /** Transitivity of "`x` precedes `y` or equals it" for one string field of
      a lexicographic order. */
  lemma StrFieldTransitive(x: string, y: string, z: string)
    requires x != y ==> StrLe(x, y)
    requires y != z ==> StrLe(y, z)
    requires x != y || y != z
    ensures x != z && StrLe(x, z)
  {
    if x != y && y != z {
      StrLeTransitive(x, y, z);
      if x == z {
        StrLeAntisymmetric(x, y);
      }
    }
  }

  lemma SegLeTotalPreorder()
    ensures TotalPreorder(SegLe)
  {
    forall a, b ensures SegLe(a, b) || SegLe(b, a) {
      SegLeTotal(a, b);
    }
    forall a, b, c | SegLe(a, b) && SegLe(b, c) ensures SegLe(a, c) {
      SegLeTransitive(a, b, c);
    }
  }

  /** The written lines are in ascending tuple order. */
  lemma WriteCtmSorted(ts: seq<Utterance>, utt2wc: Utt2Wc)
    requires WriteCtm(ts, utt2wc).Ok?
    ensures SortedBy(WriteCtm(ts, utt2wc).value, SegLe)
  {
    SegLeTotalPreorder();
    SortSorted(Collect(ts, utt2wc).value, SegLe);
  }

  // ----------------------------------------------------------------------
  // A written line read back

  /** The decimal digits of `n`. */
  function Digits(n: nat): (r: string)
    ensures r != [] && forall i :: 0 <= i < |r| ==> '0' <= r[i] <= '9'
  {
    var d := ['0' + (n % 10) as char];
    if n < 10 then d else Digits(n / 10) + d
  }

  /** `str(n)` for an integer token. */
  function Decimal(n: int): (r: string)
    ensures r != [] && NoSpace(r) && ';' !in r
  {
    if n < 0 then "-" + Digits(-n) else Digits(n)
  }

  function TokenText(t: Sym): (r: string)
    ensures t.Str? ==> r == t.s
  {
    match t
    case Str(s) => s
    case Id(n) => Decimal(n)
  }

  /** `'{} {} {} {} {}\n'.format(*segment)`, with `fmt` rendering the times. */
  function FormatSegment(seg: Segment, fmt: real -> string): string {
    JoinSpaced(SegmentWords(seg, fmt)) + "\n"
  }

  /** A field that survives being written and split again. */
  predicate IsField(s: string) {
    s != [] && NoSpace(s) && ';' !in s
  }

  /** A segment line, read back, gives the token with its start time and its
      end time recovered as start plus duration; the utterance is found as the
      reader would find any other. */
  lemma ReadWrittenLine(seg: Segment, fmt: real -> string, parse: string -> Option<real>,
                        wc2utt: Option<map<(string, string), string>>)
    requires IsField(seg.wfn) && IsField(seg.chan) && IsField(TokenText(seg.token))
    requires IsField(fmt(seg.start)) && IsField(fmt(seg.dur))
    requires parse(fmt(seg.start)) == Some(seg.start) && parse(fmt(seg.dur)) == Some(seg.dur)
    requires 0.0 <= seg.start && 0.0 <= seg.dur
    ensures ParseLine(FormatSegment(seg, fmt), wc2utt, parse)
         == (match UttOf(seg.wfn, seg.chan, wc2utt)
             case Ok(u) => Ok(Some(Entry(u, TokenText(seg.token), seg.start, seg.start + seg.dur)))
             case Err(e) => Err(e))
  {
    SegmentFields(seg, fmt);
    var ws := SegmentWords(seg, fmt);
    ParseFive(FormatSegment(seg, fmt), ws, wc2utt, parse);
  }

  /** The five fields of a segment line, in the order they are written. */
  function SegmentWords(seg: Segment, fmt: real -> string): (ws: seq<string>)
    ensures |ws| == 5 && ws[0] == seg.wfn && ws[1] == seg.chan && ws[2] == fmt(seg.start)
            && ws[3] == fmt(seg.dur) && ws[4] == TokenText(seg.token)
  {
    [seg.wfn, seg.chan, fmt(seg.start), fmt(seg.dur), TokenText(seg.token)]
  }

  lemma SegmentFields(seg: Segment, fmt: real -> string)
    requires IsField(seg.wfn) && IsField(seg.chan) && IsField(TokenText(seg.token))
    requires IsField(fmt(seg.start)) && IsField(fmt(seg.dur))
    ensures Content(FormatSegment(seg, fmt)) != []
    ensures Fields(Content(FormatSegment(seg, fmt)), IsSpace) == SegmentWords(seg, fmt)
  {
    var ws := SegmentWords(seg, fmt);
    assert forall i :: 0 <= i < 5 ==> IsField(ws[i]);
    WrittenContent(ws);
  }

  /** The content of a line of five fields joined by spaces is those fields. */
  lemma WrittenContent(ws: seq<string>)
    requires |ws| == 5 && forall i :: 0 <= i < 5 ==> IsField(ws[i])
    ensures Content(JoinSpaced(ws) + "\n") == JoinSpaced(ws) != []
    ensures Fields(JoinSpaced(ws), IsSpace) == ws
  {
    var j := JoinSpaced(ws);
    var line := j + "\n";
    JoinSpacedChars(ws, (c: char) => c != ';');
    JoinSpacedEnds(ws);
    assert forall i :: 0 <= i < |line| ==> line[i] != ';' by {
      forall i | 0 <= i < |line| ensures line[i] != ';' {
        if i < |j| { assert line[i] == j[i]; }
      }
    }
    assert BeforeComment(line) == line;
    assert IsSpace('\n');
    StripOneTrailing(j, '\n');
    FieldsJoinSpaced(ws);
  }

  lemma ParseFive(line: string, ws: seq<string>, wc2utt: Option<map<(string, string), string>>,
                  parse: string -> Option<real>)
    requires |ws| == 5 && Content(line) != [] && Fields(Content(line), IsSpace) == ws
    requires parse(ws[2]).Some? && parse(ws[3]).Some?
    requires 0.0 <= parse(ws[2]).value && 0.0 <= parse(ws[3]).value
    ensures ParseLine(line, wc2utt, parse)
         == (match UttOf(ws[0], ws[1], wc2utt)
             case Ok(u) => Ok(Some(Entry(u, ws[4], parse(ws[2]).value, parse(ws[2]).value + parse(ws[3]).value)))
             case Err(e) => Err(e))
  {
    FiveFields(ws, wc2utt, parse);
  }

  /** A line of five fields, or six with a confidence, whose numbers parse to
      a start and a duration that are not negative: the entry runs from the
      start to the start plus the duration, once the utterance is known. The
      confidence is ignored. */
  lemma FiveFields(ws: seq<string>, wc2utt: Option<map<(string, string), string>>,
                   parse: string -> Option<real>)
    requires |ws| == 5 || |ws| == 6
    requires parse(ws[2]).Some? && parse(ws[3]).Some?
    requires 0.0 <= parse(ws[2]).value && 0.0 <= parse(ws[3]).value
    ensures ParseFields(ws, wc2utt, parse)
         == (match UttOf(ws[0], ws[1], wc2utt)
             case Ok(u) => Ok(Entry(u, ws[4], parse(ws[2]).value, parse(ws[2]).value + parse(ws[3]).value))
             case Err(e) => Err(e))
    ensures ParseFields(ws, wc2utt, parse) == ParseFields(ws[..5], wc2utt, parse)
  {
  }

  /** An unknown `(wfn, chan)` is a `KeyError`, whatever the numbers: the
      table is consulted before they are parsed. */
  lemma UnknownChannel(ws: seq<string>, m: map<(string, string), string>, parse: string -> Option<real>)
    requires |ws| == 5 || |ws| == 6
    requires (ws[0], ws[1]) !in m
    ensures ParseFields(ws, Some(m), parse) == Err(KeyError)
  {
  }

  /** Once the utterance is known, a start or duration that does not parse,
      or is negative, is a `ValueError`. */
  lemma BadTimes(ws: seq<string>, wc2utt: Option<map<(string, string), string>>,
                 parse: string -> Option<real>)
    requires |ws| == 5 || |ws| == 6
    requires UttOf(ws[0], ws[1], wc2utt).Ok?
    requires || parse(ws[2]).None? || parse(ws[3]).None?
             || parse(ws[2]).value < 0.0 || parse(ws[3]).value < 0.0
    ensures ParseFields(ws, wc2utt, parse) == Err(ValueError)
  {
  }

  // ----------------------------------------------------------------------
  // A written file read back

  /** The text written for segments already in order. */
  function SegmentText(segs: seq<Segment>, fmt: real -> string): string {
    Unlines(MapSeq(segs, (seg: Segment) => FormatSegment(seg, fmt)))
  }

  /** `write_ctm` on a file: the text of the file written. */
  function WriteCtmText(ts: seq<Utterance>, utt2wc: Utt2Wc, fmt: real -> string): (r: Result<string>)
    ensures r.Ok? <==> WriteCtm(ts, utt2wc).Ok?
  {
    var segs :- WriteCtm(ts, utt2wc);
    Ok(SegmentText(segs, fmt))
  }

  /** A segment whose line is read back as the segment: fields without
      whitespace or `;`, times that the parser recovers from their text, and
      no negative time. */
  predicate Readable(seg: Segment, fmt: real -> string, parse: string -> Option<real>) {
    && IsField(seg.wfn) && IsField(seg.chan) && IsField(TokenText(seg.token))
    && IsField(fmt(seg.start)) && IsField(fmt(seg.dur))
    && parse(fmt(seg.start)) == Some(seg.start) && parse(fmt(seg.dur)) == Some(seg.dur)
    && 0.0 <= seg.start && 0.0 <= seg.dur
  }

  /** The entry read from a segment's line, when its utterance is known. */
  function EntryOf(seg: Segment, wc2utt: Option<map<(string, string), string>>): Entry {
    var u := match UttOf(seg.wfn, seg.chan, wc2utt) case Ok(u) => u case Err(_) => [];
    Entry(u, TokenText(seg.token), seg.start, seg.start + seg.dur)
  }

  lemma FormatIsLine(seg: Segment, fmt: real -> string, parse: string -> Option<real>)
    requires Readable(seg, fmt, parse)
    ensures IsLine(FormatSegment(seg, fmt))
  {
    var ws := [seg.wfn, seg.chan, fmt(seg.start), fmt(seg.dur), TokenText(seg.token)];
    assert IsSpace('\n');
    JoinSpacedChars(ws, (c: char) => c != '\n');
    var line := FormatSegment(seg, fmt);
    assert line[..|line| - 1] == JoinSpaced(ws);
  }

  lemma {:induction false} GatherAll(rs: seq<Result<Option<Entry>>>, es: seq<Entry>)
    requires |rs| == |es| && forall i :: 0 <= i < |rs| ==> rs[i] == Ok(Some(es[i]))
    ensures Gather(rs) == Ok(es)
  {
    if rs != [] {
      GatherAll(rs[1..], es[1..]);
      assert es == [es[0]] + es[1..];
    }
  }

  /** Reading the lines written for readable segments gives one entry per
      segment, in the order written. */
  lemma ReadWrittenSegments(segs: seq<Segment>, fmt: real -> string, parse: string -> Option<real>,
                            wc2utt: Option<map<(string, string), string>>)
    requires forall i :: 0 <= i < |segs| ==> Readable(segs[i], fmt, parse)
    requires forall i :: 0 <= i < |segs| ==> UttOf(segs[i].wfn, segs[i].chan, wc2utt).Ok?
    ensures ReadEntries(Lines(SegmentText(segs, fmt)), wc2utt, parse)
         == Ok(MapSeq(segs, (seg: Segment) => EntryOf(seg, wc2utt)))
  {
    var ls := MapSeq(segs, (seg: Segment) => FormatSegment(seg, fmt));
    forall j | 0 <= j < |ls| ensures IsLine(ls[j]) {
      FormatIsLine(segs[j], fmt, parse);
    }
    LinesUnlines(ls);
    var rs := MapSeq(ls, (l: string) => ParseLine(l, wc2utt, parse));
    var es := MapSeq(segs, (seg: Segment) => EntryOf(seg, wc2utt));
    forall i | 0 <= i < |rs| ensures rs[i] == Ok(Some(es[i])) {
      ReadSegmentLine(segs[i], fmt, parse, wc2utt);
    }
    GatherAll(rs, es);
    assert ReadEntries(ls, wc2utt, parse) == Gather(rs);
  }

  lemma ReadSegmentLine(seg: Segment, fmt: real -> string, parse: string -> Option<real>,
                        wc2utt: Option<map<(string, string), string>>)
    requires Readable(seg, fmt, parse) && UttOf(seg.wfn, seg.chan, wc2utt).Ok?
    ensures ParseLine(FormatSegment(seg, fmt), wc2utt, parse) == Ok(Some(EntryOf(seg, wc2utt)))
  {
    var u := UttOf(seg.wfn, seg.chan, wc2utt).value;
    var e := Entry(u, TokenText(seg.token), seg.start, seg.start + seg.dur);
    assert EntryOf(seg, wc2utt) == e;
    ReadWrittenLine(seg, fmt, parse, wc2utt);
    assert ParseLine(FormatSegment(seg, fmt), wc2utt, parse) == Ok(Some(e));
  }

  /** `read_ctm` after `write_ctm`, line by line: every token comes back with
      its start and end time, in the order the lines were written, provided
      each written field can be read back. */
  lemma WriteThenRead(ts: seq<Utterance>, utt2wc: Utt2Wc, fmt: real -> string,
                      parse: string -> Option<real>, wc2utt: Option<map<(string, string), string>>)
    requires WriteCtm(ts, utt2wc).Ok?
    requires forall i :: 0 <= i < |WriteCtm(ts, utt2wc).value| ==>
               var seg := WriteCtm(ts, utt2wc).value[i];
               Readable(seg, fmt, parse) && UttOf(seg.wfn, seg.chan, wc2utt).Ok?
    ensures ReadEntries(Lines(WriteCtmText(ts, utt2wc, fmt).value), wc2utt, parse)
         == Ok(MapSeq(WriteCtm(ts, utt2wc).value, (seg: Segment) => EntryOf(seg, wc2utt)))
    ensures ReadCtm(WriteCtmText(ts, utt2wc, fmt).value, wc2utt, parse)
         == Ok(Group(MapSeq(WriteCtm(ts, utt2wc).value, (seg: Segment) => EntryOf(seg, wc2utt))))
  {
    ReadWrittenSegments(WriteCtm(ts, utt2wc).value, fmt, parse, wc2utt);
  }
}

=== FILE: dists.dfy ===
/** The distribution tags of `pydrobert/torch/estimators.py`: each family is
    named by a set of synonyms, and every estimator dispatches on which set
    its `dist` argument falls in. */
module Dists {

  import opened Results

  datatype Dist = Bernoulli | Categorical | OneHot

  const BERNOULLI_SYNONYMS: set<string> := {"bern", "Bern", "bernoulli", "Bernoulli"}
  const CATEGORICAL_SYNONYMS: set<string> := {"cat", "Cat", "categorical", "Categorical"}
  const ONEHOT_SYNONYMS: set<string> := {"onehot", "OneHotCategorical"}

  /** The tag test every estimator performs, in the order `to_b` tests it; a
      tag outside the three sets is a `ValueError`. */
  function DistOf(tag: string): (r: Result<Dist>)
    ensures r == Ok(Bernoulli) <==> tag in BERNOULLI_SYNONYMS
    ensures r == Ok(Categorical) <==> tag in CATEGORICAL_SYNONYMS
    ensures r == Ok(OneHot) <==> tag in ONEHOT_SYNONYMS
    ensures r.Err? ==> r.error == ValueError
  {
    if tag in BERNOULLI_SYNONYMS then Ok(Bernoulli)
    else if tag in CATEGORICAL_SYNONYMS then Ok(Categorical)
    else if tag in ONEHOT_SYNONYMS then Ok(OneHot)
    else Err(ValueError)
  }

  /** No tag names two families, so the order of the tests never matters. */
  lemma SynonymsDisjoint()
    ensures BERNOULLI_SYNONYMS * CATEGORICAL_SYNONYMS == {}
    ensures BERNOULLI_SYNONYMS * ONEHOT_SYNONYMS == {}
    ensures CATEGORICAL_SYNONYMS * ONEHOT_SYNONYMS == {}
  {
  }
}

=== FILE: estimators.dfy ===
/** The discrete parts of `pydrobert/torch/estimators.py`: `to_b`, the
    conditional noise of `_to_z_tilde`, and how `reinforce` and `relax`
    assemble their terms.

    A tensor is an `(N, D)` matrix: one row per sample, the `D` categories (or
    independent Bernoulli variables) along the last axis. Uniform noise and
    the gradients autograd computes are inputs. */
module Estimators {

  import opened Results
  import opened Dists
  import opened RealMath

  type Matrix = seq<seq<real>>

  /** A tensor of rank one (one value per row) or two. */
  datatype Value = Flat(xs: seq<real>) | Grid(rows: Matrix)

  predicate SameShape(a: Matrix, b: Matrix) {
    |a| == |b| && forall n :: 0 <= n < |a| ==> |a[n]| == |b[n]|
  }

  predicate NonEmptyRows(z: Matrix) {
    forall n :: 0 <= n < |z| ==> z[n] != []
  }

  // ----------------------------------------------------------------------
  // to_z

  /** `log(softmax(row))`. */
  function LogSoftmax(m: Maths, row: seq<real>): (r: seq<real>)
    requires Lawful(m)
    ensures |r| == |row|
  {
    var theta := Softmax(m, row);
    seq(|row|, i requires 0 <= i < |row| => m.log(theta[i]))
  }

  /** `to_z` on clamped uniform noise `u`: logistic noise added to the logits
      for the Bernoulli family, Gumbel noise added to the log-probabilities for
      the categorical and one-hot families, which share one formula. */
  function ToZ(m: Maths, logits: Matrix, u: Matrix, tag: string): (r: Result<Matrix>)
    requires Lawful(m) && SameShape(u, logits)
    ensures r.Err? <==> DistOf(tag).Err?
    ensures r.Err? ==> r.error == ValueError
    ensures r.Ok? ==> SameShape(r.value, logits)
  {
    var d :- DistOf(tag);
    if d == Bernoulli then
      Ok(seq(|logits|, n requires 0 <= n < |logits| =>
        seq(|logits[n]|, i requires 0 <= i < |logits[n]| => logits[n][i] + m.log(u[n][i]) - m.log(1.0 - u[n][i]))))
    else
      Ok(seq(|logits|, n requires 0 <= n < |logits| =>
        var lt := LogSoftmax(m, logits[n]);
        seq(|logits[n]|, i requires 0 <= i < |logits[n]| => lt[i] - m.log(-m.log(u[n][i])))))
  }

  /** The categorical and one-hot families draw `z` alike. */
  lemma ToZShared(m: Maths, logits: Matrix, u: Matrix, cat: string, oneHot: string)
    requires Lawful(m) && SameShape(u, logits)
    requires cat in CATEGORICAL_SYNONYMS && oneHot in ONEHOT_SYNONYMS
    ensures ToZ(m, logits, u, cat) == ToZ(m, logits, u, oneHot)
  {
    assert DistOf(cat) == Ok(Categorical) && DistOf(oneHot) == Ok(OneHot);
  }

  /** A Bernoulli `z` is positive exactly when the noise exceeds
      `1 - θ = sigmoid(-logits)`: the sample is `1` with probability `θ`. */
  lemma BernZPositive(m: Maths, l: real, u: real)
    requires Lawful(m) && 0.0 < u < 1.0
    ensures l + m.log(u) - m.log(1.0 - u) > 0.0 <==> u > m.sigmoid(-l)
  {
    var om := m.sigmoid(-l);
    assert Logit(m, om) == -l;
    if u > om {
      LogitIncreasing(m, om, u);
    } else if u < om {
      LogitIncreasing(m, u, om);
    }
  }

  // ----------------------------------------------------------------------
  // to_b

  /** `k` is the first index at which `row` is largest. */
  predicate FirstMax(row: seq<real>, k: int) {
    && 0 <= k < |row|
    && (forall j :: 0 <= j < |row| ==> row[j] <= row[k])
    && (forall j :: 0 <= j < k ==> row[j] < row[k])
  }

  /** `argmax` along the last axis, taking the first of equal maxima. */
  function Argmax(row: seq<real>): (k: nat)
    requires row != []
    ensures FirstMax(row, k)
  {
    if |row| == 1 then 0
    else
      var p := row[..|row| - 1];
      var k := Argmax(p);
      assert forall j :: 0 <= j < |p| ==> p[j] == row[j];
      if row[|row| - 1] > row[k] then |row| - 1 else k
  }

  lemma FirstMaxUnique(row: seq<real>, k: int, k': int)
    requires FirstMax(row, k) && FirstMax(row, k')
    ensures k == k'
  {
    assert row[k] <= row[k'] && row[k'] <= row[k];
  }

  function OneHotRow(k: nat, d: nat): seq<real> {
    seq(d, i => if i == k then 1.0 else 0.0)
  }

  /** `z.gt(0.)` as a number. */
  function Indicator(x: real): real {
    if x > 0.0 then 1.0 else 0.0
  }

  /** `to_b`: the Bernoulli sample is `z > 0` entrywise, the categorical one
      the index of the largest entry of each row, and the one-hot one a row
      with a single `1` there. A row without entries has no largest one. */
  function ToB(z: Matrix, tag: string): (r: Result<Value>)
    ensures DistOf(tag).Err? ==> r == Err(ValueError)
    ensures DistOf(tag) == Ok(Bernoulli) ==>
              && r.Ok? && r.value.Grid? && SameShape(r.value.rows, z)
              && forall n, i :: 0 <= n < |z| && 0 <= i < |z[n]| ==>
                   (r.value.rows[n][i] == 1.0 <==> z[n][i] > 0.0) && (r.value.rows[n][i] == 0.0 <==> z[n][i] <= 0.0)
    ensures DistOf(tag) == Ok(Categorical) ==>
              && (r.Ok? <==> NonEmptyRows(z)) && (r.Err? ==> r.error == RuntimeError)
              && (r.Ok? ==> r.value.Flat? && |r.value.xs| == |z|
                            && forall n :: 0 <= n < |z| ==> IsWhole(r.value.xs[n]) && FirstMax(z[n], r.value.xs[n].Floor))
    ensures DistOf(tag) == Ok(OneHot) ==>
              && (r.Ok? <==> NonEmptyRows(z)) && (r.Err? ==> r.error == RuntimeError)
              && (r.Ok? ==> r.value.Grid? && SameShape(r.value.rows, z)
                            && forall n, i :: 0 <= n < |z| && 0 <= i < |z[n]| ==>
                                 r.value.rows[n][i] == if FirstMax(z[n], i) then 1.0 else 0.0)
  {
    var d :- DistOf(tag);
    match d
    case Bernoulli =>
      Ok(Grid(seq(|z|, n requires 0 <= n < |z| => seq(|z[n]|, i requires 0 <= i < |z[n]| => Indicator(z[n][i])))))
    case Categorical =>
      if !NonEmptyRows(z) then Err(RuntimeError)
      else Ok(Flat(seq(|z|, n requires 0 <= n < |z| => Argmax(z[n]) as real)))
    case OneHot =>
      if !NonEmptyRows(z) then Err(RuntimeError)
      else
        OneHotArgmaxRows(z);
        Ok(Grid(seq(|z|, n requires 0 <= n < |z| => OneHotRow(Argmax(z[n]), |z[n]|))))
  }

  /** The one-hot row at the first maximum has its `1` exactly where the row
      is first largest. */
  lemma OneHotArgmaxRows(z: Matrix)
    requires NonEmptyRows(z)
    ensures forall n, i :: 0 <= n < |z| && 0 <= i < |z[n]| ==>
              OneHotRow(Argmax(z[n]), |z[n]|)[i] == if FirstMax(z[n], i) then 1.0 else 0.0
  {
    forall n, i | 0 <= n < |z| && 0 <= i < |z[n]|
      ensures OneHotRow(Argmax(z[n]), |z[n]|)[i] == if FirstMax(z[n], i) then 1.0 else 0.0
    {
      if FirstMax(z[n], i) {
        FirstMaxUnique(z[n], i, Argmax(z[n]));
      }
    }
  }

  /** A row marking where `row` is first largest is the one-hot row of its
      `argmax`. */
  lemma OneHotOfMax(row: seq<real>, out: seq<real>)
    requires row != [] && |out| == |row|
    requires forall i :: 0 <= i < |row| ==> out[i] == if FirstMax(row, i) then 1.0 else 0.0
    ensures out == OneHotRow(Argmax(row), |row|)
  {
    OneHotArgmaxRows([row]);
    assert forall i :: 0 <= i < |row| ==> out[i] == OneHotRow(Argmax(row), |row|)[i];
  }

  /** What `to_b` can return for `z` shaped like `shape`: zeros and ones, a
      whole index into each row, or a one-hot row. */
  predicate IsSample(b: Value, shape: Matrix, d: Dist) {
    match d
    case Bernoulli =>
      b.Grid? && SameShape(b.rows, shape)
      && forall n, i :: 0 <= n < |shape| && 0 <= i < |shape[n]| ==> b.rows[n][i] == 0.0 || b.rows[n][i] == 1.0
    case Categorical =>
      b.Flat? && |b.xs| == |shape|
      && forall n :: 0 <= n < |shape| ==> IsWhole(b.xs[n]) && 0.0 <= b.xs[n] < |shape[n]| as real
    case OneHot =>
      b.Grid? && |b.rows| == |shape|
      && forall n :: 0 <= n < |shape| ==> IsOneHot(b.rows[n], |shape[n]|)
  }

  /** `row` has `d` entries, one of them `1` and the others `0`. */
  predicate IsOneHot(row: seq<real>, d: nat) {
    exists k: nat :: k < d && row == OneHotRow(k, d)
  }

  lemma ToBSample(z: Matrix, tag: string)
    requires ToB(z, tag).Ok?
    ensures DistOf(tag).Ok? && IsSample(ToB(z, tag).value, z, DistOf(tag).value)
  {
    var b := ToB(z, tag).value;
    if DistOf(tag) == Ok(Categorical) {
      forall n | 0 <= n < |z|
        ensures IsWhole(b.xs[n]) && 0.0 <= b.xs[n] < |z[n]| as real
      {
        assert FirstMax(z[n], b.xs[n].Floor);
      }
    }
    if DistOf(tag) == Ok(OneHot) {
      forall n | 0 <= n < |z|
        ensures IsOneHot(b.rows[n], |z[n]|)
      {
        OneHotOfMax(z[n], b.rows[n]);
      }
    }
  }

  /** The `1` of a one-hot row is its first largest entry. */
  lemma OneHotMax(k: nat, d: nat)
    requires k < d
    ensures FirstMax(OneHotRow(k, d), k)
    ensures Argmax(OneHotRow(k, d)) == k
  {
    FirstMaxUnique(OneHotRow(k, d), k, Argmax(OneHotRow(k, d)));
  }

  /** The one-hot sample marks exactly the index the categorical sample
      gives. */
  lemma OneHotMatchesCategorical(z: Matrix, oneHot: string, cat: string)
    requires oneHot in ONEHOT_SYNONYMS && cat in CATEGORICAL_SYNONYMS && NonEmptyRows(z)
    ensures forall n :: 0 <= n < |z| ==>
              ToB(z, oneHot).value.rows[n] == OneHotRow(ToB(z, cat).value.xs[n].Floor, |z[n]|)
  {
    forall n | 0 <= n < |z|
      ensures ToB(z, oneHot).value.rows[n] == OneHotRow(ToB(z, cat).value.xs[n].Floor, |z[n]|)
    {
      OneHotOfMax(z[n], ToB(z, oneHot).value.rows[n]);
      FirstMaxUnique(z[n], Argmax(z[n]), ToB(z, cat).value.xs[n].Floor);
    }
  }

  /** A Bernoulli or one-hot sample is its own `to_b`. */
  lemma ToBIdempotent(z: Matrix, tag: string)
    requires tag in BERNOULLI_SYNONYMS || tag in ONEHOT_SYNONYMS
    requires ToB(z, tag).Ok?
    ensures ToB(ToB(z, tag).value.rows, tag) == ToB(z, tag)
  {
    var b := ToB(z, tag).value.rows;
    var bb := ToB(b, tag).value.rows;
    if tag in ONEHOT_SYNONYMS {
      assert DistOf(tag) == Ok(OneHot);
      forall n | 0 <= n < |z|
        ensures b[n] != [] && bb[n] == b[n]
      {
        OneHotOfMax(z[n], b[n]);
        OneHotMax(Argmax(z[n]), |z[n]|);
        OneHotOfMax(b[n], bb[n]);
      }
      assert bb == b;
    } else {
      assert DistOf(tag) == Ok(Bernoulli);
      forall n | 0 <= n < |z|
        ensures bb[n] == b[n]
      {
        assert |bb[n]| == |b[n]|;
        forall i | 0 <= i < |b[n]|
          ensures bb[n][i] == b[n][i]
        {
          assert b[n][i] == 0.0 || b[n][i] == 1.0;
        }
      }
      assert bb == b;
    }
  }

  // ----------------------------------------------------------------------
  // _to_z_tilde

  /** `v'`: the noise `v` moved into `(1 - θ, 1)` when `b = 1` and into
      `(0, 1 - θ)` when `b = 0`, where `om = 1 - θ`. */
  function BernNoise(b: real, v: real, om: real): real {
    b * (v * (1.0 - om) + om) + (1.0 - b) * v * om
  }

  /** One Bernoulli entry of `z~`: `logits + log(v') - log1p(-v')` with
      `1 - θ = sigmoid(-logits)`. */
  function BernTilde(m: Maths, l: real, b: real, v: real): real {
    var om := m.sigmoid(-l);
    var vp := BernNoise(b, v, om);
    l + m.log(vp) - m.log(1.0 - vp)
  }

  lemma BernNoiseRange(b: real, v: real, om: real)
    requires 0.0 < v < 1.0 && 0.0 < om < 1.0
    ensures b == 1.0 ==> om < BernNoise(b, v, om) < 1.0
    ensures b == 0.0 ==> 0.0 < BernNoise(b, v, om) < om
  {
    if b == 1.0 {
      assert BernNoise(b, v, om) == v * (1.0 - om) + om;
      ShiftedBelowOne(v, om);
    } else if b == 0.0 {
      assert BernNoise(b, v, om) == v * om;
      MulBetween(v, om);
    }
  }

  lemma ShiftedBelowOne(v: real, om: real)
    requires 0.0 < v < 1.0 && 0.0 < om < 1.0
    ensures om < v * (1.0 - om) + om < 1.0
  {
    MulPositive(v, 1.0 - om);
    MulPositive(1.0 - v, 1.0 - om);
    ProductExpand(1.0 - v, 1.0 - om, v, om);
    ProductExpand(v, 1.0 - om, 1.0 - v, om);
  }

  lemma MulPositive(a: real, b: real)
    requires a > 0.0 && b > 0.0
    ensures a * b > 0.0
  {
  }

  /** `(1 - x)(1 - y)` multiplied out, for `a = 1 - x` and `b = 1 - y`. */
  lemma ProductExpand(a: real, b: real, x: real, y: real)
    requires a == 1.0 - x && b == 1.0 - y
    ensures a * b == 1.0 - x - y + x * y
  {
  }

  lemma MulBetween(v: real, x: real)
    requires 0.0 < v < 1.0 && 0.0 < x
    ensures 0.0 < v * x < x
  {
  }

  /** The entry of `z~` is positive exactly when the observed `b` is `1`, so
      `z~ > 0` gives `b` back. */
  lemma BernTildeSign(m: Maths, l: real, b: real, v: real)
    requires Lawful(m) && 0.0 < v < 1.0 && (b == 0.0 || b == 1.0)
    ensures BernTilde(m, l, b, v) > 0.0 <==> b == 1.0
  {
    var om := m.sigmoid(-l);
    var vp := BernNoise(b, v, om);
    assert 0.0 < om < 1.0;
    assert Logit(m, om) == -l;
    BernNoiseRange(b, v, om);
    assert BernTilde(m, l, b, v) == Logit(m, vp) - Logit(m, om);
    if b == 1.0 {
      LogitIncreasing(m, om, vp);
    } else {
      LogitIncreasing(m, vp, om);
    }
  }

  /** `softmax(logits)` of one row: positive entries. */
  function Theta(m: Maths, l: seq<real>): (theta: seq<real>)
    requires Lawful(m) && l != []
    ensures |theta| == |l| && forall i :: 0 <= i < |l| ==> theta[i] > 0.0
  {
    SoftmaxDistribution(m, l);
    Softmax(m, l)
  }

  /** `torch.where(mask, -log(-log v), -log(-log v / θ - log v[k]))` on one
      row, where `θ = softmax(logits)` and `k` is the observed category. */
  function Tilde(m: Maths, theta: seq<real>, mask: seq<bool>, k: nat, v: seq<real>): (r: seq<real>)
    requires k < |theta| && |mask| == |v| == |theta|
    requires forall i :: 0 <= i < |theta| ==> theta[i] > 0.0
    ensures |r| == |theta|
  {
    seq(|theta|, i requires 0 <= i < |theta| => TildeEntry(m, theta[i], mask[i], v[i], v[k]))
  }

  function TildeEntry(m: Maths, theta: real, mask: bool, vi: real, vk: real): real
    requires theta > 0.0
  {
    if mask then -m.log(-m.log(vi)) else -m.log(-m.log(vi) / theta - m.log(vk))
  }

  /** With the mask on `k` alone, entry `k` of `z~` is strictly the largest,
      so `argmax` gives `k` back. */
  lemma TildeArgmax(m: Maths, theta: seq<real>, mask: seq<bool>, k: nat, v: seq<real>)
    requires Lawful(m) && k < |theta| && |mask| == |v| == |theta|
    requires forall i :: 0 <= i < |theta| ==> theta[i] > 0.0
    requires forall i :: 0 <= i < |theta| ==> (mask[i] <==> i == k)
    requires forall i :: 0 <= i < |v| ==> 0.0 < v[i] < 1.0
    ensures forall i :: 0 <= i < |theta| && i != k ==> Tilde(m, theta, mask, k, v)[i] < Tilde(m, theta, mask, k, v)[k]
    ensures Argmax(Tilde(m, theta, mask, k, v)) == k
  {
    var r := Tilde(m, theta, mask, k, v);
    forall i | 0 <= i < |theta| && i != k
      ensures r[i] < r[k]
    {
      GumbelBelow(m, v[i], v[k], theta[i], theta[k]);
    }
    FirstMaxUnique(r, k, Argmax(r));
  }

  /** An entry off the observed index is drawn below the observed one:
      `-log(-log v_i / θ_i - log v_k) < -log(-log v_k)`. */
  lemma GumbelBelow(m: Maths, vi: real, vk: real, theta: real, thetak: real)
    requires Lawful(m) && 0.0 < vi < 1.0 && 0.0 < vk < 1.0 && theta > 0.0 && thetak > 0.0
    ensures TildeEntry(m, theta, false, vi, vk) < TildeEntry(m, thetak, true, vk, vk)
  {
    LogNegative(m, vk);
    LogNegative(m, vi);
    var c := -m.log(vk);
    var a := -m.log(vi) / theta;
    assert a > 0.0 by {
      DivPositive(-m.log(vi), theta);
    }
    assert -m.log(vi) / theta - m.log(vk) == a + c;
    assert m.log(c) < m.log(a + c);
  }

  lemma DivPositive(a: real, b: real)
    requires a > 0.0 && b > 0.0
    ensures a / b > 0.0
  {
  }

  /** `b.byte()`: truncation to an integer, kept modulo 256. */
  function Byte(x: real): nat {
    Trunc(x) % 256
  }

  function Bytes(row: seq<real>): (r: seq<real>)
    ensures |r| == |row| && forall i :: 0 <= i < |row| ==> r[i] == Byte(row[i]) as real
  {
    if row == [] then [] else [Byte(row[0]) as real] + Bytes(row[1..])
  }

  /** A categorical row of `z~`: the mask is the observed index `k`. */
  function CatTilde(m: Maths, l: seq<real>, k: nat, v: seq<real>): (r: seq<real>)
    requires Lawful(m) && k < |l| && |v| == |l|
    ensures |r| == |l|
  {
    Tilde(m, Theta(m, l), seq(|l|, i => i == k), k, v)
  }

  /** A one-hot row of `z~`: the mask is the nonzero bytes of `b` and the
      index is their `argmax`. */
  function OneHotTilde(m: Maths, l: seq<real>, b: seq<real>, v: seq<real>): (r: seq<real>)
    requires Lawful(m) && b != [] && |b| == |v| == |l|
    ensures |r| == |l|
  {
    var bytes := Bytes(b);
    Tilde(m, Theta(m, l), seq(|bytes|, i requires 0 <= i < |bytes| => bytes[i] != 0.0), Argmax(bytes), v)
  }

  /** The shapes `_to_z_tilde` expects: noise shaped like the logits, and `b`
      shaped like a sample of the tagged family. */
  predicate Conforms(logits: Matrix, b: Value, v: Matrix, tag: string) {
    && SameShape(v, logits)
    && (DistOf(tag) == Ok(Bernoulli) ==> b.Grid? && SameShape(b.rows, logits))
    && (DistOf(tag) == Ok(Categorical) ==> b.Flat? && |b.xs| == |logits|)
    && (DistOf(tag) == Ok(OneHot) ==> b.Grid? && SameShape(b.rows, logits))
  }

  /** `_to_z_tilde`: noise `z~` drawn given the observed sample `b`. A
      categorical index outside its row cannot be scattered into the mask,
      and a one-hot row without entries has no `argmax`. */
  function ToZTilde(m: Maths, logits: Matrix, b: Value, v: Matrix, tag: string): (r: Result<Matrix>)
    requires Lawful(m) && Conforms(logits, b, v, tag)
    ensures DistOf(tag).Err? ==> r == Err(ValueError)
    ensures r.Ok? ==> SameShape(r.value, logits)
    ensures DistOf(tag) == Ok(Bernoulli) ==> r.Ok?
    ensures DistOf(tag) == Ok(Categorical) ==>
              (r.Ok? <==> forall n :: 0 <= n < |logits| ==> 0 <= Trunc(b.xs[n]) < |logits[n]|)
    ensures DistOf(tag) == Ok(OneHot) ==> (r.Ok? <==> NonEmptyRows(logits))
    ensures r.Err? ==> r.error == (if DistOf(tag).Err? then ValueError else RuntimeError)
  {
    var d :- DistOf(tag);
    match d
    case Bernoulli =>
      Ok(seq(|logits|, n requires 0 <= n < |logits| =>
        seq(|logits[n]|, i requires 0 <= i < |logits[n]| => BernTilde(m, logits[n][i], b.rows[n][i], v[n][i]))))
    case Categorical =>
      if exists n :: 0 <= n < |logits| && !(0 <= Trunc(b.xs[n]) < |logits[n]|) then Err(RuntimeError)
      else
        Ok(seq(|logits|, n requires 0 <= n < |logits| =>
          CatTilde(m, logits[n], Trunc(b.xs[n]), v[n])))
    case OneHot =>
      if !NonEmptyRows(b.rows) then Err(RuntimeError)
      else
        Ok(seq(|logits|, n requires 0 <= n < |logits| =>
          OneHotTilde(m, logits[n], b.rows[n], v[n])))
  }

  predicate IsNoise(v: Matrix) {
    forall n, i :: 0 <= n < |v| && 0 <= i < |v[n]| ==> 0.0 < v[n][i] < 1.0
  }

  /** The purpose of `_to_z_tilde`: `z~` is noise consistent with the
      observed sample, so discretising it gives the sample back. */
  lemma ZTildeRecovers(m: Maths, logits: Matrix, b: Value, v: Matrix, tag: string)
    requires Lawful(m) && Conforms(logits, b, v, tag) && IsNoise(v)
    requires DistOf(tag).Ok? && IsSample(b, logits, DistOf(tag).value)
    ensures ToZTilde(m, logits, b, v, tag).Ok?
    ensures ToB(ToZTilde(m, logits, b, v, tag).value, tag) == Ok(b)
  {
    match DistOf(tag).value
    case Bernoulli => BernRecovers(m, logits, b, v, tag);
    case Categorical => CategoricalRecovers(m, logits, b, v, tag);
    case OneHot => OneHotRecovers(m, logits, b, v, tag);
  }

  lemma BernRecovers(m: Maths, logits: Matrix, b: Value, v: Matrix, tag: string)
    requires Lawful(m) && Conforms(logits, b, v, tag) && IsNoise(v)
    requires DistOf(tag) == Ok(Bernoulli) && IsSample(b, logits, Bernoulli)
    ensures ToZTilde(m, logits, b, v, tag).Ok?
    ensures ToB(ToZTilde(m, logits, b, v, tag).value, tag) == Ok(b)
  {
    var zt := ToZTilde(m, logits, b, v, tag).value;
    var bb := ToB(zt, tag).value.rows;
    forall n | 0 <= n < |logits|
      ensures bb[n] == b.rows[n]
    {
      forall i | 0 <= i < |logits[n]|
        ensures bb[n][i] == b.rows[n][i]
      {
        assert zt[n][i] == BernTilde(m, logits[n][i], b.rows[n][i], v[n][i]);
        BernTildeSign(m, logits[n][i], b.rows[n][i], v[n][i]);
      }
    }
    assert bb == b.rows;
  }

  lemma CategoricalRecovers(m: Maths, logits: Matrix, b: Value, v: Matrix, tag: string)
    requires Lawful(m) && Conforms(logits, b, v, tag) && IsNoise(v)
    requires DistOf(tag) == Ok(Categorical) && IsSample(b, logits, Categorical)
    ensures ToZTilde(m, logits, b, v, tag).Ok?
    ensures ToB(ToZTilde(m, logits, b, v, tag).value, tag) == Ok(b)
  {
    forall n | 0 <= n < |logits|
      ensures Trunc(b.xs[n]) as real == b.xs[n]
    {
      TruncWhole(b.xs[n]);
    }
    var zt := ToZTilde(m, logits, b, v, tag).value;
    forall n | 0 <= n < |logits|
      ensures zt[n] != [] && Argmax(zt[n]) as real == b.xs[n]
    {
      var k := Trunc(b.xs[n]);
      assert zt[n] == CatTilde(m, logits[n], k, v[n]);
      TildeArgmax(m, Theta(m, logits[n]), seq(|logits[n]|, i => i == k), k, v[n]);
    }
    var bb := ToB(zt, tag).value.xs;
    forall n | 0 <= n < |logits|
      ensures bb[n] == b.xs[n]
    {
      FirstMaxUnique(zt[n], bb[n].Floor, Argmax(zt[n]));
    }
    assert bb == b.xs;
  }

  lemma OneHotRecovers(m: Maths, logits: Matrix, b: Value, v: Matrix, tag: string)
    requires Lawful(m) && Conforms(logits, b, v, tag) && IsNoise(v)
    requires DistOf(tag) == Ok(OneHot) && IsSample(b, logits, OneHot)
    ensures ToZTilde(m, logits, b, v, tag).Ok?
    ensures ToB(ToZTilde(m, logits, b, v, tag).value, tag) == Ok(b)
  {
    forall n | 0 <= n < |logits|
      ensures b.rows[n] != []
    {
      OneHotRowRecovers(m, logits[n], b.rows[n], v[n]);
    }
    var zt := ToZTilde(m, logits, b, v, tag).value;
    forall n | 0 <= n < |zt|
      ensures b.rows[n] != [] && |zt[n]| == |b.rows[n]| && OneHotRow(Argmax(zt[n]), |zt[n]|) == b.rows[n]
    {
      assert zt[n] == OneHotTilde(m, logits[n], b.rows[n], v[n]);
      OneHotRowRecovers(m, logits[n], b.rows[n], v[n]);
    }
    OneHotRowsBack(zt, b.rows, tag);
  }

  /** `to_b` gives back the one-hot rows of each row's `argmax`. */
  lemma OneHotRowsBack(zt: Matrix, rows: Matrix, tag: string)
    requires DistOf(tag) == Ok(OneHot) && |zt| == |rows|
    requires forall n :: 0 <= n < |zt| ==>
               rows[n] != [] && |zt[n]| == |rows[n]| && OneHotRow(Argmax(zt[n]), |zt[n]|) == rows[n]
    ensures ToB(zt, tag) == Ok(Grid(rows))
  {
    var bb := ToB(zt, tag).value.rows;
    forall n | 0 <= n < |zt|
      ensures bb[n] == rows[n]
    {
      OneHotOfMax(zt[n], bb[n]);
    }
    assert bb == rows;
  }

  /** One row: the one-hot row of `argmax z~` is the observed row. */
  lemma OneHotRowRecovers(m: Maths, l: seq<real>, row: seq<real>, v: seq<real>)
    requires Lawful(m) && IsOneHot(row, |l|) && |v| == |l|
    requires forall i :: 0 <= i < |v| ==> 0.0 < v[i] < 1.0
    ensures row != [] && OneHotRow(Argmax(OneHotTilde(m, l, row, v)), |l|) == row
  {
    var k: nat :| k < |l| && row == OneHotRow(k, |l|);
    OneHotTildeArgmax(m, l, k, v);
  }

  /** For a one-hot row with its `1` at `k`, the bytes are the row itself, so
      the mask and the index are `k`'s and `argmax` of `z~` is `k`. */
  lemma OneHotTildeArgmax(m: Maths, l: seq<real>, k: nat, v: seq<real>)
    requires Lawful(m) && k < |l| && |v| == |l|
    requires forall i :: 0 <= i < |v| ==> 0.0 < v[i] < 1.0
    ensures Argmax(OneHotTilde(m, l, OneHotRow(k, |l|), v)) == k
  {
    var b := OneHotRow(k, |l|);
    var bytes := Bytes(b);
    BytesOneHot(k, |l|);
    var mask := seq(|bytes|, i requires 0 <= i < |bytes| => bytes[i] != 0.0);
    assert forall i :: 0 <= i < |l| ==> (mask[i] <==> i == k);
    TildeArgmax(m, Theta(m, l), mask, k, v);
  }

  /** The bytes of a one-hot row are the row, and their `argmax` is its `1`. */
  lemma BytesOneHot(k: nat, d: nat)
    requires k < d
    ensures Bytes(OneHotRow(k, d)) == OneHotRow(k, d)
    ensures Argmax(Bytes(OneHotRow(k, d))) == k
  {
    var b := OneHotRow(k, d);
    var bytes := Bytes(b);
    forall i | 0 <= i < d
      ensures bytes[i] == b[i]
    {
      assert Byte(b[i]) == if i == k then 1 else 0;
    }
    assert bytes == b;
    OneHotMax(k, d);
  }

  // ----------------------------------------------------------------------
  // reinforce and relax

  /** `f(b)`, or `c` of a sample, for one family: one value per entry for the
      Bernoulli family, one per row (sample) for the categorical ones. */
  predicate Fits(x: Value, shape: Matrix, d: Dist) {
    if d == Bernoulli then x.Grid? && SameShape(x.rows, shape) else x.Flat? && |x.xs| == |shape|
  }

  /** The value of `x` that goes with entry `(n, i)`. */
  function At(x: Value, n: nat, i: nat): real
    requires x.Flat? ==> n < |x.xs|
    requires x.Grid? ==> n < |x.rows| && i < |x.rows[n]|
  {
    if x.Flat? then x.xs[n] else x.rows[n][i]
  }

  /** `x[..., None]`: each value becomes a row of its own. */
  function Unsqueeze(xs: seq<real>): (r: Matrix)
    ensures |r| == |xs| && forall n :: 0 <= n < |xs| ==> r[n] == [xs[n]]
  {
    if xs == [] then [] else [[xs[0]]] + Unsqueeze(xs[1..])
  }

  /** Entry `i` of `row` broadcast against a longer row: a single-entry row
      stands for every entry. */
  function Broadcast(row: seq<real>, i: nat): real
    requires |row| == 1 || i < |row|
  {
    if |row| == 1 then row[0] else row[i]
  }

  predicate Broadcasts(a: Matrix, b: Matrix) {
    |a| == |b| && forall n :: 0 <= n < |a| ==> |a[n]| == 1 || |a[n]| == |b[n]|
  }

  function Times(a: Matrix, b: Matrix): (r: Matrix)
    requires Broadcasts(a, b)
    ensures SameShape(r, b)
  {
    seq(|b|, n requires 0 <= n < |b| => seq(|b[n]|, i requires 0 <= i < |b[n]| => Broadcast(a[n], i) * b[n][i]))
  }

  function Plus(a: Matrix, b: Matrix): (r: Matrix)
    requires SameShape(a, b)
    ensures SameShape(r, b)
  {
    seq(|b|, n requires 0 <= n < |b| => seq(|b[n]|, i requires 0 <= i < |b[n]| => a[n][i] + b[n][i]))
  }

  function Minus(a: Matrix, b: Matrix): (r: Matrix)
    requires SameShape(a, b)
    ensures SameShape(r, b)
  {
    seq(|b|, n requires 0 <= n < |b| => seq(|b[n]|, i requires 0 <= i < |b[n]| => a[n][i] - b[n][i]))
  }

  /** `fb`, unsqueezed for the categorical families so that it broadcasts
      along the categories. */
  function Spread(fb: Value, d: Dist, shape: Matrix): (r: Matrix)
    requires Fits(fb, shape, d)
    ensures Broadcasts(r, shape)
    ensures forall n, i :: 0 <= n < |shape| && 0 <= i < |shape[n]| ==> Broadcast(r[n], i) == At(fb, n, i)
  {
    if d == Bernoulli then fb.rows else Unsqueeze(fb.xs)
  }

  /** `reinforce`: `f(b)` times the gradient of `log Pr(b)`, entry by entry. */
  function Reinforce(fb: Value, dlogPb: Matrix, tag: string): (r: Result<Matrix>)
    requires DistOf(tag).Ok? ==> Fits(fb, dlogPb, DistOf(tag).value)
    ensures r.Err? <==> DistOf(tag).Err?
    ensures r.Err? ==> r.error == ValueError
    ensures r.Ok? ==> SameShape(r.value, dlogPb)
                      && forall n, i :: 0 <= n < |dlogPb| && 0 <= i < |dlogPb[n]| ==>
                           r.value[n][i] == At(fb, n, i) * dlogPb[n][i]
  {
    var d :- DistOf(tag);
    Ok(Times(Spread(fb, d, dlogPb), dlogPb))
  }

  /** The gradients `relax` asks autograd for: of `log Pr(b)`, of `c(z)` and of
      `c(z~)`, each with respect to the logits. */
  datatype Grads = Grads(dlogPb: Matrix, dcZ: Matrix, dcZTilde: Matrix)

  datatype RelaxOut =
    | Estimate(g: Matrix)
    | Components(diff: Matrix, dlogPb: Matrix, dcZ: Matrix, dcZTilde: Matrix)

  predicate GradsShaped(gr: Grads) {
    SameShape(gr.dcZ, gr.dlogPb) && SameShape(gr.dcZTilde, gr.dlogPb)
  }

  /** `diff = fb - c(z~)`, with a trailing axis for the categorical families. */
  function Diff(fb: Value, cZTilde: Value, d: Dist, shape: Matrix): (r: Matrix)
    requires Fits(fb, shape, d) && Fits(cZTilde, shape, d)
    ensures Broadcasts(r, shape)
    ensures forall n :: 0 <= n < |shape| ==> |r[n]| == if d == Bernoulli then |shape[n]| else 1
    ensures forall n, j :: 0 <= n < |shape| && 0 <= j < |r[n]| ==> r[n][j] == At(fb, n, j) - At(cZTilde, n, j)
  {
    if d == Bernoulli then Minus(fb.rows, cZTilde.rows)
    else Unsqueeze(seq(|fb.xs|, n requires 0 <= n < |fb.xs| => fb.xs[n] - cZTilde.xs[n]))
  }

  /** `relax`: the estimate `(f(b) - c(z~)) d log Pr(b) + d c(z) - d c(z~)`,
      or its four terms when `components` is set. */
  function Relax(fb: Value, cZTilde: Value, gr: Grads, tag: string, components: bool): (r: Result<RelaxOut>)
    requires GradsShaped(gr)
    requires DistOf(tag).Ok? ==> Fits(fb, gr.dlogPb, DistOf(tag).value) && Fits(cZTilde, gr.dlogPb, DistOf(tag).value)
    ensures r.Err? <==> DistOf(tag).Err?
    ensures r.Err? ==> r.error == ValueError
    ensures r.Ok? ==> r.value == RelaxAs(fb, cZTilde, gr, DistOf(tag).value, components)
  {
    var d :- DistOf(tag);
    Ok(RelaxAs(fb, cZTilde, gr, d, components))
  }

  /** `relax` once the family is known: the estimate
      `(f(b) - c(z~)) d log Pr(b) + d c(z) - d c(z~)` entry by entry, or its
      terms, with `diff` gaining a trailing axis for the categorical families. */
  function RelaxAs(fb: Value, cZTilde: Value, gr: Grads, d: Dist, components: bool): (r: RelaxOut)
    requires GradsShaped(gr) && Fits(fb, gr.dlogPb, d) && Fits(cZTilde, gr.dlogPb, d)
    ensures !components ==>
              && r.Estimate? && SameShape(r.g, gr.dlogPb)
              && forall n, i :: 0 <= n < |gr.dlogPb| && 0 <= i < |gr.dlogPb[n]| ==>
                   r.g[n][i] == EstimateEntry(At(fb, n, i), At(cZTilde, n, i), gr, n, i)
    ensures components ==>
              && r.Components? && r.dlogPb == gr.dlogPb && r.dcZ == gr.dcZ && r.dcZTilde == gr.dcZTilde
              && |r.diff| == |gr.dlogPb|
              && forall n :: 0 <= n < |gr.dlogPb| ==>
                   && |r.diff[n]| == (if d == Bernoulli then |gr.dlogPb[n]| else 1)
                   && forall j :: 0 <= j < |r.diff[n]| ==> r.diff[n][j] == At(fb, n, j) - At(cZTilde, n, j)
  {
    if components then Components(Diff(fb, cZTilde, d, gr.dlogPb), gr.dlogPb, gr.dcZ, gr.dcZTilde)
    else Estimate(RelaxEstimate(fb, cZTilde, gr, d))
  }

  /** Entry `(n, i)` of the estimate when `f(b)` and `c(z~)` there are `f`
      and `c`: `(f - c) d log Pr(b) + d c(z) - d c(z~)`. */
  function EstimateEntry(f: real, c: real, gr: Grads, n: nat, i: nat): real
    requires n < |gr.dlogPb| && i < |gr.dlogPb[n]| && GradsShaped(gr)
  {
    (f - c) * gr.dlogPb[n][i] + gr.dcZ[n][i] - gr.dcZTilde[n][i]
  }

  /** `diff * dlog_pb + dc_z - dc_z_tilde`. */
  function RelaxEstimate(fb: Value, cZTilde: Value, gr: Grads, d: Dist): (g: Matrix)
    requires GradsShaped(gr) && Fits(fb, gr.dlogPb, d) && Fits(cZTilde, gr.dlogPb, d)
    ensures SameShape(g, gr.dlogPb)
    ensures forall n, i :: 0 <= n < |gr.dlogPb| && 0 <= i < |gr.dlogPb[n]| ==>
              g[n][i] == EstimateEntry(At(fb, n, i), At(cZTilde, n, i), gr, n, i)
  {
    var diff := Diff(fb, cZTilde, d, gr.dlogPb);
    EstimateTerms(fb, cZTilde, gr, d);
    Minus(Plus(Times(diff, gr.dlogPb), gr.dcZ), gr.dcZTilde)
  }

  lemma EstimateTerms(fb: Value, cZTilde: Value, gr: Grads, d: Dist)
    requires GradsShaped(gr) && Fits(fb, gr.dlogPb, d) && Fits(cZTilde, gr.dlogPb, d)
    ensures var g := Minus(Plus(Times(Diff(fb, cZTilde, d, gr.dlogPb), gr.dlogPb), gr.dcZ), gr.dcZTilde);
            forall n, i :: 0 <= n < |gr.dlogPb| && 0 <= i < |gr.dlogPb[n]| ==>
              g[n][i] == EstimateEntry(At(fb, n, i), At(cZTilde, n, i), gr, n, i)
  {
    var diff := Diff(fb, cZTilde, d, gr.dlogPb);
    EstimateEntries(diff, gr);
    DiffBroadcast(fb, cZTilde, d, gr.dlogPb);
    BroadcastEntries(fb, cZTilde, gr, d, diff, Minus(Plus(Times(diff, gr.dlogPb), gr.dcZ), gr.dcZTilde));
  }

  /** The entries of `diff * dlog_pb + dc_z - dc_z_tilde`, once `diff` is
      known entry by entry. */
  lemma BroadcastEntries(fb: Value, cZTilde: Value, gr: Grads, d: Dist, diff: Matrix, g: Matrix)
    requires GradsShaped(gr) && Fits(fb, gr.dlogPb, d) && Fits(cZTilde, gr.dlogPb, d)
    requires Broadcasts(diff, gr.dlogPb) && SameShape(g, gr.dlogPb)
    requires forall n, i :: 0 <= n < |gr.dlogPb| && 0 <= i < |gr.dlogPb[n]| ==>
               g[n][i] == Broadcast(diff[n], i) * gr.dlogPb[n][i] + gr.dcZ[n][i] - gr.dcZTilde[n][i]
    requires forall n, i :: 0 <= n < |gr.dlogPb| && 0 <= i < |gr.dlogPb[n]| ==>
               Broadcast(diff[n], i) == At(fb, n, i) - At(cZTilde, n, i)
    ensures forall n, i :: 0 <= n < |gr.dlogPb| && 0 <= i < |gr.dlogPb[n]| ==>
              g[n][i] == EstimateEntry(At(fb, n, i), At(cZTilde, n, i), gr, n, i)
  {
  }

  /** Broadcast along a row, `diff` is `f(b) - c(z~)` at every entry. */
  lemma DiffBroadcast(fb: Value, cZTilde: Value, d: Dist, shape: Matrix)
    requires Fits(fb, shape, d) && Fits(cZTilde, shape, d)
    ensures var diff := Diff(fb, cZTilde, d, shape);
            forall n, i :: 0 <= n < |shape| && 0 <= i < |shape[n]| ==>
              Broadcast(diff[n], i) == At(fb, n, i) - At(cZTilde, n, i)
  {
    var diff := Diff(fb, cZTilde, d, shape);
    forall n, i | 0 <= n < |shape| && 0 <= i < |shape[n]|
      ensures Broadcast(diff[n], i) == At(fb, n, i) - At(cZTilde, n, i)
    {
      if d != Bernoulli {
        assert Broadcast(diff[n], i) == diff[n][0] == At(fb, n, 0) - At(cZTilde, n, 0);
      }
    }
  }

  lemma EstimateEntries(diff: Matrix, gr: Grads)
    requires GradsShaped(gr) && Broadcasts(diff, gr.dlogPb)
    ensures var g := Minus(Plus(Times(diff, gr.dlogPb), gr.dcZ), gr.dcZTilde);
            forall n, i :: 0 <= n < |gr.dlogPb| && 0 <= i < |gr.dlogPb[n]| ==>
              g[n][i] == Broadcast(diff[n], i) * gr.dlogPb[n][i] + gr.dcZ[n][i] - gr.dcZTilde[n][i]
  {
  }

  /** `g = diff * dlog_pb + dc_z - dc_z_tilde`: the components put back
      together. */
  function Recombine(c: RelaxOut): Matrix
    requires c.Components? && Broadcasts(c.diff, c.dlogPb)
    requires SameShape(c.dcZ, c.dlogPb) && SameShape(c.dcZTilde, c.dlogPb)
  {
    Minus(Plus(Times(c.diff, c.dlogPb), c.dcZ), c.dcZTilde)
  }

  /** Recombining the components gives the estimate, term for term. */
  lemma RelaxComponents(fb: Value, cZTilde: Value, gr: Grads, tag: string)
    requires GradsShaped(gr) && DistOf(tag).Ok?
    requires Fits(fb, gr.dlogPb, DistOf(tag).value) && Fits(cZTilde, gr.dlogPb, DistOf(tag).value)
    ensures var c := Relax(fb, cZTilde, gr, tag, true).value;
            Broadcasts(c.diff, c.dlogPb) && Relax(fb, cZTilde, gr, tag, false).value.g == Recombine(c)
  {
    var c := Relax(fb, cZTilde, gr, tag, true).value;
    var g := Relax(fb, cZTilde, gr, tag, false).value.g;
    var h := Recombine(c);
    forall n, i | 0 <= n < |g| && 0 <= i < |g[n]|
      ensures g[n][i] == h[n][i]
    {
      assert Broadcast(c.diff[n], i) == At(fb, n, i) - At(cZTilde, n, i);
    }
  }
}

=== FILE: realmath.dfy ===
/** Real-number helpers shared by the data and estimator models: truncation
    toward zero, sums, and the transcendental functions of the estimators.
    `log`, `exp` and `sigmoid` are not computed: they are fields of a record
    passed in, and the laws the proofs need are a predicate on that record. */
module RealMath {

  /** `int(x)`: truncation toward zero. */
  function Trunc(x: real): (r: int)
    ensures 0.0 <= x ==> r as real <= x < r as real + 1.0
    ensures x < 0.0 ==> r as real - 1.0 < x <= r as real
  {
    if x >= 0.0 then x.Floor else -((-x).Floor)
  }

  predicate IsWhole(x: real) {
    x == x.Floor as real
  }

  lemma TruncWhole(x: real)
    requires IsWhole(x)
    ensures Trunc(x) as real == x
  {
    var n := x.Floor;
    if x < 0.0 {
      assert -x == (-n) as real;
      assert (-x).Floor == -n;
    }
  }

  /** The natural logarithm, the exponential and the logistic sigmoid. */
  datatype Maths = Maths(log: real -> real, exp: real -> real, sigmoid: real -> real)

  /** The laws of the real functions that the estimator properties use:
      `log` increases on the positive reals and vanishes at `1`, `exp` is
      positive and undoes `log`, and `sigmoid` maps into `(0, 1)` with the
      logit as its inverse. */
  ghost predicate Lawful(m: Maths) {
    && (forall x, y :: 0.0 < x < y ==> m.log(x) < m.log(y))
    && m.log(1.0) == 0.0
    && (forall x :: m.exp(x) > 0.0)
    && (forall x :: x > 0.0 ==> m.exp(m.log(x)) == x)
    && (forall x :: 0.0 < m.sigmoid(x) < 1.0)
    && (forall x :: m.log(m.sigmoid(x)) - m.log(1.0 - m.sigmoid(x)) == x)
  }

  /** `log(p) - log1p(-p)`, the logit of `p`. */
  function Logit(m: Maths, p: real): real {
    m.log(p) - m.log(1.0 - p)
  }

  lemma LogitIncreasing(m: Maths, p: real, q: real)
    requires Lawful(m) && 0.0 < p < q < 1.0
    ensures Logit(m, p) < Logit(m, q)
  {
    assert m.log(p) < m.log(q);
    assert 0.0 < 1.0 - q < 1.0 - p;
    assert m.log(1.0 - q) < m.log(1.0 - p);
  }

  /** The logarithm of a probability is negative. */
  lemma LogNegative(m: Maths, v: real)
    requires Lawful(m) && 0.0 < v < 1.0
    ensures m.log(v) < 0.0
  {
    assert m.log(v) < m.log(1.0);
  }

  function Sum(xs: seq<real>): real {
    if xs == [] then 0.0 else xs[0] + Sum(xs[1..])
  }

  lemma {:induction false} SumPositive(xs: seq<real>)
    requires xs != [] && forall i :: 0 <= i < |xs| ==> xs[i] > 0.0
    ensures Sum(xs) > 0.0
  {
    if |xs| > 1 {
      SumPositive(xs[1..]);
    }
  }

  /** Every element of `xs` divided by `s`. */
  function Divide(xs: seq<real>, s: real): (r: seq<real>)
    requires s != 0.0
    ensures |r| == |xs| && forall i :: 0 <= i < |xs| ==> r[i] == xs[i] / s
  {
    if xs == [] then [] else [xs[0] / s] + Divide(xs[1..], s)
  }

  lemma {:induction false} SumDivide(xs: seq<real>, s: real)
    requires s != 0.0
    ensures Sum(Divide(xs, s)) == Sum(xs) / s
  {
    if xs != [] {
      SumDivide(xs[1..], s);
      assert Divide(xs, s)[1..] == Divide(xs[1..], s);
    }
  }

  function Exps(m: Maths, xs: seq<real>): (r: seq<real>)
    ensures |r| == |xs| && forall i :: 0 <= i < |xs| ==> r[i] == m.exp(xs[i])
  {
    if xs == [] then [] else [m.exp(xs[0])] + Exps(m, xs[1..])
  }

  lemma ExpPositive(m: Maths, x: real)
    requires Lawful(m)
    ensures m.exp(x) > 0.0
  {
  }

  lemma ExpsPositive(m: Maths, xs: seq<real>)
    requires Lawful(m)
    ensures forall i :: 0 <= i < |xs| ==> Exps(m, xs)[i] > 0.0
  {
    forall i | 0 <= i < |xs|
      ensures Exps(m, xs)[i] > 0.0
    {
      assert Exps(m, xs)[i] == m.exp(xs[i]);
      ExpPositive(m, xs[i]);
    }
  }

  /** `softmax(xs)`: the exponentials divided by their sum. The sum is
      positive as soon as there is one element. */
  function Softmax(m: Maths, xs: seq<real>): (r: seq<real>)
    requires Lawful(m)
    ensures |r| == |xs|
  {
    if xs == [] then []
    else
      ExpsPositive(m, xs);
      SumPositive(Exps(m, xs));
      Divide(Exps(m, xs), Sum(Exps(m, xs)))
  }

  /** A softmax is a distribution: positive entries summing to one. */
  lemma SoftmaxDistribution(m: Maths, xs: seq<real>)
    requires Lawful(m) && xs != []
    ensures forall i :: 0 <= i < |xs| ==> Softmax(m, xs)[i] > 0.0
    ensures Sum(Softmax(m, xs)) == 1.0
  {
    var e := Exps(m, xs);
    ExpsPositive(m, xs);
    SumPositive(e);
    var s := Sum(e);
    SumDivide(e, s);
    forall i | 0 <= i < |xs|
      ensures Softmax(m, xs)[i] > 0.0
    {
      assert Softmax(m, xs)[i] == e[i] / s;
      assert e[i] > 0.0;
    }
  }
}

=== FILE: rebar.dfy ===
/** `REBARControlVariate` of `pydrobert/torch/estimators.py`: the control
    variate `c(z) = η f(σ_λ(z))`, where `σ_λ` is the Concrete relaxation at
    temperature `λ`. The objective `f` is a parameter; `λ` is kept as its
    logarithm and, like `η`, starts from a configured value. */
module Rebar {

  import opened Results
  import opened Dists
  import opened RealMath
  import opened Estimators

  datatype Rebar = Rebar(
    dist: string,
    bernoulli: bool,   // relax with a sigmoid per entry rather than a softmax per row
    startTemp: real,
    startEta: real,
    logTemp: real,
    eta: real)

  /** `reset_parameters`: `log λ` back to `log start_temp` and `η` back to
      `start_eta`. */
  function Reset(m: Maths, r: Rebar): (r': Rebar)
    ensures r'.dist == r.dist && r'.bernoulli == r.bernoulli
    ensures r'.startTemp == r.startTemp && r'.startEta == r.startEta
    ensures r'.eta == r.startEta
  {
    r.(logTemp := m.log(r.startTemp), eta := r.startEta)
  }

  /** After a reset the temperature is the starting one again. */
  lemma ResetTemperature(m: Maths, r: Rebar)
    requires Lawful(m) && r.startTemp > 0.0
    ensures m.exp(Reset(m, r).logTemp) == r.startTemp
  {
  }

  /** Resetting forgets whatever the parameters had become. */
  lemma ResetForgets(m: Maths, r: Rebar, logTemp: real, eta: real)
    ensures Reset(m, r.(logTemp := logTemp, eta := eta)) == Reset(m, r)
    ensures Reset(m, Reset(m, r)) == Reset(m, r)
  {
  }

  /** The constructor: a temperature that is not positive is refused before
      the family is looked at; a Bernoulli tag relaxes with a sigmoid, a
      one-hot or categorical tag with a softmax; any other tag is refused.
      The parameters start at their configured values. */
  function NewRebar(m: Maths, tag: string, startTemp: real, startEta: real): (r: Result<Rebar>)
    ensures startTemp <= 0.0 ==> r == Err(ValueError)
    ensures startTemp > 0.0 ==> (r.Ok? <==> DistOf(tag).Ok?)
    ensures r.Err? ==> r.error == ValueError
    ensures r.Ok? ==>
              && r.value.dist == tag
              && (r.value.bernoulli <==> DistOf(tag) == Ok(Bernoulli))
              && r.value.startTemp == startTemp && r.value.startEta == startEta
              && r.value.eta == startEta
              && r.value == Reset(m, r.value)
  {
    if startTemp <= 0.0 then Err(ValueError)
    else
      var bernoulli :=
        if tag in BERNOULLI_SYNONYMS then Ok(true)
        else if tag in ONEHOT_SYNONYMS then Ok(false)
        else if tag in CATEGORICAL_SYNONYMS then Ok(false)
        else Err(ValueError);
      if bernoulli.Err? then Err(ValueError)
      else Ok(Reset(m, Rebar(tag, bernoulli.value, startTemp, startEta, 0.0, 0.0)))
  }

  /** `σ_λ(z)` at the current temperature: `sigmoid(z / λ)` entry by entry,
      or `softmax(z / λ)` along each row. */
  function Relaxed(m: Maths, r: Rebar, z: Matrix): (x: Matrix)
    requires Lawful(m)
    ensures SameShape(x, z)
    ensures r.bernoulli ==> forall n, i :: 0 <= n < |z| && 0 <= i < |z[n]| ==> 0.0 < x[n][i] < 1.0
    ensures !r.bernoulli ==> forall n :: 0 <= n < |z| && z[n] != [] ==>
              (forall i :: 0 <= i < |z[n]| ==> x[n][i] > 0.0) && Sum(x[n]) == 1.0
  {
    RelaxAt(m, m.exp(r.logTemp), r.bernoulli, z)
  }

  /** The Concrete relaxation at temperature `t`. */
  function RelaxAt(m: Maths, t: real, bernoulli: bool, z: Matrix): (x: Matrix)
    requires Lawful(m) && t > 0.0
    ensures SameShape(x, z)
    ensures bernoulli ==> forall n, i :: 0 <= n < |z| && 0 <= i < |z[n]| ==> 0.0 < x[n][i] < 1.0
    ensures !bernoulli ==> forall n :: 0 <= n < |z| && z[n] != [] ==>
              (forall i :: 0 <= i < |z[n]| ==> x[n][i] > 0.0) && Sum(x[n]) == 1.0
  {
    SoftmaxRows(m, t, z);
    if bernoulli then
      seq(|z|, n requires 0 <= n < |z| => seq(|z[n]|, i requires 0 <= i < |z[n]| => m.sigmoid(z[n][i] / t)))
    else
      seq(|z|, n requires 0 <= n < |z| => Softmax(m, Divide(z[n], t)))
  }

  lemma SoftmaxRows(m: Maths, t: real, z: Matrix)
    requires Lawful(m) && t > 0.0
    ensures forall n :: 0 <= n < |z| && z[n] != [] ==>
              var x := Softmax(m, Divide(z[n], t));
              (forall i :: 0 <= i < |z[n]| ==> x[i] > 0.0) && Sum(x) == 1.0
  {
    forall n | 0 <= n < |z| && z[n] != []
      ensures var x := Softmax(m, Divide(z[n], t));
              (forall i :: 0 <= i < |z[n]| ==> x[i] > 0.0) && Sum(x) == 1.0
    {
      SoftmaxDistribution(m, Divide(z[n], t));
    }
  }

  /** `η v`, entry by entry. */
  function Scale(eta: real, v: Value): (r: Value)
    ensures r.Flat? == v.Flat?
    ensures r.Flat? ==> |r.xs| == |v.xs| && forall n :: 0 <= n < |v.xs| ==> r.xs[n] == eta * v.xs[n]
    ensures r.Grid? ==> SameShape(r.rows, v.rows)
                        && forall n, i :: 0 <= n < |v.rows| && 0 <= i < |v.rows[n]| ==> r.rows[n][i] == eta * v.rows[n][i]
  {
    match v
    case Flat(xs) => Flat(seq(|xs|, n requires 0 <= n < |xs| => eta * xs[n]))
    case Grid(rows) =>
      Grid(seq(|rows|, n requires 0 <= n < |rows| => seq(|rows[n]|, i requires 0 <= i < |rows[n]| => eta * rows[n][i])))
  }

  /** `forward`: the control variate `η f(σ_λ(z))`. */
  function Forward(m: Maths, r: Rebar, f: Matrix -> Value, z: Matrix): Value
    requires Lawful(m)
  {
    Scale(r.eta, f(Relaxed(m, r, z)))
  }

  /** A freshly built control variate computes `start_eta f(σ(z / start_temp))`,
      with the sigmoid for a Bernoulli tag and the softmax otherwise. */
  lemma ForwardAtStart(m: Maths, tag: string, startTemp: real, startEta: real, f: Matrix -> Value, z: Matrix)
    requires Lawful(m) && NewRebar(m, tag, startTemp, startEta).Ok?
    ensures startTemp > 0.0
    ensures Forward(m, NewRebar(m, tag, startTemp, startEta).value, f, z)
            == Scale(startEta, f(RelaxAt(m, startTemp, tag in BERNOULLI_SYNONYMS, z)))
  {
    var r := NewRebar(m, tag, startTemp, startEta).value;
    ResetTemperature(m, r);
  }
}

=== FILE: results.dfy ===
/** Failure-compatible result types shared by every module of the model.

    The Python code signals failure by raising exceptions; the model returns
    `Err(e)` instead, where `e` names the exception class that would be raised. */
module Results {

  /** The Python exception classes raised by the modelled code. */
  datatype Error =
    | IOError         // malformed "trn" line
    | ValueError      // bad value: unknown distribution, negative id, bad time, ...
    | KeyError        // missing entry of a user-supplied mapping
    | TypeError       // a value of the wrong Python type reaches the code
    | IndexError      // indexing an empty sequence
    | RuntimeError    // a tensor shape the torch operation cannot handle
    | AttributeError  // a method called on `None`

  datatype Option<+T> = None | Some(value: T)

  datatype Result<+T> = Ok(value: T) | Err(error: Error) {

    predicate IsFailure() {
      Err?
    }

    function PropagateFailure<U>(): Result<U>
      requires Err?
    {
      Err(error)
    }

    function Extract(): T
      requires Ok?
    {
      value
    }
  }
}

=== FILE: sorting.dfy ===
/** Python's `sorted`, which is stable, modelled as insertion sort over an
    ordering `le` (`le(a, b)` meaning "a may come before b"). The lemmas state
    what callers rely on: the result is ordered, is a permutation of the input,
    keeps equivalent elements in their original order, and commutes with any
    map that preserves the ordering. */
module Sorting {

  ghost predicate TotalPreorder<T(!new)>(le: (T, T) -> bool) {
    && (forall x, y :: le(x, y) || le(y, x))
    && (forall x, y, z :: le(x, y) && le(y, z) ==> le(x, z))
  }

  predicate SortedBy<T>(s: seq<T>, le: (T, T) -> bool) {
    forall i, j :: 0 <= i < j < |s| ==> le(s[i], s[j])
  }

  /** Places `x` before the first element it may precede. */
  function Insert<T>(x: T, s: seq<T>, le: (T, T) -> bool): (r: seq<T>)
    ensures multiset(r) == multiset(s) + multiset{x}
    ensures |r| == |s| + 1
  {
    if s == [] || le(x, s[0]) then [x] + s
    else
      assert s == [s[0]] + s[1..];
      [s[0]] + Insert(x, s[1..], le)
  }

  /** Stable sort: the result is a permutation of `s`. */
  function Sort<T>(s: seq<T>, le: (T, T) -> bool): (r: seq<T>)
    ensures multiset(r) == multiset(s)
    ensures |r| == |s|
  {
    if s == [] then []
    else
      assert s == [s[0]] + s[1..];
      Insert(s[0], Sort(s[1..], le), le)
  }

  lemma {:induction false} InsertSorted<T(!new)>(x: T, s: seq<T>, le: (T, T) -> bool)
    requires TotalPreorder(le)
    requires SortedBy(s, le)
    ensures SortedBy(Insert(x, s, le), le)
  {
    if s != [] && !le(x, s[0]) {
      InsertSorted(x, s[1..], le);
      var r := Insert(x, s, le);
      var t := Insert(x, s[1..], le);
      assert r == [s[0]] + t;
      assert le(s[0], x);
      forall j | 0 < j < |r|
        ensures le(s[0], r[j])
      {
        assert r[j] in multiset(t);
        assert r[j] in multiset(s[1..]) + multiset{x};
        if r[j] != x {
          assert r[j] in s[1..];
          var k :| 0 <= k < |s[1..]| && s[1..][k] == r[j];
          assert s[k + 1] == r[j];
        }
      }
    }
  }

  /** The sorted result is ordered by `le`. */
  lemma {:induction false} SortSorted<T(!new)>(s: seq<T>, le: (T, T) -> bool)
    requires TotalPreorder(le)
    ensures SortedBy(Sort(s, le), le)
  {
    if s != [] {
      SortSorted(s[1..], le);
      InsertSorted(s[0], Sort(s[1..], le), le);
    }
  }

  /** The elements of `s` equivalent to `k` under `le`, in their order in `s`. */
  function Equivalents<T>(s: seq<T>, k: T, le: (T, T) -> bool): seq<T> {
    if s == [] then []
    else (if le(k, s[0]) && le(s[0], k) then [s[0]] else []) + Equivalents(s[1..], k, le)
  }

  lemma {:induction false} InsertStable<T(!new)>(x: T, s: seq<T>, k: T, le: (T, T) -> bool)
    requires TotalPreorder(le)
    ensures Equivalents(Insert(x, s, le), k, le)
         == (if le(k, x) && le(x, k) then [x] else []) + Equivalents(s, k, le)
  {
    if s == [] || le(x, s[0]) {
      assert Insert(x, s, le)[1..] == s;
    } else {
      var r := Insert(x, s, le);
      assert r[0] == s[0] && r[1..] == Insert(x, s[1..], le);
      InsertStable(x, s[1..], k, le);
      var ex: seq<T> := if le(k, x) && le(x, k) then [x] else [];
      var e0: seq<T> := if le(k, s[0]) && le(s[0], k) then [s[0]] else [];
      assert !(le(x, k) && le(k, s[0]));
      assert ex == [] || e0 == [];
      assert Equivalents(r, k, le) == e0 + (ex + Equivalents(s[1..], k, le));
      assert Equivalents(s, k, le) == e0 + Equivalents(s[1..], k, le);
    }
  }

  /** Stability: the elements equivalent to any `k` keep their relative order. */
  lemma {:induction false} SortStable<T(!new)>(s: seq<T>, k: T, le: (T, T) -> bool)
    requires TotalPreorder(le)
    ensures Equivalents(Sort(s, le), k, le) == Equivalents(s, k, le)
  {
    if s != [] {
      SortStable(s[1..], k, le);
      InsertStable(s[0], Sort(s[1..], le), k, le);
    }
  }

  function MapSeq<T, U>(s: seq<T>, f: T -> U): (r: seq<U>)
    ensures |r| == |s|
    ensures forall i :: 0 <= i < |s| ==> r[i] == f(s[i])
  {
    if s == [] then [] else [f(s[0])] + MapSeq(s[1..], f)
  }

  /** Sorting commutes with a map that preserves the ordering: sorting the
      images arranges them exactly as the originals are arranged. */
  lemma {:induction false} SortMap<T, U>(s: seq<T>, f: T -> U, le: (T, T) -> bool, le': (U, U) -> bool)
    requires forall a, b :: le'(f(a), f(b)) == le(a, b)
    ensures Sort(MapSeq(s, f), le') == MapSeq(Sort(s, le), f)
  {
    if s != [] {
      SortMap(s[1..], f, le, le');
      assert MapSeq(s, f)[1..] == MapSeq(s[1..], f);
      InsertMap(s[0], Sort(s[1..], le), f, le, le');
    }
  }

  lemma {:induction false} InsertMap<T, U>(x: T, s: seq<T>, f: T -> U, le: (T, T) -> bool, le': (U, U) -> bool)
    requires forall a, b :: le'(f(a), f(b)) == le(a, b)
    ensures Insert(f(x), MapSeq(s, f), le') == MapSeq(Insert(x, s, le), f)
  {
    if s != [] && !le(x, s[0]) {
      assert MapSeq(s, f)[1..] == MapSeq(s[1..], f);
      InsertMap(x, s[1..], f, le, le');
    } else if s != [] {
      assert MapSeq([x] + s, f) == [f(x)] + MapSeq(s, f);
    }
  }
}

=== FILE: spectdata.dfy ===
/** Spectral data directories: `SpectDataSet.find_utt_ids` (with the sort
    the constructor applies to its result), `validate_spect_data_set`,
    `spect_seq_to_batch` and `SpectEvaluationDataLoader.eval_collate_fn` of
    `pydrobert/torch/data.py`.

    A directory listing is a sequence of file names and a loaded tensor is
    described by what the code inspects: its type, its shape and, for a
    reference, the frame bounds of its rows. */
module SpectData {

  import opened Results
  import opened Text
  import opened Sorting

  // ----------------------------------------------------------------------
  // Utterance ids from file names

  function Max0(n: int): nat {
    if n < 0 then 0 else n
  }

  /** Python's `x[lo:hi]` for `lo >= 0`, where `hi` is `None` (up to the end)
      or an integer, counted from the end when negative. */
  function PySlice(x: string, lo: nat, hi: Option<int>): string {
    var h := if hi.None? then |x| else if hi.value < 0 then Max0(|x| + hi.value) else hi.value;
    Slice(x, lo, h)
  }

  predicate Matches(x: string, prefix: string, suffix: string) {
    StartsWith(x, prefix) && EndsWith(x, suffix)
  }

  /** `x[fpl:neg_fsl]` with `fpl = len(prefix)` and `neg_fsl = -len(suffix)`,
      replaced by `None` when it is zero. */
  function Stem(x: string, prefix: string, suffix: string): string {
    var negFsl := -|suffix|;
    PySlice(x, |prefix|, if negFsl == 0 then None else Some(negFsl))
  }

  /** The file of utterance `u` is named `prefix + u + suffix`, and its name
      gives back `u`, also when the suffix is empty. */
  lemma StemOfName(prefix: string, u: string, suffix: string)
    ensures Matches(prefix + u + suffix, prefix, suffix)
    ensures Stem(prefix + u + suffix, prefix, suffix) == u
  {
    var x := prefix + u + suffix;
    assert x[..|prefix|] == prefix;
    assert x[|x| - |suffix|..] == suffix;
    assert x[|prefix|..|prefix| + |u|] == u;
  }

  /** A matching name long enough to hold the prefix and the suffix apart is
      `prefix + stem + suffix`; a shorter one, where they overlap, gives the
      empty id. */
  lemma NameOfStem(x: string, prefix: string, suffix: string)
    requires Matches(x, prefix, suffix)
    ensures |prefix| + |suffix| <= |x| ==> x == prefix + Stem(x, prefix, suffix) + suffix
    ensures |x| < |prefix| + |suffix| ==> Stem(x, prefix, suffix) == []
  {
    if |prefix| + |suffix| <= |x| {
      var u := Stem(x, prefix, suffix);
      assert u == x[|prefix|..|x| - |suffix|];
      assert x == x[..|prefix|] + x[|prefix|..|x| - |suffix|] + x[|x| - |suffix|..];
    }
  }

  /** The ids named by the matching files of a listing. */
  function IdsIn(listing: seq<string>, prefix: string, suffix: string): set<string> {
    set x | x in listing && Matches(x, prefix, suffix) :: Stem(x, prefix, suffix)
  }

  /** Which ids a listing names, in terms of its file names. */
  lemma IdsInNames(listing: seq<string>, prefix: string, suffix: string, u: string)
    ensures u in IdsIn(listing, prefix, suffix) <==>
              (prefix + u + suffix in listing
               || (u == [] && exists x :: x in listing && Matches(x, prefix, suffix) && |x| < |prefix| + |suffix|))
  {
    if u in IdsIn(listing, prefix, suffix) {
      var x :| x in listing && Matches(x, prefix, suffix) && Stem(x, prefix, suffix) == u;
      NameOfStem(x, prefix, suffix);
    }
    if prefix + u + suffix in listing {
      StemOfName(prefix, u, suffix);
    }
    if u == [] && exists x :: x in listing && Matches(x, prefix, suffix) && |x| < |prefix| + |suffix| {
      var x :| x in listing && Matches(x, prefix, suffix) && |x| < |prefix| + |suffix|;
      NameOfStem(x, prefix, suffix);
    }
  }

  lemma IdsInFiles(listing: seq<string>, prefix: string, suffix: string)
    ensures forall u :: u != [] ==> (u in IdsIn(listing, prefix, suffix) <==> prefix + u + suffix in listing)
  {
    forall u | u != []
      ensures u in IdsIn(listing, prefix, suffix) <==> prefix + u + suffix in listing
    {
      IdsInNames(listing, prefix, suffix, u);
    }
  }

  /** `has_ali` / `has_ref`: the directory is configured, exists (`Some`) and
      holds at least one matching file. */
  predicate HasData(dir: Option<seq<string>>, prefix: string, suffix: string) {
    dir.Some? && exists x :: x in dir.value && Matches(x, prefix, suffix)
  }

  function Within(ids: set<string>, subset: Option<set<string>>): set<string> {
    if subset.Some? then ids * subset.value else ids
  }

  /** `find_utt_ids`: the feature ids, cut down to `subset` and to the ids of
      the alignment and reference directories when those hold data. */
  function FindUttIds(feat: seq<string>, ali: Option<seq<string>>, ref: Option<seq<string>>,
                      subset: Option<set<string>>, prefix: string, suffix: string): (r: set<string>)
    ensures forall u :: u != [] ==>
              (u in r <==>
                 && prefix + u + suffix in feat
                 && (subset.Some? ==> u in subset.value)
                 && (HasData(ali, prefix, suffix) ==> prefix + u + suffix in ali.value)
                 && (HasData(ref, prefix, suffix) ==> prefix + u + suffix in ref.value))
  {
    var uttIds := Within(IdsIn(feat, prefix, suffix), subset);
    var withAli :=
      if HasData(ali, prefix, suffix) then uttIds * Within(IdsIn(ali.value, prefix, suffix), subset)
      else uttIds;
    var r :=
      if HasData(ref, prefix, suffix) then withAli * Within(IdsIn(ref.value, prefix, suffix), subset)
      else withAli;
    IdsInFiles(feat, prefix, suffix);
    IdsInFiles(if ali.Some? then ali.value else [], prefix, suffix);
    IdsInFiles(if ref.Some? then ref.value else [], prefix, suffix);
    r
  }

  /** Strictly increasing in Python's string order. */
  predicate Increasing(s: seq<string>) {
    forall i, j :: 0 <= i < j < |s| ==> StrLe(s[i], s[j]) && s[i] != s[j]
  }

  /** The stems of the matching names of `listing` that lie in `keep`. */
  function Candidates(listing: seq<string>, prefix: string, suffix: string, keep: set<string>): (r: seq<string>)
    ensures forall u :: u in r <==> u in keep && u in IdsIn(listing, prefix, suffix)
  {
    if listing == [] then []
    else
      var x := listing[0];
      var rest := Candidates(listing[1..], prefix, suffix, keep);
      assert forall u :: u in IdsIn(listing, prefix, suffix) <==>
        (u in IdsIn(listing[1..], prefix, suffix) || (Matches(x, prefix, suffix) && u == Stem(x, prefix, suffix))) by {
        assert listing == [x] + listing[1..];
      }
      if Matches(x, prefix, suffix) && Stem(x, prefix, suffix) in keep then [Stem(x, prefix, suffix)] + rest
      else rest
  }

  /** Drops the repeats of an element next to itself. */
  function Uniq(s: seq<string>): (r: seq<string>)
    ensures forall u :: u in r <==> u in s
    ensures SortedBy(s, StrLe) ==> Increasing(r)
    ensures r != [] ==> s != [] && r[0] == s[0]
  {
    if |s| <= 1 then s
    else
      var rest := Uniq(s[1..]);
      assert forall u :: u in s <==> u == s[0] || u in s[1..] by {
        assert s == [s[0]] + s[1..];
      }
      if s[0] == s[1] then rest
      else
        UniqFront(s, rest);
        [s[0]] + rest
  }

  /** In a sorted `s` whose first two elements differ, the first precedes
      and differs from every later element. */
  lemma UniqFront(s: seq<string>, rest: seq<string>)
    requires |s| >= 2 && s[0] != s[1]
    requires forall u :: u in rest ==> u in s[1..]
    ensures SortedBy(s, StrLe) ==> forall j :: 0 <= j < |rest| ==> StrLe(s[0], rest[j]) && s[0] != rest[j]
  {
    if SortedBy(s, StrLe) {
      forall j | 0 <= j < |rest|
        ensures StrLe(s[0], rest[j]) && s[0] != rest[j]
      {
        assert rest[j] in s[1..];
        var k :| 1 <= k < |s| && s[k] == rest[j];
        if s[0] == rest[j] {
          assert StrLe(s[1], s[k]);
          StrLeAntisymmetric(s[0], s[1]);
        }
      }
    }
  }

  /** `tuple(sorted(self.find_utt_ids(...)))`: the selected ids in increasing
      order, each once. */
  function UttIds(feat: seq<string>, ali: Option<seq<string>>, ref: Option<seq<string>>,
                  subset: Option<set<string>>, prefix: string, suffix: string): (r: seq<string>)
    ensures Increasing(r)
    ensures forall u :: u in r <==> u in FindUttIds(feat, ali, ref, subset, prefix, suffix)
  {
    var ids := FindUttIds(feat, ali, ref, subset, prefix, suffix);
    var c := Candidates(feat, prefix, suffix, ids);
    var sorted := Sort(c, StrLe);
    StrLeTotalPreorder();
    SortSorted(c, StrLe);
    assert forall u :: u in sorted <==> u in c by {
      assert forall u :: u in sorted <==> u in multiset(sorted);
      assert forall u :: u in c <==> u in multiset(c);
    }
    Uniq(sorted)
  }

  lemma StrLeTotalPreorder()
    ensures TotalPreorder(StrLe)
  {
    forall x, y
      ensures StrLe(x, y) || StrLe(y, x)
    {
      StrLeTotal(x, y);
    }
    forall x, y, z | StrLe(x, y) && StrLe(y, z)
      ensures StrLe(x, z)
    {
      StrLeTransitive(x, y, z);
    }
  }

  lemma HeadIn<T>(s: seq<T>)
    ensures s != [] ==> s[0] in s
  {
  }

  /** An increasing sequence is determined by its elements: `UttIds` is the
      one arrangement `sorted` can produce. */
  lemma {:induction false} IncreasingUnique(a: seq<string>, b: seq<string>)
    requires Increasing(a) && Increasing(b)
    requires forall u :: u in a <==> u in b
    ensures a == b
    decreases |a|
  {
    if a != [] && b != [] {
      assert a[0] in b;
      assert b[0] in a;
      var i :| 0 <= i < |b| && b[i] == a[0];
      var j :| 0 <= j < |a| && a[j] == b[0];
      if a[0] != b[0] {
        assert i > 0 && j > 0;
        assert StrLe(a[0], a[j]) && StrLe(b[0], b[i]);
        StrLeAntisymmetric(a[0], b[0]);
      }
      forall u
        ensures u in a[1..] <==> u in b[1..]
      {
        if u in a[1..] {
          var k :| 1 <= k < |a| && a[k] == u;
          assert u != a[0];
          assert u in b;
        }
        if u in b[1..] {
          var k :| 1 <= k < |b| && b[k] == u;
          assert u != b[0];
          assert u in a;
        }
      }
      IncreasingUnique(a[1..], b[1..]);
      assert a == [a[0]] + a[1..] && b == [b[0]] + b[1..];
    } else if a != [] || b != [] {
      HeadIn(a);
      HeadIn(b);
      assert false;
    }
  }

  // ----------------------------------------------------------------------
  // Validation

  datatype TensorType = FloatTensor | LongTensor | OtherTensor

  /** A loaded tensor as the validator sees it: its type, its shape, and for
      a reference the start and end frame (`r[i, 1]`, `r[i, 2]`) of each row. */
  datatype Tensor = Tensor(kind: TensorType, shape: seq<nat>, bounds: seq<(int, int)>)

  /** The feature, alignment and reference tensors of one utterance. */
  datatype Loaded = Loaded(feat: Tensor, ali: Option<Tensor>, ref: Option<Tensor>)

  predicate FeatOk(t: Tensor) {
    t.kind == FloatTensor && |t.shape| == 2
  }

  /** Both bounds unknown (negative), or a non-empty span inside `frames`. */
  predicate BoundsOk(b: (int, int), frames: nat) {
    (b.0 < 0 && b.1 < 0) || (0 <= b.0 < b.1 <= frames)
  }

  predicate AliOk(a: Option<Tensor>, frames: nat) {
    a.Some? ==> a.value.kind == LongTensor && |a.value.shape| == 1 && a.value.shape[0] == frames
  }

  predicate RefOk(r: Option<Tensor>, frames: nat) {
    r.Some? ==>
      && r.value.kind == LongTensor && |r.value.shape| == 2 && r.value.shape[1] == 3
      && forall k :: 0 <= k < |r.value.bounds| ==> BoundsOk(r.value.bounds[k], frames)
  }

  /** Every rule for one utterance, given the filter count of the data set. */
  predicate LoadedOk(e: Loaded, filts: nat) {
    FeatOk(e.feat) && e.feat.shape[1] == filts
    && AliOk(e.ali, e.feat.shape[0]) && RefOk(e.ref, e.feat.shape[0])
  }

  /** The filter count every utterance must share: that of the first. */
  function Filts(es: seq<Loaded>): nat
    requires es != []
  {
    if |es[0].feat.shape| == 2 then es[0].feat.shape[1] else 0
  }

  datatype Verdict = Valid | Invalid(index: nat)

  /** `validate_spect_data_set`: `Invalid(i)` is the `ValueError` raised for
      utterance `i`, the first one breaking a rule. */
  method ValidateSpectDataSet(es: seq<Loaded>) returns (v: Verdict)
    ensures v == Valid <==> forall i :: 0 <= i < |es| ==> LoadedOk(es[i], Filts(es))
    ensures v.Invalid? ==> v.index < |es| && !LoadedOk(es[v.index], Filts(es))
                           && forall j :: 0 <= j < v.index ==> LoadedOk(es[j], Filts(es))
  {
    var numFilts: Option<nat> := None;
    for idx := 0 to |es|
      invariant numFilts == if idx == 0 then None else Some(Filts(es))
      invariant forall j :: 0 <= j < idx ==> LoadedOk(es[j], Filts(es))
    {
      var feat := es[idx].feat;
      if feat.kind != FloatTensor || |feat.shape| != 2 {
        return Invalid(idx);
      }
      if numFilts.None? {
        numFilts := Some(feat.shape[1]);
      } else if feat.shape[1] != numFilts.value {
        return Invalid(idx);
      }
      var frames := feat.shape[0];
      var ali := es[idx].ali;
      if ali.Some? {
        if ali.value.kind != LongTensor || |ali.value.shape| != 1 || ali.value.shape[0] != frames {
          return Invalid(idx);
        }
      }
      var ref := es[idx].ref;
      if ref.Some? {
        if ref.value.kind != LongTensor || |ref.value.shape| != 2 || ref.value.shape[1] != 3 {
          return Invalid(idx);
        }
        var bounds := ref.value.bounds;
        for k := 0 to |bounds|
          invariant forall m :: 0 <= m < k ==> BoundsOk(bounds[m], frames)
        {
          var r := bounds[k];
          if !(r.0 < 0 && r.1 < 0) && !(0 <= r.0 < r.1 <= frames) {
            return Invalid(idx);
          }
        }
      }
    }
    return Valid;
  }

  // ----------------------------------------------------------------------
  // Batching

  const ALI_PAD_VALUE: int := -100
  const REF_PAD_VALUE: int := -100

  /** One utterance to batch: a `(T, F)` feature matrix, a length-`T`
      alignment and an `(R, 3)` reference, the last two possibly missing. */
  datatype Sample = Sample(feat: seq<seq<real>>, ali: Option<seq<int>>, ref: Option<seq<seq<int>>>)

  /** What `spect_seq_to_batch` returns: `(N, T*, F)` features, `(N, T*)`
      alignments, `(N, R*, 3)` references and the unpadded sizes. */
  datatype Batch = Batch(feats: seq<seq<seq<real>>>, alis: Option<seq<seq<int>>>,
                         refs: Option<seq<seq<seq<int>>>>, featSizes: seq<nat>,
                         refSizes: Option<seq<nat>>)

  /** The shapes the batcher assumes of its input: one filter count
      throughout, alignments as long as their features, three-column
      references. */
  predicate Shaped(s: seq<Sample>) {
    && (forall i, j, t, u :: 0 <= i < |s| && 0 <= j < |s| && 0 <= t < |s[i].feat| && 0 <= u < |s[j].feat|
          ==> |s[i].feat[t]| == |s[j].feat[u]|)
    && (forall i :: 0 <= i < |s| && s[i].ali.Some? ==> |s[i].ali.value| == |s[i].feat|)
    && (forall i, k :: 0 <= i < |s| && s[i].ref.Some? && 0 <= k < |s[i].ref.value| ==> |s[i].ref.value[k]| == 3)
  }

  /** `sorted(seq, key=lambda x: -x[0].shape[0])`: more frames first. */
  predicate LongerFirst(a: Sample, b: Sample) {
    |a.feat| >= |b.feat|
  }

  lemma LongerFirstTotal()
    ensures TotalPreorder(LongerFirst)
  {
  }

  /** `xs` followed by copies of `pad` up to length `n`. */
  function Pad<T>(xs: seq<T>, n: nat, pad: T): seq<T> {
    if |xs| >= n then xs else xs + seq(n - |xs|, _ => pad)
  }

  /** A padded sequence starts with `xs` and continues with `pad` up to `n`. */
  lemma PadShape<T>(xs: seq<T>, n: nat, pad: T)
    requires |xs| <= n
    ensures |Pad(xs, n, pad)| == n && Pad(xs, n, pad)[..|xs|] == xs
    ensures forall k :: |xs| <= k < n ==> Pad(xs, n, pad)[k] == pad
  {
  }

  function Zeros(f: nat): seq<real> {
    seq(f, _ => 0.0)
  }

  predicate AllAlis(s: seq<Sample>) {
    forall i :: 0 <= i < |s| ==> s[i].ali.Some?
  }

  predicate AllRefs(s: seq<Sample>) {
    forall i :: 0 <= i < |s| ==> s[i].ref.Some?
  }

  function RefCount(x: Sample): nat {
    if x.ref.Some? then |x.ref.value| else 0
  }

  /** `R*`: the largest reference count. */
  function MaxRefs(q: seq<Sample>): (m: nat)
    ensures forall i :: 0 <= i < |q| ==> RefCount(q[i]) <= m
    ensures q != [] ==> exists i :: 0 <= i < |q| && RefCount(q[i]) == m
  {
    if q == [] then 0
    else
      var m := MaxRefs(q[1..]);
      assert forall i :: 1 <= i < |q| ==> q[i] == q[1..][i - 1];
      if RefCount(q[0]) >= m then RefCount(q[0])
      else
        var i :| 0 <= i < |q[1..]| && RefCount(q[1..][i]) == m;
        assert q[i + 1] == q[1..][i];
        m
  }

  function FeatRow(x: Sample, frames: nat, filts: nat): seq<seq<real>> {
    Pad(x.feat, frames, Zeros(filts))
  }

  function AliRow(x: Sample, frames: nat): seq<int> {
    match x.ali
    case Some(a) => Pad(a, frames, ALI_PAD_VALUE)
    case None => []
  }

  function RefRow(x: Sample, refs: nat): seq<seq<int>> {
    match x.ref
    case Some(r) => Pad(r, refs, [REF_PAD_VALUE, REF_PAD_VALUE, REF_PAD_VALUE])
    case None => []
  }

  /** The batch of the already sorted `q`, longest first. */
  function Build(q: seq<Sample>): Batch
    requires q != [] && forall n :: 0 <= n < |q| ==> |q[n].feat| <= |q[0].feat|
  {
    var frames := |q[0].feat|;
    var filts := if frames == 0 then 0 else |q[0].feat[0]|;
    Batch(MapSeq(q, x => FeatRow(x, frames, filts)),
          if AllAlis(q) then Some(MapSeq(q, x => AliRow(x, frames))) else None,
          if AllRefs(q) then Some(MapSeq(q, x => RefRow(x, MaxRefs(q)))) else None,
          MapSeq(q, (x: Sample) => |x.feat|),
          if AllRefs(q) then Some(MapSeq(q, RefCount)) else None)
  }

  /** Feature row `n` holds the frames of `q[n]` and then all-zero frames of
      the common width, up to `T*`, the largest frame count. */
  predicate FeatsPadded(b: Batch, q: seq<Sample>) {
    && |b.feats| == |b.featSizes| == |q| != 0
    && (exists m :: 0 <= m < |q| && |q[m].feat| == |b.feats[0]|)
    && forall n :: 0 <= n < |q| ==>
         && b.featSizes[n] == |q[n].feat| <= |b.feats[n]| == |b.feats[0]|
         && b.feats[n][..b.featSizes[n]] == q[n].feat
         && forall t, m, u :: b.featSizes[n] <= t < |b.feats[n]| && 0 <= m < |q| && 0 <= u < |q[m].feat|
              ==> b.feats[n][t] == Zeros(|q[m].feat[u]|)
  }

  /** Alignments are batched exactly when every utterance has one; row `n`
      holds that of `q[n]` and then `ALI_PAD_VALUE` up to `T*`. */
  predicate AlisPadded(b: Batch, q: seq<Sample>) {
    && (b.alis.Some? <==> AllAlis(q))
    && (b.alis.Some? ==> |b.alis.value| == |q| == |b.feats| == |b.featSizes| && forall n :: 0 <= n < |q| ==>
          && b.featSizes[n] <= |b.alis.value[n]| == |b.feats[n]|
          && Some(b.alis.value[n][..b.featSizes[n]]) == q[n].ali
          && forall t :: b.featSizes[n] <= t < |b.alis.value[n]| ==> b.alis.value[n][t] == ALI_PAD_VALUE)
  }

  /** References and their sizes are batched exactly when every utterance
      has one; row `n` holds that of `q[n]` and then rows of `REF_PAD_VALUE`
      up to `R*`, the largest reference count. */
  predicate RefsPadded(b: Batch, q: seq<Sample>) {
    && (b.refs.Some? <==> AllRefs(q))
    && (b.refSizes.Some? <==> AllRefs(q))
    && (b.refs.Some? && b.refSizes.Some? ==>
          && |b.refs.value| == |b.refSizes.value| == |q| != 0
          && (exists m :: 0 <= m < |q| && b.refSizes.value[m] == |b.refs.value[0]|)
          && forall n :: 0 <= n < |q| ==>
               && b.refSizes.value[n] <= |b.refs.value[n]| == |b.refs.value[0]|
               && Some(b.refs.value[n][..b.refSizes.value[n]]) == q[n].ref
               && forall k :: b.refSizes.value[n] <= k < |b.refs.value[n]| ==>
                    b.refs.value[n][k] == [REF_PAD_VALUE, REF_PAD_VALUE, REF_PAD_VALUE])
  }

  lemma BuildFeats(q: seq<Sample>)
    requires q != [] && Shaped(q) && forall n :: 0 <= n < |q| ==> |q[n].feat| <= |q[0].feat|
    ensures FeatsPadded(Build(q), q)
  {
    var b := Build(q);
    var frames := |q[0].feat|;
    var filts := if frames == 0 then 0 else |q[0].feat[0]|;
    forall n | 0 <= n < |q|
      ensures b.featSizes[n] == |q[n].feat| <= |b.feats[n]| == |b.feats[0]|
      ensures b.feats[n][..b.featSizes[n]] == q[n].feat
      ensures forall t, m, u :: b.featSizes[n] <= t < |b.feats[n]| && 0 <= m < |q| && 0 <= u < |q[m].feat|
                ==> b.feats[n][t] == Zeros(|q[m].feat[u]|)
    {
      assert b.feats[n] == Pad(q[n].feat, frames, Zeros(filts));
      assert b.featSizes[n] == |q[n].feat|;
      PadShape(q[n].feat, frames, Zeros(filts));
      forall m, u | 0 <= m < |q| && 0 <= u < |q[m].feat|
        ensures Zeros(filts) == Zeros(|q[m].feat[u]|)
      {
        assert |q[0].feat[0]| == |q[m].feat[u]|;
      }
    }
    assert |q[0].feat| == |b.feats[0]|;
  }

  lemma BuildAlis(q: seq<Sample>)
    requires q != [] && Shaped(q) && forall n :: 0 <= n < |q| ==> |q[n].feat| <= |q[0].feat|
    ensures AlisPadded(Build(q), q)
  {
    var b := Build(q);
    var frames := |q[0].feat|;
    if AllAlis(q) {
      forall n | 0 <= n < |q|
        ensures b.featSizes[n] <= |b.alis.value[n]| == |b.feats[n]|
        ensures Some(b.alis.value[n][..b.featSizes[n]]) == q[n].ali
        ensures forall t :: b.featSizes[n] <= t < |b.alis.value[n]| ==> b.alis.value[n][t] == ALI_PAD_VALUE
      {
        var a := q[n].ali.value;
        assert |a| == |q[n].feat| == b.featSizes[n];
        assert b.alis.value[n] == Pad(a, frames, ALI_PAD_VALUE);
        assert b.feats[n] == Pad(q[n].feat, frames, Zeros(if frames == 0 then 0 else |q[0].feat[0]|));
        PadShape(a, frames, ALI_PAD_VALUE);
        PadShape(q[n].feat, frames, Zeros(if frames == 0 then 0 else |q[0].feat[0]|));
      }
    }
  }

  lemma BuildRefs(q: seq<Sample>)
    requires q != [] && Shaped(q) && forall n :: 0 <= n < |q| ==> |q[n].feat| <= |q[0].feat|
    ensures RefsPadded(Build(q), q)
  {
    var b := Build(q);
    if AllRefs(q) {
      var rs := MaxRefs(q);
      var pad := [REF_PAD_VALUE, REF_PAD_VALUE, REF_PAD_VALUE];
      var refs := b.refs.value;
      var sizes := b.refSizes.value;
      forall n | 0 <= n < |q|
        ensures sizes[n] <= |refs[n]| == rs
        ensures Some(refs[n][..sizes[n]]) == q[n].ref
        ensures forall k :: sizes[n] <= k < |refs[n]| ==> refs[n][k] == pad
      {
        var r := q[n].ref.value;
        assert refs[n] == Pad(r, rs, pad);
        assert sizes[n] == RefCount(q[n]) == |r|;
        PadShape(r, rs, pad);
      }
      var m :| 0 <= m < |q| && RefCount(q[m]) == rs;
      assert sizes[m] == |refs[0]|;
    }
  }

  /** Every element of the sorted `q` is one of `s`, and conversely. */
  lemma SameElements<T>(q: seq<T>, s: seq<T>)
    requires multiset(q) == multiset(s)
    ensures forall x :: x in q <==> x in s
  {
    assert forall x :: x in q <==> x in multiset(q);
    assert forall x :: x in s <==> x in multiset(s);
  }

  /** The sorted samples keep the shapes and the presence of alignments and
      references, and the longest comes first. */
  lemma SortedShaped(s: seq<Sample>, q: seq<Sample>)
    requires Shaped(s) && multiset(q) == multiset(s) && SortedBy(q, LongerFirst)
    ensures Shaped(q)
    ensures AllAlis(q) <==> AllAlis(s)
    ensures AllRefs(q) <==> AllRefs(s)
    ensures forall n :: 0 <= n < |q| ==> |q[n].feat| <= |q[0].feat|
  {
    SameElements(q, s);
    forall i, j, t, u | 0 <= i < |q| && 0 <= j < |q| && 0 <= t < |q[i].feat| && 0 <= u < |q[j].feat|
      ensures |q[i].feat[t]| == |q[j].feat[u]|
    {
      assert q[i] in s && q[j] in s;
      var i' :| 0 <= i' < |s| && s[i'] == q[i];
      var j' :| 0 <= j' < |s| && s[j'] == q[j];
      assert |s[i'].feat[t]| == |s[j'].feat[u]|;
    }
    forall i | 0 <= i < |q|
      ensures q[i].ali.Some? ==> |q[i].ali.value| == |q[i].feat|
      ensures forall k :: q[i].ref.Some? && 0 <= k < |q[i].ref.value| ==> |q[i].ref.value[k]| == 3
      ensures AllAlis(s) ==> q[i].ali.Some?
      ensures AllRefs(s) ==> q[i].ref.Some?
    {
      assert q[i] in s;
    }
    forall i | 0 <= i < |s|
      ensures AllAlis(q) ==> s[i].ali.Some?
      ensures AllRefs(q) ==> s[i].ref.Some?
    {
      assert s[i] in q;
    }
  }

  /** `spect_seq_to_batch` on the shapes it assumes. An empty input fails at
      `seq[0]`. */
  function SpectSeqToBatch(s: seq<Sample>): (r: Result<Batch>)
    requires Shaped(s)
    ensures r.Err? <==> s == []
    ensures r.Err? ==> r.error == IndexError
    ensures r.Ok? ==> (r.value.alis.Some? <==> AllAlis(s)) && (r.value.refs.Some? <==> AllRefs(s))
    ensures r.Ok? ==> var q := Sort(s, LongerFirst);
                      FeatsPadded(r.value, q) && AlisPadded(r.value, q) && RefsPadded(r.value, q)
  {
    if s == [] then Err(IndexError)
    else
      var q := Sort(s, LongerFirst);
      LongerFirstTotal();
      SortSorted(s, LongerFirst);
      SortedShaped(s, q);
      BuildFeats(q);
      BuildAlis(q);
      BuildRefs(q);
      Ok(Build(q))
  }

  /** The batch holds the utterances longest first, equally long ones in
      their input order, and nothing else. */
  lemma BatchOrder(s: seq<Sample>, k: Sample)
    ensures SortedBy(Sort(s, LongerFirst), LongerFirst)
    ensures multiset(Sort(s, LongerFirst)) == multiset(s)
    ensures Equivalents(Sort(s, LongerFirst), k, LongerFirst) == Equivalents(s, k, LongerFirst)
  {
    LongerFirstTotal();
    SortSorted(s, LongerFirst);
    SortStable(s, k, LongerFirst);
  }

  function Take<T>(xs: seq<T>, n: nat): seq<T> {
    if n <= |xs| then xs[..n] else xs
  }

  /** The utterances of a batch, with the padding cut off again. */
  function Unbatch(b: Batch): seq<Sample>
    requires |b.featSizes| == |b.feats|
    requires b.alis.Some? ==> |b.alis.value| == |b.feats|
    requires b.refs.Some? ==> b.refSizes.Some? && |b.refs.value| == |b.refSizes.value| == |b.feats|
  {
    seq(|b.feats|, n requires 0 <= n < |b.feats| =>
      Sample(Take(b.feats[n], b.featSizes[n]),
             if b.alis.Some? then Some(Take(b.alis.value[n], b.featSizes[n])) else None,
             if b.refs.Some? then Some(Take(b.refs.value[n], b.refSizes.value[n])) else None))
  }

  /** An utterance with its alignment and reference kept only when the whole
      batch has them. */
  function Kept(x: Sample, alis: bool, refs: bool): Sample {
    Sample(x.feat, if alis then x.ali else None, if refs then x.ref else None)
  }

  /** Cutting the padding off a batch gives back its utterances in batch
      order; an alignment or reference is lost exactly when some utterance
      lacks one. */
  lemma UnbatchBatch(s: seq<Sample>)
    requires Shaped(s) && s != []
    ensures var b := SpectSeqToBatch(s).value;
            Unbatch(b) == MapSeq(Sort(s, LongerFirst), x => Kept(x, AllAlis(s), AllRefs(s)))
  {
    var b := SpectSeqToBatch(s).value;
    var q := Sort(s, LongerFirst);
    UnbatchPadded(b, q);
    var w := MapSeq(q, x => Kept(x, AllAlis(s), AllRefs(s)));
    assert Unbatch(b) == w;
  }

  lemma UnbatchPadded(b: Batch, q: seq<Sample>)
    requires FeatsPadded(b, q) && AlisPadded(b, q) && RefsPadded(b, q)
    ensures |b.featSizes| == |b.feats|
    ensures b.alis.Some? ==> |b.alis.value| == |b.feats|
    ensures b.refs.Some? ==> b.refSizes.Some? && |b.refs.value| == |b.refSizes.value| == |b.feats|
    ensures |Unbatch(b)| == |q|
    ensures forall n :: 0 <= n < |q| ==> Unbatch(b)[n] == Kept(q[n], b.alis.Some?, b.refs.Some?)
  {
    var u := Unbatch(b);
    forall n | 0 <= n < |q|
      ensures u[n] == Kept(q[n], b.alis.Some?, b.refs.Some?)
    {
      assert u[n].feat == q[n].feat;
      if b.alis.Some? {
        assert u[n].ali == q[n].ali;
      }
      if b.refs.Some? {
        assert u[n].ref == q[n].ref;
      }
    }
  }

  // ----------------------------------------------------------------------
  // Evaluation batches

  /** An evaluation sample: the data of one utterance and its id. */
  datatype EvalSample = EvalSample(feat: seq<seq<real>>, ali: Option<seq<int>>,
                                   ref: Option<seq<seq<int>>>, uttId: string)

  function Data(e: EvalSample): Sample {
    Sample(e.feat, e.ali, e.ref)
  }

  function FeatAndId(e: EvalSample): (seq<seq<real>>, string) {
    (e.feat, e.uttId)
  }

  predicate PairLongerFirst(a: (seq<seq<real>>, string), b: (seq<seq<real>>, string)) {
    |a.0| >= |b.0|
  }

  predicate EvalLongerFirst(a: EvalSample, b: EvalSample) {
    |a.feat| >= |b.feat|
  }

  /** `eval_collate_fn`: the ids are sorted by the frame counts of their
      features, as `spect_seq_to_batch` sorts the data, and returned beside
      the batch. Unpacking `zip()` of an empty batch fails with `ValueError`. */
  function EvalCollate(s: seq<EvalSample>): (r: Result<(Batch, seq<string>)>)
    requires Shaped(MapSeq(s, Data))
    ensures r.Err? <==> s == []
    ensures r.Err? ==> r.error == ValueError
    ensures r.Ok? ==> |r.value.1| == |r.value.0.feats| == |s|
  {
    if s == [] then Err(ValueError)
    else
      var b := SpectSeqToBatch(MapSeq(s, Data));
      Ok((b.value, EvalIds(s)))
  }

  /** The ids of `s`, sorted by the frame counts of their features. */
  function EvalIds(s: seq<EvalSample>): (ids: seq<string>)
    ensures |ids| == |s|
  {
    MapSeq(Sort(MapSeq(s, FeatAndId), PairLongerFirst), (p: (seq<seq<real>>, string)) => p.1)
  }

  /** The sorted ids are the ids of the sorted samples. */
  lemma EvalIdsSorted(s: seq<EvalSample>)
    ensures var q := Sort(s, EvalLongerFirst);
            forall n :: 0 <= n < |q| ==> EvalIds(s)[n] == q[n].uttId
  {
    SortMap(s, FeatAndId, EvalLongerFirst, PairLongerFirst);
  }

  /** `utt_ids[n]` names the utterance whose features are `feats[n]`: both
      come from the same sample once the input is sorted. */
  lemma EvalCollateAligned(s: seq<EvalSample>)
    requires Shaped(MapSeq(s, Data)) && s != []
    ensures var r := EvalCollate(s).value;
            var q := Sort(s, EvalLongerFirst);
            forall n :: 0 <= n < |s| ==>
              && r.1[n] == q[n].uttId
              && r.0.featSizes[n] == |q[n].feat|
              && r.0.feats[n][..r.0.featSizes[n]] == q[n].feat
  {
    var q := Sort(s, EvalLongerFirst);
    var r := EvalCollate(s).value;
    SortedIds(s);
    SortedData(s);
    forall n | 0 <= n < |s|
      ensures r.0.featSizes[n] == |q[n].feat|
      ensures r.0.feats[n][..r.0.featSizes[n]] == q[n].feat
    {
      assert Data(q[n]).feat == q[n].feat;
    }
  }

  /** The ids come out in the order the samples are sorted. */
  lemma SortedIds(s: seq<EvalSample>)
    requires Shaped(MapSeq(s, Data)) && s != []
    ensures var q := Sort(s, EvalLongerFirst);
            |EvalCollate(s).value.1| == |q|
            && forall n :: 0 <= n < |q| ==> EvalCollate(s).value.1[n] == q[n].uttId
  {
    assert EvalCollate(s).value.1 == EvalIds(s);
    EvalIdsSorted(s);
  }

  /** The batch holds the data of the samples in the order they are sorted. */
  lemma SortedData(s: seq<EvalSample>)
    requires Shaped(MapSeq(s, Data)) && s != []
    ensures var q := Sort(s, EvalLongerFirst);
            FeatsPadded(EvalCollate(s).value.0, MapSeq(q, Data))
  {
    SortMap(s, Data, EvalLongerFirst, LongerFirst);
  }
}

=== FILE: text.dfy ===
/** The handful of Python `str` operations the transcript readers rely on:
    `isspace`, `strip`, `split`, `rindex`, `startswith`/`endswith`, slicing with
    out-of-range bounds, comparison of strings, and iteration over the lines of a
    text file. */
module Text {

  import opened Results

  /** Python's `str.isspace` for one character: the ASCII whitespace and
      separator controls plus the Unicode space separators. */
  predicate IsSpace(c: char) {
    var n := c as int;
    || (9 <= n <= 13) || (28 <= n <= 32) || n == 0x85 || n == 0xA0
    || n == 0x1680 || (0x2000 <= n <= 0x200A) || n == 0x2028 || n == 0x2029
    || n == 0x202F || n == 0x205F || n == 0x3000
  }

  predicate NoSpace(s: string) {
    forall i :: 0 <= i < |s| ==> !IsSpace(s[i])
  }

  predicate AllSpace(s: string) {
    forall i :: 0 <= i < |s| ==> IsSpace(s[i])
  }

  /** `s.lstrip()`: drops the leading whitespace and nothing else. */
  function StripLeft(s: string): (r: string)
    ensures |r| <= |s| && r == s[|s| - |r|..]
    ensures r != [] ==> !IsSpace(r[0])
    decreases |s|
  {
    if s != [] && IsSpace(s[0]) then StripLeft(s[1..]) else s
  }

  /** `s.rstrip()`: drops the trailing whitespace and nothing else. */
  function StripRight(s: string): (r: string)
    ensures |r| <= |s| && r == s[..|r|]
    ensures r != [] ==> !IsSpace(r[|r| - 1])
    decreases |s|
  {
    if s != [] && IsSpace(s[|s| - 1]) then StripRight(s[..|s| - 1]) else s
  }

  /** What `lstrip` drops is whitespace. */
  lemma {:induction false} StripLeftDropsSpaces(s: string)
    ensures AllSpace(s[..|s| - |StripLeft(s)|])
    decreases |s|
  {
    if s != [] && IsSpace(s[0]) {
      var t := s[1..];
      StripLeftDropsSpaces(t);
      var k := |t| - |StripLeft(t)|;
      assert |s| - |StripLeft(s)| == k + 1;
      forall i | 0 < i <= k
        ensures IsSpace(s[i])
      {
        assert s[i] == t[..k][i - 1];
      }
    }
  }

  /** What `rstrip` drops is whitespace. */
  lemma {:induction false} StripRightDropsSpaces(s: string)
    ensures AllSpace(s[|StripRight(s)|..])
    decreases |s|
  {
    if s != [] && IsSpace(s[|s| - 1]) {
      var s' := s[..|s| - 1];
      StripRightDropsSpaces(s');
      assert s[|StripRight(s)|..] == s'[|StripRight(s')|..] + [s[|s| - 1]];
    }
  }

  /** `s.strip()`: the slice of `s` left when the whitespace on both ends is
      removed. */
  function Strip(s: string): (r: string)
    ensures r != [] ==> !IsSpace(r[0]) && !IsSpace(r[|r| - 1])
  {
    StripRight(StripLeft(s))
  }

  /** Stripping a string that neither starts nor ends with whitespace does
      nothing. */
  lemma StripUnchanged(s: string)
    requires s == [] || (!IsSpace(s[0]) && !IsSpace(s[|s| - 1]))
    ensures Strip(s) == s
  {
  }

  /** Whitespace appended to a string is removed again by `strip`. */
  lemma {:induction false} StripRightAppended(s: string, ws: string)
    requires AllSpace(ws)
    requires s == [] || !IsSpace(s[|s| - 1])
    ensures StripRight(s + ws) == s
    decreases |ws|
  {
    if ws != [] {
      var ws' := ws[..|ws| - 1];
      assert (s + ws)[..|s + ws| - 1] == s + ws';
      StripRightAppended(s, ws');
    } else {
      assert s + ws == s;
    }
  }

  /** Stripping a string that ends in one whitespace character, and is
      otherwise bounded by non-space characters, removes just that character. */
  lemma StripOneTrailing(y: string, ws: char)
    requires IsSpace(ws) && y != [] && !IsSpace(y[0]) && !IsSpace(y[|y| - 1])
    ensures Strip(y + [ws]) == y
  {
    assert StripLeft(y + [ws]) == y + [ws];
    StripRightAppended(y, [ws]);
  }

  /** `s.rindex(c)`, with `None` for the `ValueError` raised when `c` is
      absent: the position of the last occurrence of `c`. */
  function LastIndex(s: string, c: char): (r: Option<nat>)
    ensures r.None? <==> c !in s
    ensures r.Some? ==> r.value < |s| && s[r.value] == c && c !in s[r.value + 1..]
    decreases |s|
  {
    if s == [] then None
    else if s[|s| - 1] == c then Some(|s| - 1)
    else
      var r := LastIndex(s[..|s| - 1], c);
      assert s == s[..|s| - 1] + [s[|s| - 1]];
      if r.Some? then
        assert s[r.value + 1..] == s[..|s| - 1][r.value + 1..] + [s[|s| - 1]];
        r
      else r
  }

  /** Length of the run of non-separator characters that starts `s`. */
  function RunLength(s: string, isSep: char -> bool): (k: nat)
    ensures k <= |s|
    ensures forall i :: 0 <= i < k ==> !isSep(s[i])
    ensures k < |s| ==> isSep(s[k])
    decreases |s|
  {
    if s == [] || isSep(s[0]) then 0 else 1 + RunLength(s[1..], isSep)
  }

  /** The maximal runs of non-separator characters of `s`, left to right.
      With `IsSpace` as the separator this is Python's `s.split()`. */
  function Fields(s: string, isSep: char -> bool): (r: seq<string>)
    ensures forall j :: 0 <= j < |r| ==> r[j] != []
    ensures forall j, i :: 0 <= j < |r| && 0 <= i < |r[j]| ==> !isSep(r[j][i])
    decreases |s|
  {
    if s == [] then []
    else if isSep(s[0]) then Fields(s[1..], isSep)
    else
      var k := RunLength(s, isSep);
      [s[..k]] + Fields(s[k..], isSep)
  }

  /** A run of non-separator characters ended by a separator (or by the end)
      is one field, and splitting resumes after that separator. */
  lemma FieldsAfterWord(w: string, rest: string, isSep: char -> bool)
    requires forall i :: 0 <= i < |w| ==> !isSep(w[i])
    requires rest == [] || isSep(rest[0])
    ensures rest == [] ==> Fields(w + rest, isSep) == (if w == [] then [] else [w])
    ensures rest != [] ==> Fields(w + rest, isSep)
                           == (if w == [] then [] else [w]) + Fields(rest[1..], isSep)
  {
    var s := w + rest;
    if w == [] {
      assert s == rest;
    } else {
      RunLengthWord(w, rest, isSep);
      assert s[..|w|] == w && s[|w|..] == rest;
      if rest == [] {
        assert Fields(rest, isSep) == [];
      }
    }
  }

  lemma {:induction false} RunLengthWord(w: string, rest: string, isSep: char -> bool)
    requires forall i :: 0 <= i < |w| ==> !isSep(w[i])
    requires rest == [] || isSep(rest[0])
    ensures RunLength(w + rest, isSep) == |w|
    decreases |w|
  {
    if w == [] {
      assert w + rest == rest;
    } else {
      assert (w + rest)[1..] == w[1..] + rest;
      RunLengthWord(w[1..], rest, isSep);
    }
  }

  /** Words joined by single spaces. */
  function JoinSpaced(ws: seq<string>): string {
    if ws == [] then []
    else if |ws| == 1 then ws[0]
    else ws[0] + " " + JoinSpaced(ws[1..])
  }

  /** Splitting words joined by single spaces gives the words back. */
  lemma {:induction false} FieldsJoinSpaced(ws: seq<string>)
    requires forall j :: 0 <= j < |ws| ==> ws[j] != [] && NoSpace(ws[j])
    ensures Fields(JoinSpaced(ws), IsSpace) == ws
  {
    if |ws| == 1 {
      FieldsAfterWord(ws[0], [], IsSpace);
      assert ws[0] + [] == ws[0];
    } else if |ws| > 1 {
      var rest := " " + JoinSpaced(ws[1..]);
      assert JoinSpaced(ws) == ws[0] + rest;
      FieldsAfterWord(ws[0], rest, IsSpace);
      assert rest[1..] == JoinSpaced(ws[1..]);
      FieldsJoinSpaced(ws[1..]);
      assert ws == [ws[0]] + ws[1..];
    }
  }

  /** Every character of words joined by spaces is a space or a character of
      one of the words. */
  lemma {:induction false} JoinSpacedChars(ws: seq<string>, p: char -> bool)
    requires p(' ')
    requires forall j, i :: 0 <= j < |ws| && 0 <= i < |ws[j]| ==> p(ws[j][i])
    ensures forall i :: 0 <= i < |JoinSpaced(ws)| ==> p(JoinSpaced(ws)[i])
  {
    if |ws| > 1 {
      JoinSpacedChars(ws[1..], p);
      var a := ws[0] + " ";
      var b := JoinSpaced(ws[1..]);
      forall i | 0 <= i < |a + b|
        ensures p((a + b)[i])
      {
        if i < |ws[0]| {
          assert (a + b)[i] == ws[0][i];
        } else if i > |ws[0]| {
          assert (a + b)[i] == b[i - |a|];
        }
      }
    }
  }

  /** Words joined by spaces start with the first word's first character and
      end with the last word's last character. */
  lemma JoinSpacedEnds(ws: seq<string>)
    requires ws != [] && forall j :: 0 <= j < |ws| ==> ws[j] != []
    ensures var s := JoinSpaced(ws);
            s != [] && s[0] == ws[0][0] && s[|s| - 1] == ws[|ws| - 1][|ws[|ws| - 1]| - 1]
  {
    JoinSpacedFirst(ws);
    JoinSpacedLast(ws);
  }

  lemma JoinSpacedFirst(ws: seq<string>)
    requires ws != [] && ws[0] != []
    ensures JoinSpaced(ws) != [] && JoinSpaced(ws)[0] == ws[0][0]
  {
    if |ws| > 1 {
      var a := ws[0] + " ";
      assert JoinSpaced(ws) == a + JoinSpaced(ws[1..]);
      assert a[0] == ws[0][0];
    }
  }

  lemma {:induction false} JoinSpacedLast(ws: seq<string>)
    requires ws != [] && ws[|ws| - 1] != []
    ensures var s := JoinSpaced(ws);
            s != [] && s[|s| - 1] == ws[|ws| - 1][|ws[|ws| - 1]| - 1]
  {
    if |ws| > 1 {
      var rest := ws[1..];
      assert rest[|rest| - 1] == ws[|ws| - 1];
      JoinSpacedLast(rest);
      var b := JoinSpaced(rest);
      var a := ws[0] + " ";
      assert JoinSpaced(ws) == a + b;
      assert (a + b)[|a + b| - 1] == b[|b| - 1];
    }
  }

  predicate StartsWith(s: string, p: string) {
    |p| <= |s| && s[..|p|] == p
  }

  predicate EndsWith(s: string, p: string) {
    |p| <= |s| && s[|s| - |p|..] == p
  }

  /** Python slicing `s[lo:hi]` with non-negative bounds: out-of-range bounds
      are clamped and a slice whose start is not before its end is empty. */
  function Slice(s: string, lo: nat, hi: nat): (r: string)
    ensures lo <= hi <= |s| ==> r == s[lo..hi]
    ensures hi <= lo ==> r == []
  {
    var h := if hi <= |s| then hi else |s|;
    if lo < h then s[lo..h] else []
  }

  /** `s.split(';;')[0]`: the part of `s` before the first `;;`. */
  function BeforeComment(s: string): (r: string)
    ensures |r| <= |s| && r == s[..|r|]
    ensures forall i :: 0 <= i && i + 1 < |r| ==> !(r[i] == ';' && r[i + 1] == ';')
    ensures |r| < |s| ==> |r| + 1 < |s| && s[|r|] == ';' && s[|r| + 1] == ';'
    decreases |s|
  {
    if |s| < 2 then s
    else if s[0] == ';' && s[1] == ';' then []
    else [s[0]] + BeforeComment(s[1..])
  }

  /** Python's string order `a <= b`: code points compared left to right, a
      proper prefix coming first. */
  predicate StrLe(a: string, b: string)
    decreases |a|
  {
    if a == [] then true
    else if b == [] then false
    else if a[0] != b[0] then a[0] < b[0]
    else StrLe(a[1..], b[1..])
  }

  lemma {:induction false} StrLeTotal(a: string, b: string)
    ensures StrLe(a, b) || StrLe(b, a)
    decreases |a|
  {
    if a != [] && b != [] && a[0] == b[0] {
      StrLeTotal(a[1..], b[1..]);
    }
  }

  lemma {:induction false} StrLeTransitive(a: string, b: string, c: string)
    requires StrLe(a, b) && StrLe(b, c)
    ensures StrLe(a, c)
    decreases |a|
  {
    if a != [] && b != [] && c != [] && a[0] == b[0] == c[0] {
      StrLeTransitive(a[1..], b[1..], c[1..]);
    }
  }

  lemma {:induction false} StrLeAntisymmetric(a: string, b: string)
    requires StrLe(a, b) && StrLe(b, a)
    ensures a == b
    decreases |a|
  {
    if a != [] && b != [] {
      StrLeAntisymmetric(a[1..], b[1..]);
      assert a == [a[0]] + a[1..] && b == [b[0]] + b[1..];
    }
  }

  /** Position just after the first newline of `t`, or `|t|` when there is
      none. */
  function LineEnd(t: string): (k: nat)
    ensures 0 < k <= |t| || (t == [] && k == 0)
    ensures forall i :: 0 <= i < k - 1 ==> t[i] != '\n'
    ensures k < |t| ==> t[k - 1] == '\n'
    decreases |t|
  {
    if t == [] then 0
    else if t[0] == '\n' then 1
    else 1 + LineEnd(t[1..])
  }

  /** Iterating over a text file: each line keeps its terminating newline, and
      the last line may lack one. */
  function Lines(t: string): (r: seq<string>)
    ensures forall j :: 0 <= j < |r| ==> r[j] != []
    decreases |t|
  {
    if t == [] then [] else
      var k := LineEnd(t);
      [t[..k]] + Lines(t[k..])
  }

  /** A string made of one newline-terminated line per element. */
  function Unlines(ls: seq<string>): string {
    if ls == [] then [] else ls[0] + Unlines(ls[1..])
  }

  predicate IsLine(l: string) {
    l != [] && l[|l| - 1] == '\n' && '\n' !in l[..|l| - 1]
  }

  /** Splitting a file written line by line gives back those lines. */
  lemma {:induction false} LinesUnlines(ls: seq<string>)
    requires forall j :: 0 <= j < |ls| ==> IsLine(ls[j])
    ensures Lines(Unlines(ls)) == ls
  {
    if ls != [] {
      var t := Unlines(ls);
      var l := ls[0];
      assert t == l + Unlines(ls[1..]);
      assert IsLine(l);
      LineEndOfLine(l, Unlines(ls[1..]));
      assert t[..|l|] == l;
      assert t[|l|..] == Unlines(ls[1..]);
      LinesUnlines(ls[1..]);
    }
  }

  lemma {:induction false} LineEndOfLine(l: string, rest: string)
    requires IsLine(l)
    ensures LineEnd(l + rest) == |l|
    decreases |l|
  {
    if l[0] != '\n' {
      assert l[0] in l[..|l| - 1];
      assert (l + rest)[1..] == l[1..] + rest;
      assert l[1..][..|l[1..]| - 1] == l[..|l| - 1][1..];
      LineEndOfLine(l[1..], rest);
    }
  }

  /** A character absent from every line is absent from the text they make. */
  lemma {:induction false} UnlinesWithout(ls: seq<string>, c: char)
    requires forall j :: 0 <= j < |ls| ==> c !in ls[j]
    ensures c !in Unlines(ls)
  {
    if ls != [] {
      UnlinesWithout(ls[1..], c);
      assert Unlines(ls) == ls[0] + Unlines(ls[1..]);
    }
  }

  /** Universal-newline translation of a file opened in text mode: `"\r\n"`
      and a lone `'\r'` both become `'\n'`. */
  function Translate(t: string): (r: string)
    ensures '\r' !in r
    ensures |r| <= |t|
    decreases |t|
  {
    if t == [] then []
    else if t[0] == '\r' then
      "\n" + Translate(if |t| > 1 && t[1] == '\n' then t[2..] else t[1..])
    else [t[0]] + Translate(t[1..])
  }

  /** Text without carriage returns is unchanged by the translation. */
  lemma {:induction false} TranslateUnchanged(t: string)
    requires '\r' !in t
    ensures Translate(t) == t
    decreases |t|
  {
    if t != [] {
      assert t[0] != '\r';
      assert '\r' !in t[1..] by {
        forall i | 0 <= i < |t[1..]| ensures t[1..][i] != '\r' {
          assert t[1..][i] == t[i + 1];
        }
      }
      TranslateUnchanged(t[1..]);
      assert [t[0]] + t[1..] == t;
    }
  }
}

=== FILE: tokens.dfy ===
/** `transcript_to_token` and `token_to_transcript` of
    `pydrobert/torch/data.py`: the conversion between transcripts and the
    `(R, 3)` token tensors of a data set, whose rows are
    `[id, start frame, end frame]` with `-1` for an unknown time. */
module Tokens {

  import opened Results
  import opened Transcripts
  import opened RealMath

  /** A token tensor: one row per token. */
  type Rows = seq<seq<int>>

  /** `if frame_shift_ms:` — given and non-zero. */
  predicate Shifts(fs: Option<real>) {
    fs.Some? && fs.value != 0.0
  }

  /** `token2id.get(token, token)` (or the token itself without a table),
      which must then be a non-negative integer: comparing a string with `0`
      is a `TypeError`, a negative id a `ValueError`. */
  function IdOf(sym: Sym, token2id: Option<map<Sym, int>>): (r: Result<int>)
    ensures r.Ok? ==> r.value >= 0
    ensures token2id.Some? && sym in token2id.value ==>
              r == (if token2id.value[sym] < 0 then Err(ValueError) else Ok(token2id.value[sym]))
    ensures (token2id.None? || sym !in token2id.value) ==>
              r == (match sym
                    case Str(_) => Err(TypeError)
                    case Id(n) => if n < 0 then Err(ValueError) else Ok(n))
  {
    var id := if token2id.Some? && sym in token2id.value then Id(token2id.value[sym]) else sym;
    match id
    case Str(_) => Err(TypeError)
    case Id(n) => if n < 0 then Err(ValueError) else Ok(n)
  }

  /** A time as a frame index: seconds to frames when a frame shift is given,
      then truncated. */
  function ToFrame(t: real, fs: Option<real>): int {
    if Shifts(fs) then Trunc((1000.0 * t) / fs.value) else Trunc(t)
  }

  /** One row of the tensor. A bare token has unknown times; an alteration is
      not a token, so looking it up (or comparing it with `0`) is a
      `TypeError`. */
  function ElementRow(e: Element, token2id: Option<map<Sym, int>>, fs: Option<real>): (r: Result<seq<int>>)
    ensures r.Ok? ==> |r.value| == 3 && r.value[0] >= 0
    ensures r.Ok? <==> !e.Alt? && IdOf(e.sym, token2id).Ok?
    ensures r.Ok? ==> r.value[0] == IdOf(e.sym, token2id).value
    ensures e.Token? && r.Ok? ==> r.value[1] == -1 && r.value[2] == -1
    ensures e.Timed? && r.Ok? ==> r.value[1] == ToFrame(e.start, fs) && r.value[2] == ToFrame(e.end, fs)
  {
    match e
    case Token(sym) =>
      var id :- IdOf(sym, token2id);
      Ok([id, -1, -1])
    case Timed(sym, start, end) =>
      var id :- IdOf(sym, token2id);
      Ok([id, ToFrame(start, fs), ToFrame(end, fs)])
    case Alt(_) => Err(TypeError)
  }

  /** `transcript_to_token`. */
  function TranscriptToToken(t: seq<Element>, token2id: Option<map<Sym, int>>, fs: Option<real>): (r: Result<Rows>)
    ensures r.Ok? <==> forall i :: 0 <= i < |t| ==> ElementRow(t[i], token2id, fs).Ok?
    ensures r.Ok? ==> |r.value| == |t|
    ensures r.Ok? ==> forall i :: 0 <= i < |t| ==> r.value[i] == ElementRow(t[i], token2id, fs).value
  {
    if t == [] then Ok([])
    else
      var row :- ElementRow(t[0], token2id, fs);
      var rest :- TranscriptToToken(t[1..], token2id, fs);
      Ok([row] + rest)
  }

  /** `id2token.get(id, id)`, or the id itself without a table. */
  function SymOf(id: int, id2token: Option<map<int, Sym>>): Sym {
    if id2token.Some? && id in id2token.value then id2token.value[id] else Id(id)
  }

  /** One row back as a transcript element: a row that is not a triple cannot
      be unpacked and a negative id is refused (both `ValueError`); a `-1` in
      either time gives a bare token, otherwise frames become seconds when a
      frame shift is given. */
  function RowElement(row: seq<int>, id2token: Option<map<int, Sym>>, fs: Option<real>): (r: Result<Element>)
    ensures r.Ok? <==> |row| == 3 && row[0] >= 0
    ensures r.Ok? ==> !r.value.Alt? && r.value.sym == SymOf(row[0], id2token)
    ensures r.Ok? ==> (r.value.Token? <==> row[1] == -1 || row[2] == -1)
    ensures r.Ok? && r.value.Timed? ==>
              && r.value.start == (if Shifts(fs) then ToSeconds(row[1], fs.value) else row[1] as real)
              && r.value.end == (if Shifts(fs) then ToSeconds(row[2], fs.value) else row[2] as real)
  {
    if |row| != 3 then Err(ValueError)
    else
      var id, start, end := row[0], row[1], row[2];
      if id < 0 then Err(ValueError)
      else
        var token := SymOf(id, id2token);
        if start == -1 || end == -1 then Ok(Token(token))
        else if Shifts(fs) then
          Ok(Timed(token, ToSeconds(start, fs.value), ToSeconds(end, fs.value)))
        else Ok(Timed(token, start as real, end as real))
  }

  /** A frame index as seconds, given the frame shift in milliseconds. */
  function ToSeconds(f: int, shift: real): real {
    (f as real * shift) / 1000.0
  }

  /** `token_to_transcript`. */
  function TokenToTranscript(tok: Rows, id2token: Option<map<int, Sym>>, fs: Option<real>): (r: Result<seq<Element>>)
    ensures r.Ok? <==> forall i :: 0 <= i < |tok| ==> RowElement(tok[i], id2token, fs).Ok?
    ensures r.Ok? ==> |r.value| == |tok|
    ensures r.Ok? ==> forall i :: 0 <= i < |tok| ==> r.value[i] == RowElement(tok[i], id2token, fs).value
  {
    if tok == [] then Ok([])
    else
      var e :- RowElement(tok[0], id2token, fs);
      var rest :- TokenToTranscript(tok[1..], id2token, fs);
      Ok([e] + rest)
  }

  // ----------------------------------------------------------------------
  // Properties

  /** The two tables undo each other on `sym`. */
  predicate Inverse(sym: Sym, token2id: Option<map<Sym, int>>, id2token: Option<map<int, Sym>>) {
    IdOf(sym, token2id).Ok? && SymOf(IdOf(sym, token2id).value, id2token) == sym
  }

  /** An element that survives a round trip without a frame shift: a token or
      a triple with whole-number times, neither of them `-1`. */
  predicate Convertible(e: Element, token2id: Option<map<Sym, int>>, id2token: Option<map<int, Sym>>) {
    match e
    case Token(sym) => Inverse(sym, token2id, id2token)
    case Timed(sym, start, end) =>
      Inverse(sym, token2id, id2token) && IsWhole(start) && IsWhole(end) && start != -1.0 && end != -1.0
    case Alt(_) => false
  }

  lemma ElementRoundTrip(e: Element, token2id: Option<map<Sym, int>>, id2token: Option<map<int, Sym>>)
    requires Convertible(e, token2id, id2token)
    ensures ElementRow(e, token2id, None).Ok?
    ensures RowElement(ElementRow(e, token2id, None).value, id2token, None) == Ok(e)
  {
    if e.Timed? {
      TruncWhole(e.start);
      TruncWhole(e.end);
    }
  }

  /** `token_to_transcript(transcript_to_token(t))` is `t` for transcripts
      of known tokens with whole-frame times (or no times), given tables that
      undo each other and no frame shift. */
  lemma TranscriptRoundTrip(t: seq<Element>, token2id: Option<map<Sym, int>>, id2token: Option<map<int, Sym>>)
    requires forall i :: 0 <= i < |t| ==> Convertible(t[i], token2id, id2token)
    ensures TranscriptToToken(t, token2id, None).Ok?
    ensures TokenToTranscript(TranscriptToToken(t, token2id, None).value, id2token, None) == Ok(t)
  {
    forall i | 0 <= i < |t|
      ensures ElementRow(t[i], token2id, None).Ok?
    {
      ElementRoundTrip(t[i], token2id, id2token);
    }
    var rows := TranscriptToToken(t, token2id, None).value;
    forall i | 0 <= i < |rows|
      ensures RowElement(rows[i], id2token, None) == Ok(t[i])
    {
      ElementRoundTrip(t[i], token2id, id2token);
    }
    var back := TokenToTranscript(rows, id2token, None);
    assert back.Ok?;
    assert back.value == t;
  }

  /** A row that survives a round trip: a triple whose id is non-negative and
      maps back to itself, with both times known or both unknown. */
  predicate RowConvertible(row: seq<int>, token2id: Option<map<Sym, int>>, id2token: Option<map<int, Sym>>) {
    && |row| == 3 && row[0] >= 0
    && IdOf(SymOf(row[0], id2token), token2id) == Ok(row[0])
    && (row[1] == -1 <==> row[2] == -1)
  }

  /** Frames converted to seconds convert back to the same frames. */
  lemma FramesBack(f: int, fs: Option<real>)
    requires Shifts(fs)
    ensures ToFrame(ToSeconds(f, fs.value), fs) == f
  {
    var shift := fs.value;
    var p := f as real * shift;
    assert ToSeconds(f, shift) == p / 1000.0;
    assert 1000.0 * (p / 1000.0) == p;
    assert p / shift == f as real;
    assert ToFrame(ToSeconds(f, shift), fs) == Trunc((1000.0 * (p / 1000.0)) / shift);
    TruncWhole(f as real);
  }

  lemma RowRoundTrip(row: seq<int>, token2id: Option<map<Sym, int>>, id2token: Option<map<int, Sym>>, fs: Option<real>)
    requires RowConvertible(row, token2id, id2token)
    ensures RowElement(row, id2token, fs).Ok?
    ensures ElementRow(RowElement(row, id2token, fs).value, token2id, fs) == Ok(row)
  {
    assert row == [row[0], row[1], row[2]];
    var sym := SymOf(row[0], id2token);
    if row[1] == -1 {
      assert RowElement(row, id2token, fs) == Ok(Token(sym));
    } else if Shifts(fs) {
      FramesBack(row[1], fs);
      FramesBack(row[2], fs);
      var e := Timed(sym, ToSeconds(row[1], fs.value), ToSeconds(row[2], fs.value));
      assert RowElement(row, id2token, fs) == Ok(e);
      assert ElementRow(e, token2id, fs) == Ok([row[0], ToFrame(e.start, fs), ToFrame(e.end, fs)]);
    } else {
      TruncWhole(row[1] as real);
      TruncWhole(row[2] as real);
      var e := Timed(sym, row[1] as real, row[2] as real);
      assert RowElement(row, id2token, fs) == Ok(e);
      assert ElementRow(e, token2id, fs) == Ok([row[0], ToFrame(e.start, fs), ToFrame(e.end, fs)]);
    }
  }

  /** `transcript_to_token(token_to_transcript(tok))` is `tok` for rows whose
      ids map back to themselves and whose times are both known or both
      unknown, with the same frame shift (or none) both ways. */
  lemma TokenRoundTrip(tok: Rows, token2id: Option<map<Sym, int>>, id2token: Option<map<int, Sym>>, fs: Option<real>)
    requires forall i :: 0 <= i < |tok| ==> RowConvertible(tok[i], token2id, id2token)
    ensures TokenToTranscript(tok, id2token, fs).Ok?
    ensures TranscriptToToken(TokenToTranscript(tok, id2token, fs).value, token2id, fs) == Ok(tok)
  {
    forall i | 0 <= i < |tok|
      ensures RowElement(tok[i], id2token, fs).Ok?
    {
      RowRoundTrip(tok[i], token2id, id2token, fs);
    }
    var t := TokenToTranscript(tok, id2token, fs).value;
    forall i | 0 <= i < |t|
      ensures ElementRow(t[i], token2id, fs) == Ok(tok[i])
    {
      RowRoundTrip(tok[i], token2id, id2token, fs);
    }
    var back := TranscriptToToken(t, token2id, fs);
    assert back.Ok?;
    assert back.value == tok;
  }

  /** With a positive frame shift, a token starting at a non-negative time is
      placed in the frame that contains that time. */
  lemma FrameContainsTime(t: real, shift: real)
    requires shift > 0.0 && t >= 0.0
    ensures var f := ToFrame(t, Some(shift));
            f >= 0 && (f as real * shift) / 1000.0 <= t < ((f + 1) as real * shift) / 1000.0
  {
    var x := (1000.0 * t) / shift;
    var f := Trunc(x);
    assert x * shift == 1000.0 * t;
    assert f as real <= x < f as real + 1.0;
    MulLe(f as real, x, shift);
    MulLt(x, f as real + 1.0, shift);
    assert (f + 1) as real == f as real + 1.0;
    assert 1000.0 * t < (f + 1) as real * shift;
    assert f as real * shift <= 1000.0 * t;
  }

  lemma MulLe(a: real, b: real, c: real)
    requires a <= b && c > 0.0
    ensures a * c <= b * c
  {
  }

  lemma MulLt(a: real, b: real, c: real)
    requires a < b && c > 0.0
    ensures a * c < b * c
  {
  }
}

=== FILE: transcripts.dfy ===
/** The transcript values passed between the readers, writers and token
    converters of `pydrobert/torch/data.py`.

    A transcript is a Python list whose elements are tokens, `(token, start,
    end)` triples, or the `(alternates, -1, -1)` triples that the "trn" reader
    produces for `{ a / b }` alterations. */
module Transcripts {

  /** A token as the Python code sees it: a string, or an integer id. */
  datatype Sym = Str(s: string) | Id(n: int)

  /** An entry of one branch of an alteration: a word, or a nested alteration
      (a bare list of branches, with no times attached). */
  datatype Item = Leaf(word: string) | Fork(branches: seq<Branch>)

  /** One branch of an alteration: a list of entries. */
  datatype Branch = Branch(items: seq<Item>)

  /** An element of a transcript. `Alt(bs)` is the triple `(bs, -1, -1)`. */
  datatype Element =
    | Token(sym: Sym)
    | Timed(sym: Sym, start: real, end: real)
    | Alt(branches: seq<Branch>)

  /** The `(utt_id, transcript)` pairs read and written by the "trn" and "ctm"
      functions. */
  datatype Utterance = Utterance(id: string, transcript: seq<Element>)
}

=== FILE: trn.dfy ===
/** NIST sclite "trn" transcripts: `read_trn` and `write_trn` of
    `pydrobert/torch/data.py`.

    A "trn" line is a sequence of space-separated words followed by the
    utterance id in parentheses. Words may be grouped into alterations
    `{ w1 / w2 w3 / ... }`, which may nest. The reader is a character-level state
    machine; the model keeps its states and transitions one for one. */
module Trn {

  import opened Results
  import opened Text
  import opened Transcripts

  // ----------------------------------------------------------------------
  // Reading

  /** An alteration being read: the branches closed so far by `/`, and the
      entries of the branch being read. */
  datatype Frame = Frame(done: seq<Branch>, cur: seq<Item>)

  /** The reader's state within one line: the transcript read so far, the word
      being accumulated, and the alterations still open (innermost last). */
  datatype State = State(out: seq<Element>, token: string, open: seq<Frame>)

  const Start := State([], [], [])

  function Top(open: seq<Frame>): Frame
    requires open != []
  {
    open[|open| - 1]
  }

  function WithTop(open: seq<Frame>, f: Frame): seq<Frame>
    requires open != []
  {
    open[..|open| - 1] + [f]
  }

  /** Ends the word being read, if any: at top level it joins the transcript,
      inside an alteration it joins the current branch. */
  function Flush(st: State): State {
    if st.token == [] then st
    else if st.open == [] then State(st.out + [Token(Str(st.token))], [], [])
    else
      var top := Top(st.open);
      State(st.out, [], WithTop(st.open, Frame(top.done, top.cur + [Leaf(st.token)])))
  }

  /** The closed alteration `bs` joins the transcript (as `(bs, -1, -1)`) when no
      alteration remains open, and the enclosing branch otherwise. */
  function Close(out: seq<Element>, rest: seq<Frame>, bs: seq<Branch>): State {
    if rest == [] then State(out + [Alt(bs)], [], [])
    else
      var parent := Top(rest);
      State(out, [], WithTop(rest, Frame(parent.done, parent.cur + [Fork(bs)])))
  }

  /** One character of the line. Outside every alteration, `/` and `}` are
      ordinary characters. */
  function Step(st: State, c: char): Result<State> {
    if c == '{' then
      var s := Flush(st);
      Ok(State(s.out, [], s.open + [Frame([], [])]))
    else if c == '/' && st.open != [] then
      var s := Flush(st);
      var top := Top(s.open);
      Ok(State(s.out, [], WithTop(s.open, Frame(top.done + [Branch(top.cur)], []))))
    else if c == '}' && st.open != [] then
      var s := Flush(st);
      var top := Top(s.open);
      if top.cur == [] then Err(IOError)
      else Ok(Close(s.out, s.open[..|s.open| - 1], top.done + [Branch(top.cur)]))
    else if c == ' ' then Ok(Flush(st))
    else Ok(State(st.out, st.token + [c], st.open))
  }

  function Scan(s: string, st: State): Result<State>
    decreases |s|
  {
    if s == [] then Ok(st)
    else
      var st' :- Step(st, s[0]);
      Scan(s[1..], st')
  }

  /** End of line: a pending top-level word is kept; an alteration left open
      is dropped together with everything read inside it. */
  function Finish(st: State): seq<Element> {
    if st.token != [] && st.open == [] then st.out + [Token(Str(st.token))] else st.out
  }

  /** The transcript part of a line (everything before the utterance id). */
  function ParseBody(s: string): Result<seq<Element>> {
    var st :- Scan(s, Start);
    Ok(Finish(st))
  }

  /** `s[i]` is the last occurrence of `c` in `s`. */
  predicate IsLastAt(s: string, c: char, i: int) {
    0 <= i < |s| && s[i] == c && c !in s[i + 1..]
  }

  /** One line of a "trn" file: `None` for a blank line, otherwise the
      utterance id between the last `(` and the last `)` and the transcript
      before that `(`. */
  function ReadLine(line: string): (r: Result<Option<Utterance>>)
    ensures |Strip(line)| == 0 <==> r.Ok? && r.value.None?
  {
    var l := Strip(line);
    if l == [] then Ok(None) else ReadNonBlank(l)
  }

  function ReadNonBlank(l: string): (r: Result<Option<Utterance>>)
    ensures r.Ok? ==> r.value.Some?
  {
    var lo := LastIndex(l, '(');
    var lc := LastIndex(l, ')');
    if lo.None? || lc.None? || lo.value > lc.value then Err(IOError)
    else
      var o, c := lo.value, lc.value;
      assert l[o] == '(' && l[c] == ')';
      ReadUtterance(l, o, c)
  }

  /** The utterance of a line whose last `(` is at `o` and last `)` at `c`:
      the id strictly between them, and the transcript read from the text
      before the `(`. */
  function ReadUtterance(l: string, o: nat, c: nat): (r: Result<Option<Utterance>>)
    requires o < c < |l|
    ensures r.Ok? <==> ParseBody(Strip(l[..o])).Ok?
    ensures r.Ok? ==> r.value.Some? && r.value.value.id == l[o + 1..c]
                      && r.value.value.transcript == ParseBody(Strip(l[..o])).value
  {
    var transcript :- ParseBody(Strip(l[..o]));
    Ok(Some(Utterance(l[o + 1..c], transcript)))
  }

  lemma LastIndexIs(s: string, c: char, i: int)
    requires IsLastAt(s, c, i)
    ensures LastIndex(s, c) == Some(i)
  {
    var r := LastIndex(s, c);
    assert s[i] in s;
    NotAfter(s, c, r.value);
    NotAfter(s, c, i);
  }

  lemma NotAfter(s: string, c: char, j: nat)
    requires j < |s| && c !in s[j + 1..]
    ensures forall k :: j < k < |s| ==> s[k] != c
  {
    forall k | j < k < |s|
      ensures s[k] != c
    {
      assert s[k] == s[j + 1..][k - j - 1];
    }
  }

  /** A non-blank line lacking `(` or `)` is not a "trn" line. */
  lemma ReadLineMissingId(line: string)
    requires Strip(line) != []
    requires '(' !in Strip(line) || ')' !in Strip(line)
    ensures ReadLine(line) == Err(IOError)
  {
  }

  /** A line whose last `(` follows its last `)` is rejected; otherwise the
      line is read at those two positions. */
  lemma ReadLineUttId(line: string, o: int, c: int)
    requires IsLastAt(Strip(line), '(', o) && IsLastAt(Strip(line), ')', c)
    ensures o > c ==> ReadLine(line) == Err(IOError)
    ensures o < c ==> ReadLine(line) == ReadUtterance(Strip(line), o, c)
  {
    var l := Strip(line);
    assert ReadLine(line) == ReadNonBlank(l);
    LastIndexIs(l, '(', o);
    LastIndexIs(l, ')', c);
  }

  /** Every line read in turn by `read`: the utterances of the non-blank
      lines, or the first error. */
  function ReadEach(ls: seq<string>, read: string -> Result<Option<Utterance>>): Result<seq<Utterance>> {
    if ls == [] then Ok([])
    else
      var u :- read(ls[0]);
      var rest :- ReadEach(ls[1..], read);
      Ok(if u.Some? then [u.value] + rest else rest)
  }

  function ReadLines(ls: seq<string>): Result<seq<Utterance>> {
    ReadEach(ls, ReadLine)
  }

  /** `read_trn` on the text of a file. */
  function ReadTrn(text: string): Result<seq<Utterance>> {
    ReadLines(Lines(text))
  }

  // ----------------------------------------------------------------------
  // Writing

  function EncItem(it: Item): string
    decreases it, 1
  {
    match it
    case Leaf(w) => w + " "
    case Fork(bs) => EncAlternates(bs)
  }

  function EncItems(its: seq<Item>): string
    decreases its
  {
    if its == [] then [] else EncItem(its[0]) + EncItems(its[1..])
  }

  /** `'/ '.join(...)` of the encoded branches. */
  function JoinBranches(bs: seq<Branch>): string
    decreases bs, 0
  {
    if bs == [] then []
    else if |bs| == 1 then EncItems(bs[0].items)
    else EncItems(bs[0].items) + "/ " + JoinBranches(bs[1..])
  }

  function EncAlternates(bs: seq<Branch>): string
    decreases bs, 1
  {
    "{ " + JoinBranches(bs) + "} "
  }

  /** One transcript element as written, with its times dropped. An integer
      token is not a string and cannot be iterated either: `TypeError`. */
  function EncElement(e: Element): Result<string> {
    match e
    case Token(Str(w)) => Ok(w + " ")
    case Timed(Str(w), _, _) => Ok(w + " ")
    case Alt(bs) => Ok(EncAlternates(bs))
    case _ => Err(TypeError)
  }

  function EncTranscript(t: seq<Element>): Result<string> {
    if t == [] then Ok([])
    else
      var x :- EncElement(t[0]);
      var rest :- EncTranscript(t[1..]);
      Ok(x + rest)
  }

  function WriteLine(u: Utterance): Result<string> {
    var body :- EncTranscript(u.transcript);
    Ok(body + "(" + u.id + ")\n")
  }

  /** `write_trn`: the text of the file written. */
  function WriteTrn(us: seq<Utterance>): Result<string> {
    if us == [] then Ok([])
    else
      var l :- WriteLine(us[0]);
      var rest :- WriteTrn(us[1..]);
      Ok(l + rest)
  }
}

=== FILE: trn_props.dfy ===
/** Properties of the "trn" reader and writer: the reader's word splitting and
    error cases, and the round trip `read_trn(write_trn(us)) == us`. */
module TrnProps {

  import opened Results
  import opened Text
  import opened Transcripts
  import opened Trn

  // ----------------------------------------------------------------------
  // The round-trip domain

  /** Characters with a meaning of their own in a "trn" line. */
  predicate Special(c: char) {
    c == '{' || c == '}' || c == '/' || c == '(' || c == ')'
  }

  /** A word that is read back as itself: non-empty, without whitespace (the
      reader splits at spaces and strips lines) and without `{ } / ( )`. */
  predicate WfWord(w: string) {
    w != [] && forall i :: 0 <= i < |w| ==> !IsSpace(w[i]) && !Special(w[i])
  }

  predicate WfItem(it: Item)
    decreases it, 1
  {
    match it
    case Leaf(w) => WfWord(w)
    case Fork(bs) => WfBranches(bs)
  }

  predicate WfItems(its: seq<Item>)
    decreases its
  {
    forall i :: 0 <= i < |its| ==> WfItem(its[i])
  }

  /** An alteration the reader accepts: at least one branch, and a non-empty
      last branch (earlier branches may be empty). */
  predicate WfBranches(bs: seq<Branch>)
    decreases bs, 0
  {
    && bs != []
    && bs[|bs| - 1].items != []
    && forall j :: 0 <= j < |bs| ==> WfItems(bs[j].items)
  }

  /** Elements the reader can produce: words and top-level alterations. */
  predicate WfElement(e: Element) {
    match e
    case Token(Str(w)) => WfWord(w)
    case Alt(bs) => WfBranches(bs)
    case _ => false
  }

  predicate WfUtterance(u: Utterance) {
    && '(' !in u.id && ')' !in u.id && '\n' !in u.id && '\r' !in u.id
    && forall i :: 0 <= i < |u.transcript| ==> WfElement(u.transcript[i])
  }

  // ----------------------------------------------------------------------
  // Scanning concatenations

  lemma {:induction false} ScanConcat(a: string, b: string, st: State)
    ensures Scan(a + b, st) == (match Scan(a, st)
                                case Ok(st1) => Scan(b, st1)
                                case Err(e) => Err(e))
    decreases |a|
  {
    if a == [] {
      assert a + b == b;
    } else {
      assert (a + b)[0] == a[0];
      assert (a + b)[1..] == a[1..] + b;
      var r := Step(st, a[0]);
      if r.Ok? {
        ScanConcat(a[1..], b, r.value);
      }
    }
  }

  lemma {:induction false} ScanWord(w: string, st: State)
    requires forall i :: 0 <= i < |w| ==> !IsSpace(w[i]) && !Special(w[i])
    ensures Scan(w, st) == Ok(State(st.out, st.token + w, st.open))
    decreases |w|
  {
    if w == [] {
      assert st.token + w == st.token;
    } else {
      assert IsSpace(' ');
      var st' := State(st.out, st.token + [w[0]], st.open);
      assert Step(st, w[0]) == Ok(st');
      ScanWord(w[1..], st');
      assert st.token + [w[0]] + w[1..] == st.token + w;
    }
  }

  lemma ScanLeaf(w: string, st: State)
    requires WfWord(w) && st.token == []
    ensures Scan(w + " ", st) == Ok(Flush(State(st.out, w, st.open)))
  {
    ScanConcat(w, " ", st);
    ScanWord(w, st);
    assert st.token + w == w;
    var st1 := State(st.out, w, st.open);
    assert Scan(" ", st1) == Ok(Flush(st1));
  }

  lemma WithTopTwice(open: seq<Frame>, f: Frame, g: Frame)
    requires open != []
    ensures WithTop(open, f) != [] && Top(WithTop(open, f)) == f
    ensures WithTop(WithTop(open, f), g) == WithTop(open, g)
  {
    assert WithTop(open, f)[..|open| - 1] == open[..|open| - 1];
  }

  lemma WithTopSame(open: seq<Frame>)
    requires open != []
    ensures WithTop(open, Top(open)) == open
  {
  }

  /** An encoded entry is read back into the current branch. */
  lemma {:induction false} ScanItem(it: Item, st: State)
    requires WfItem(it) && st.token == [] && st.open != []
    ensures Scan(EncItem(it), st)
         == Ok(State(st.out, [], WithTop(st.open, Frame(Top(st.open).done, Top(st.open).cur + [it]))))
    decreases it, 3
  {
    match it
    case Leaf(w) =>
      ScanLeaf(w, st);
    case Fork(bs) =>
      ScanAlternates(bs, st);
  }

  lemma {:induction false} ScanItems(its: seq<Item>, st: State)
    requires WfItems(its) && st.token == [] && st.open != []
    ensures Scan(EncItems(its), st)
         == Ok(State(st.out, [], WithTop(st.open, Frame(Top(st.open).done, Top(st.open).cur + its))))
    decreases its
  {
    var top := Top(st.open);
    if its == [] {
      assert top.cur + its == top.cur;
      WithTopSame(st.open);
    } else {
      ScanConcat(EncItem(its[0]), EncItems(its[1..]), st);
      ScanItem(its[0], st);
      var f1 := Frame(top.done, top.cur + [its[0]]);
      var st1 := State(st.out, [], WithTop(st.open, f1));
      WithTopTwice(st.open, f1, Frame(top.done, top.cur + its));
      ScanItems(its[1..], st1);
      assert top.cur + [its[0]] + its[1..] == top.cur + its;
    }
  }

  /** The branches joined by `/ ` are read back into the innermost frame. */
  lemma {:induction false} ScanJoin(bs: seq<Branch>, st: State, d: seq<Branch>)
    requires bs != [] && forall j :: 0 <= j < |bs| ==> WfItems(bs[j].items)
    requires st.token == [] && st.open != [] && Top(st.open) == Frame(d, [])
    ensures Scan(JoinBranches(bs), st)
         == Ok(State(st.out, [], WithTop(st.open, Frame(d + bs[..|bs| - 1], bs[|bs| - 1].items))))
    decreases bs, 1
  {
    var e := EncItems(bs[0].items);
    ScanItems(bs[0].items, st);
    assert [] + bs[0].items == bs[0].items;
    if |bs| == 1 {
      assert bs[..0] == [] && d + [] == d;
    } else {
      var j := JoinBranches(bs[1..]);
      assert JoinBranches(bs) == e + "/ " + j;
      ScanConcat(e + "/ ", j, st);
      ScanConcat(e, "/ ", st);
      ScanSlash(st.out, st.open, d, bs[0]);
      var st2 := State(st.out, [], WithTop(st.open, Frame(d + [bs[0]], [])));
      ScanJoin(bs[1..], st2, d + [bs[0]]);
      WithTopTwice(st.open, Frame(d + [bs[0]], []),
                   Frame(d + [bs[0]] + bs[1..][..|bs| - 2], bs[|bs| - 1].items));
      JoinedPrefix(d, bs);
    }
  }

  /** After a branch's items, `/ ` closes the branch into `done`. */
  lemma ScanSlash(out: seq<Element>, open: seq<Frame>, d: seq<Branch>, b: Branch)
    requires open != []
    ensures Scan("/ ", State(out, [], WithTop(open, Frame(d, b.items))))
         == Ok(State(out, [], WithTop(open, Frame(d + [b], []))))
  {
    var st1 := State(out, [], WithTop(open, Frame(d, b.items)));
    WithTopTwice(open, Frame(d, b.items), Frame(d + [b], []));
    assert Branch(b.items) == b;
    assert Step(st1, '/') == Ok(State(out, [], WithTop(open, Frame(d + [b], []))));
  }

  lemma JoinedPrefix(d: seq<Branch>, bs: seq<Branch>)
    requires |bs| >= 2
    ensures d + [bs[0]] + bs[1..][..|bs| - 2] == d + bs[..|bs| - 1]
  {
    assert [bs[0]] + bs[1..][..|bs| - 2] == bs[..|bs| - 1];
  }

  /** An encoded alteration is read back whole, and closes into the enclosing
      branch or, at top level, into the transcript. */
  lemma {:induction false} ScanAlternates(bs: seq<Branch>, st: State)
    requires WfBranches(bs) && st.token == []
    ensures Scan(EncAlternates(bs), st) == Ok(Close(st.out, st.open, bs))
    decreases bs, 2
  {
    var j := JoinBranches(bs);
    assert EncAlternates(bs) == "{ " + j + "} ";
    ScanConcat("{ " + j, "} ", st);
    ScanConcat("{ ", j, st);
    var st1 := State(st.out, [], st.open + [Frame([], [])]);
    ScanOpenBrace(st);
    ScanJoin(bs, st1, []);
    assert st1.open[..|st1.open| - 1] == st.open;
    assert [] + bs[..|bs| - 1] == bs[..|bs| - 1];
    ScanCloseBrace(st.out, st.open, bs);
  }

  /** `{ ` opens an empty frame. */
  lemma ScanOpenBrace(st: State)
    requires st.token == []
    ensures Scan("{ ", st) == Ok(State(st.out, [], st.open + [Frame([], [])]))
  {
    var st1 := State(st.out, [], st.open + [Frame([], [])]);
    assert Step(st, '{') == Ok(st1);
    assert Step(st1, ' ') == Ok(st1);
  }

  /** `} ` after the last branch closes the alteration. */
  lemma ScanCloseBrace(out: seq<Element>, open: seq<Frame>, bs: seq<Branch>)
    requires bs != [] && bs[|bs| - 1].items != []
    ensures Scan("} ", State(out, [], open + [Frame(bs[..|bs| - 1], bs[|bs| - 1].items)]))
         == Ok(Close(out, open, bs))
  {
    var last := bs[|bs| - 1].items;
    var st2 := State(out, [], open + [Frame(bs[..|bs| - 1], last)]);
    assert bs[..|bs| - 1] + [Branch(last)] == bs;
    assert st2.open[..|st2.open| - 1] == open;
    var c := Close(out, open, bs);
    assert Step(st2, '}') == Ok(c);
    assert Step(c, ' ') == Ok(c);
  }

  lemma ScanElement(e: Element, out: seq<Element>)
    requires WfElement(e)
    ensures EncElement(e).Ok?
    ensures Scan(EncElement(e).value, State(out, [], [])) == Ok(State(out + [e], [], []))
  {
    match e
    case Token(Str(w)) =>
      ScanLeaf(w, State(out, [], []));
    case Alt(bs) =>
      ScanAlternates(bs, State(out, [], []));
  }

  lemma {:induction false} ScanTranscript(t: seq<Element>, out: seq<Element>)
    requires forall i :: 0 <= i < |t| ==> WfElement(t[i])
    ensures EncTranscript(t).Ok?
    ensures Scan(EncTranscript(t).value, State(out, [], [])) == Ok(State(out + t, [], []))
  {
    if t == [] {
      assert out + t == out;
    } else {
      ScanElement(t[0], out);
      ScanTranscript(t[1..], out + [t[0]]);
      ScanConcat(EncElement(t[0]).value, EncTranscript(t[1..]).value, State(out, [], []));
      assert out + [t[0]] + t[1..] == out + t;
    }
  }

  // ----------------------------------------------------------------------
  // The shape of a written line

  /** No character that would end the line, under any newline convention, or
      be taken for the utterance id. */
  predicate Clean(s: string) {
    forall i :: 0 <= i < |s| ==> s[i] != '(' && s[i] != ')' && s[i] != '\n' && s[i] != '\r'
  }

  lemma CleanConcat(a: string, b: string)
    requires Clean(a) && Clean(b)
    ensures Clean(a + b)
  {
    forall i | 0 <= i < |a + b|
      ensures (a + b)[i] != '(' && (a + b)[i] != ')' && (a + b)[i] != '\n' && (a + b)[i] != '\r'
    {
      if i < |a| {
        assert (a + b)[i] == a[i];
      } else {
        assert (a + b)[i] == b[i - |a|];
      }
    }
  }

  lemma {:induction false} CleanItem(it: Item)
    requires WfItem(it)
    ensures Clean(EncItem(it))
    decreases it, 2
  {
    match it
    case Leaf(w) =>
      assert IsSpace('\n') && IsSpace('\r');
      CleanConcat(w, " ");
    case Fork(bs) =>
      CleanJoin(bs);
      CleanConcat("{ ", JoinBranches(bs));
      CleanConcat("{ " + JoinBranches(bs), "} ");
  }

  lemma {:induction false} CleanItems(its: seq<Item>)
    requires WfItems(its)
    ensures Clean(EncItems(its))
    decreases its
  {
    if its != [] {
      CleanItem(its[0]);
      CleanItems(its[1..]);
      CleanConcat(EncItem(its[0]), EncItems(its[1..]));
    }
  }

  lemma {:induction false} CleanJoin(bs: seq<Branch>)
    requires forall j :: 0 <= j < |bs| ==> WfItems(bs[j].items)
    ensures Clean(JoinBranches(bs))
    decreases bs, 1
  {
    if bs != [] {
      CleanItems(bs[0].items);
      if |bs| > 1 {
        CleanJoin(bs[1..]);
        CleanConcat(EncItems(bs[0].items), "/ ");
        CleanConcat(EncItems(bs[0].items) + "/ ", JoinBranches(bs[1..]));
      }
    }
  }

  /** An encoded element is `x + " "` with `x` starting and ending in a
      non-space character. */
  lemma ElementShape(e: Element)
    requires WfElement(e)
    ensures EncElement(e).Ok?
    ensures var s := EncElement(e).value;
            && |s| >= 2 && s[|s| - 1] == ' ' && !IsSpace(s[0]) && !IsSpace(s[|s| - 2])
            && Clean(s)
  {
    match e
    case Token(Str(w)) =>
      assert IsSpace('\n') && IsSpace('\r');
      CleanConcat(w, " ");
    case Alt(bs) =>
      CleanJoin(bs);
      CleanConcat("{ ", JoinBranches(bs));
      CleanConcat("{ " + JoinBranches(bs), "} ");
  }

  lemma {:induction false} TranscriptShape(t: seq<Element>)
    requires forall i :: 0 <= i < |t| ==> WfElement(t[i])
    ensures EncTranscript(t).Ok?
    ensures var s := EncTranscript(t).value;
            && Clean(s)
            && (t == [] <==> s == [])
            && (t != [] ==> |s| >= 2 && s[|s| - 1] == ' ' && !IsSpace(s[0]) && !IsSpace(s[|s| - 2]))
  {
    if t != [] {
      ElementShape(t[0]);
      TranscriptShape(t[1..]);
      var a := EncElement(t[0]).value;
      var b := EncTranscript(t[1..]).value;
      CleanConcat(a, b);
      assert EncTranscript(t).value == a + b;
      assert (a + b)[0] == a[0];
      if b != [] {
        assert (a + b)[|a + b| - 1] == b[|b| - 1];
        assert (a + b)[|a + b| - 2] == b[|b| - 2];
      } else {
        assert a + b == a;
      }
    }
  }

  lemma ScanSpace(st: State)
    ensures Scan(" ", st) == Ok(Flush(st))
  {
    assert IsSpace(' ');
    assert " "[1..] == [];
  }

  /** A word left pending at the end of a line is kept exactly as a closing
      space would keep it. */
  lemma FinishPending(st: State, t: seq<Element>)
    requires Flush(st) == State(t, [], [])
    ensures Finish(st) == t
  {
  }

  /** The reader's view of the text before the `(`: a transcript scanned to
      `State(t, [], [])` once its closing space is included reads as `t`. */
  lemma ParseSpaced(c': string, t: seq<Element>)
    requires Scan(c' + " ", Start) == Ok(State(t, [], []))
    ensures ParseBody(c') == Ok(t)
  {
    ScanConcat(c', " ", Start);
    var r := Scan(c', Start);
    assert r.Ok?;
    ScanSpace(r.value);
    FinishPending(r.value, t);
  }

  lemma ReadWrittenBody(t: seq<Element>)
    requires forall i :: 0 <= i < |t| ==> WfElement(t[i])
    ensures EncTranscript(t).Ok?
    ensures ParseBody(Strip(EncTranscript(t).value)) == Ok(t)
  {
    TranscriptShape(t);
    ScanTranscript(t, []);
    assert [] + t == t;
    var c := EncTranscript(t).value;
    if t == [] {
      EmptyBodyReads(c);
    } else {
      SpacedBodyReads(c, t);
    }
  }

  lemma EmptyBodyReads(c: string)
    requires c == []
    ensures ParseBody(Strip(c)) == Ok([])
  {
    StripUnchanged(c);
    assert Scan(c, Start) == Ok(Start);
  }

  /** A body that scans to `t` and ends in the space closing its last element
      reads as `t` once stripped. */
  lemma SpacedBodyReads(c: string, t: seq<Element>)
    requires Scan(c, Start) == Ok(State(t, [], []))
    requires |c| >= 2 && c[|c| - 1] == ' ' && !IsSpace(c[0]) && !IsSpace(c[|c| - 2])
    ensures ParseBody(Strip(c)) == Ok(t)
  {
    DropClosingSpace(c);
    ParseSpaced(c[..|c| - 1], t);
  }

  lemma DropClosingSpace(c: string)
    requires |c| >= 2 && c[|c| - 1] == ' ' && !IsSpace(c[0]) && !IsSpace(c[|c| - 2])
    ensures c == c[..|c| - 1] + " " && Strip(c) == c[..|c| - 1]
  {
    assert c == c[..|c| - 1] + [' '];
    StripOneTrailing(c[..|c| - 1], ' ');
  }

  /** The text `c + "(" + id + ")"` of a written line, with its last `(` just
      after `c` and its last `)` at its end. */
  lemma WrittenParens(c: string, id: string)
    requires Clean(c) && '(' !in id && ')' !in id
    ensures var x := c + "(" + id + ")";
            && IsLastAt(x, '(', |c|) && IsLastAt(x, ')', |x| - 1)
            && x[|c| + 1..|x| - 1] == id && x[..|c|] == c
  {
    var x := c + "(" + id + ")";
    assert x[|c|] == '(';
    assert x[|c| + 1..] == id + ")";
    assert x[|c| + 1..|x| - 1] == id;
    assert x[..|c|] == c;
  }

  lemma WrittenIsLine(c: string, id: string)
    requires Clean(c) && '\n' !in id && '\r' !in id
    ensures IsLine(c + "(" + id + ")\n")
    ensures '\r' !in c + "(" + id + ")\n"
  {
    var x := c + "(" + id + ")";
    var line := x + "\n";
    assert line == c + "(" + id + ")\n";
    forall i | 0 <= i < |x|
      ensures x[i] != '\n' && x[i] != '\r'
    {
      if i < |c| {
        assert x[i] == c[i];
      } else if i > |c| && i < |x| - 1 {
        assert x[i] == id[i - |c| - 1];
      }
    }
    assert line[..|line| - 1] == x;
    assert line[|line| - 1] == '\n';
  }

  /** A written line is one line of the file, and reads back as the utterance
      it was written from. */
  lemma ReadWrittenLine(u: Utterance)
    requires WfUtterance(u)
    ensures WriteLine(u).Ok?
    ensures IsLine(WriteLine(u).value) && '\r' !in WriteLine(u).value
    ensures ReadLine(WriteLine(u).value) == Ok(Some(u))
  {
    TranscriptShape(u.transcript);
    ReadWrittenBody(u.transcript);
    var c := EncTranscript(u.transcript).value;
    assert WriteLine(u) == Ok(c + "(" + u.id + ")\n");
    ReadFramedLine(c, u);
  }

  /** A clean body `c` that reads as the transcript of `u`, followed by the
      id of `u` in parentheses, is one line that reads as `u`. */
  lemma ReadFramedLine(c: string, u: Utterance)
    requires Clean(c) && (c == [] || !IsSpace(c[0]))
    requires '(' !in u.id && ')' !in u.id && '\n' !in u.id && '\r' !in u.id
    requires ParseBody(Strip(c)) == Ok(u.transcript)
    ensures IsLine(c + "(" + u.id + ")\n") && '\r' !in c + "(" + u.id + ")\n"
    ensures ReadLine(c + "(" + u.id + ")\n") == Ok(Some(u))
  {
    WrittenIsLine(c, u.id);
    WrittenStrip(c, u.id);
    WrittenParens(c, u.id);
    ReadTranscriptLine(c + "(" + u.id + ")\n", c + "(" + u.id + ")", c, u);
  }

  /** A line that strips to `x`, whose last `(` closes `c` and whose last `)`
      ends it, reads as the utterance when `c` reads as its transcript. */
  lemma ReadTranscriptLine(line: string, x: string, c: string, u: Utterance)
    requires Strip(line) == x && IsLastAt(x, '(', |c|) && IsLastAt(x, ')', |x| - 1)
    requires x[|c| + 1..|x| - 1] == u.id && x[..|c|] == c
    requires ParseBody(Strip(c)) == Ok(u.transcript)
    ensures ReadLine(line) == Ok(Some(u))
  {
    ReadLineUttId(line, |c|, |x| - 1);
    ReadUtteranceAt(x, c, u);
  }

  lemma ReadUtteranceAt(x: string, c: string, u: Utterance)
    requires |c| + 1 < |x| && x[..|c|] == c && x[|c| + 1..|x| - 1] == u.id
    requires ParseBody(Strip(c)) == Ok(u.transcript)
    ensures ReadUtterance(x, |c|, |x| - 1) == Ok(Some(u))
  {
  }

  lemma WrittenStrip(c: string, id: string)
    requires c == [] || !IsSpace(c[0])
    ensures Strip(c + "(" + id + ")\n") == c + "(" + id + ")"
  {
    var x := c + "(" + id + ")";
    assert c + "(" + id + ")\n" == x + ['\n'];
    assert IsSpace('\n');
    assert !IsSpace(x[0]) by {
      if c != [] { assert x[0] == c[0]; } else { assert x[0] == '('; }
    }
    StripOneTrailing(x, '\n');
  }

  function WrittenLines(us: seq<Utterance>): (ls: seq<string>)
    requires forall i :: 0 <= i < |us| ==> WfUtterance(us[i])
    ensures |ls| == |us| && forall j :: 0 <= j < |us| ==> WriteLine(us[j]) == Ok(ls[j])
  {
    if us == [] then []
    else
      assert WfUtterance(us[0]);
      TranscriptShape(us[0].transcript);
      [WriteLine(us[0]).value] + WrittenLines(us[1..])
  }

  lemma WrittenLinesRead(us: seq<Utterance>)
    requires forall i :: 0 <= i < |us| ==> WfUtterance(us[i])
    ensures WriteTrn(us) == Ok(Unlines(WrittenLines(us)))
    ensures forall j :: 0 <= j < |WrittenLines(us)| ==> IsLine(WrittenLines(us)[j])
    ensures forall j :: 0 <= j < |WrittenLines(us)| ==> '\r' !in WrittenLines(us)[j]
    ensures ReadLines(WrittenLines(us)) == Ok(us)
  {
    WrittenLinesJoined(us);
    WrittenLinesAreLines(us);
    WrittenLinesNoCr(us);
    WrittenLinesReadBack(us);
  }

  lemma {:induction false} WrittenLinesJoined(us: seq<Utterance>)
    requires forall i :: 0 <= i < |us| ==> WfUtterance(us[i])
    ensures WriteTrn(us) == Ok(Unlines(WrittenLines(us)))
  {
    if us != [] {
      ReadWrittenLine(us[0]);
      WrittenLinesJoined(us[1..]);
      var ls := WrittenLines(us);
      assert ls[0] == WriteLine(us[0]).value;
      assert ls[1..] == WrittenLines(us[1..]);
      assert Unlines(ls) == ls[0] + Unlines(ls[1..]);
    }
  }

  lemma {:induction false} WrittenLinesAreLines(us: seq<Utterance>)
    requires forall i :: 0 <= i < |us| ==> WfUtterance(us[i])
    ensures forall j :: 0 <= j < |WrittenLines(us)| ==> IsLine(WrittenLines(us)[j])
  {
    if us != [] {
      ReadWrittenLine(us[0]);
      WrittenLinesAreLines(us[1..]);
      assert WrittenLines(us)[1..] == WrittenLines(us[1..]);
    }
  }

  lemma WrittenLinesNoCr(us: seq<Utterance>)
    requires forall i :: 0 <= i < |us| ==> WfUtterance(us[i])
    ensures forall j :: 0 <= j < |WrittenLines(us)| ==> '\r' !in WrittenLines(us)[j]
  {
    var ls := WrittenLines(us);
    forall j | 0 <= j < |ls|
      ensures '\r' !in ls[j]
    {
      ReadWrittenLine(us[j]);
    }
  }

  lemma WrittenLinesReadBack(us: seq<Utterance>)
    requires forall i :: 0 <= i < |us| ==> WfUtterance(us[i])
    ensures ReadLines(WrittenLines(us)) == Ok(us)
  {
    var ls := WrittenLines(us);
    forall j | 0 <= j < |us|
      ensures ReadLine(ls[j]) == Ok(Some(us[j]))
    {
      ReadWrittenLine(us[j]);
    }
    ReadEachLine(ls, us, ReadLine);
  }

  /** Lines that each read as one utterance read as those utterances. */
  lemma {:induction false} ReadEachLine(ls: seq<string>, us: seq<Utterance>, read: string -> Result<Option<Utterance>>)
    requires |ls| == |us| && forall j :: 0 <= j < |ls| ==> read(ls[j]) == Ok(Some(us[j]))
    ensures ReadEach(ls, read) == Ok(us)
  {
    if ls != [] {
      ReadEachLine(ls[1..], us[1..], read);
      assert [us[0]] + us[1..] == us;
    }
  }

  /** Round trip: every transcript made of words and alterations the reader
      accepts, under an id free of parentheses and line breaks, is read back
      exactly as it was written, also after the universal-newline translation
      of a file opened in text mode. */
  lemma RoundTrip(us: seq<Utterance>)
    requires forall i :: 0 <= i < |us| ==> WfUtterance(us[i])
    ensures WriteTrn(us).Ok?
    ensures ReadTrn(WriteTrn(us).value) == Ok(us)
    ensures ReadTrn(Translate(WriteTrn(us).value)) == Ok(us)
  {
    WrittenLinesRead(us);
    LinesUnlines(WrittenLines(us));
    UnlinesWithout(WrittenLines(us), '\r');
    TranslateUnchanged(WriteTrn(us).value);
  }

  /** Why an id may not hold a carriage return: the id `"a\rb"` is written
      as one line, but a file opened in text mode splits it in two, and the
      first half has no `)`. */
  lemma CarriageReturnId()
    ensures WriteTrn([Utterance("a\rb", [])]) == Ok("(a\rb)\n")
    ensures ReadTrn(Translate("(a\rb)\n")) == Err(IOError)
  {
    WriteCarriageReturnId();
    SplitCarriageReturnId();
    HalfLineRejected();
    var ls := Lines("(a\nb)\n");
    assert ReadTrn("(a\nb)\n") == ReadEach(ls, ReadLine);
  }

  lemma HalfLineRejected()
    ensures ReadLine("(a\n") == Err(IOError)
  {
    assert Strip("(a\n") == "(a" by {
      assert IsSpace('\n');
      assert "(a" + ['\n'] == "(a\n";
      StripOneTrailing("(a", '\n');
    }
    assert ')' !in Strip("(a\n");
    ReadLineMissingId("(a\n");
  }

  lemma WriteCarriageReturnId()
    ensures WriteTrn([Utterance("a\rb", [])]) == Ok("(a\rb)\n")
  {
    var us := [Utterance("a\rb", [])];
    assert EncTranscript([]) == Ok([]);
    assert [] + "(" + "a\rb" + ")\n" == "(a\rb)\n";
    assert WriteLine(us[0]) == Ok("(a\rb)\n");
    assert us[1..] == [] && "(a\rb)\n" + [] == "(a\rb)\n";
  }

  lemma SplitCarriageReturnId()
    ensures Translate("(a\rb)\n") == "(a\nb)\n"
    ensures Lines("(a\nb)\n")[0] == "(a\n"
  {
    TranslateCarriageReturnId();
    var t := "(a\nb)\n";
    assert t[1..] == "a\nb)\n" && t[2..] == "\nb)\n";
    assert LineEnd(t) == 3;
    assert t[..3] == "(a\n";
  }

  lemma TranslateCarriageReturnId()
    ensures Translate("(a\rb)\n") == "(a\nb)\n"
  {
    var s := "(a\rb)\n";
    TranslateUnchanged(s[3..]);
    assert s[2] == '\r' && s[3] != '\n';
    assert Translate(s[2..]) == "\n" + s[3..];
    assert Translate(s[1..]) == "a" + Translate(s[2..]);
  }

  // ----------------------------------------------------------------------
  // Lines without alterations, and alterations that are empty or unclosed

  /** The reader's word separator. */
  predicate IsBlank(c: char) {
    c == ' '
  }

  function Words(ws: seq<string>): (r: seq<Element>)
    ensures |r| == |ws|
    ensures forall i :: 0 <= i < |ws| ==> r[i] == Token(Str(ws[i]))
  {
    if ws == [] then [] else [Token(Str(ws[0]))] + Words(ws[1..])
  }

  lemma WordsAppend(a: seq<string>, b: seq<string>)
    ensures Words(a + b) == Words(a) + Words(b)
  {
  }

  lemma WordsAfter(out: seq<Element>, a: seq<string>, b: seq<string>)
    ensures out + Words(a) + Words(b) == out + Words(a + b)
  {
    WordsAppend(a, b);
  }

  /** Without `{`, no alteration is ever opened: scanning from a state with a
      pending word `tok` ends in the words of `tok + s` split at spaces, where
      unmatched `}` and `/` are ordinary characters. */
  lemma {:induction false} ScanPlain(s: string, out: seq<Element>, tok: string)
    requires '{' !in s
    requires forall i :: 0 <= i < |tok| ==> !IsBlank(tok[i])
    ensures Scan(s, State(out, tok, [])).Ok?
    ensures Scan(s, State(out, tok, [])).value.open == []
    ensures Finish(Scan(s, State(out, tok, [])).value) == out + Words(Fields(tok + s, IsBlank))
    decreases |s|
  {
    if s == [] {
      FieldsAfterWord(tok, [], IsBlank);
      assert tok + s == tok;
    } else if s[0] == ' ' {
      ScanPlainBlank(s, out, tok);
    } else {
      ScanPlainChar(s, out, tok);
    }
  }

  lemma {:induction false} ScanPlainBlank(s: string, out: seq<Element>, tok: string)
    requires '{' !in s && s != [] && s[0] == ' '
    requires forall i :: 0 <= i < |tok| ==> !IsBlank(tok[i])
    ensures Scan(s, State(out, tok, [])).Ok?
    ensures Scan(s, State(out, tok, [])).value.open == []
    ensures Finish(Scan(s, State(out, tok, [])).value) == out + Words(Fields(tok + s, IsBlank))
    decreases |s|, 0
  {
    var ws: seq<string> := if tok == [] then [] else [tok];
    var out' := out + Words(ws);
    BlankStep(s, out, tok, out');
    assert s == [s[0]] + s[1..];
    ScanPlain(s[1..], out', []);
    var fs := Fields(s[1..], IsBlank);
    assert [] + s[1..] == s[1..];
    FieldsAfterWord(tok, s, IsBlank);
    assert Fields(tok + s, IsBlank) == ws + fs;
    WordsAfter(out, ws, fs);
  }

  lemma BlankStep(s: string, out: seq<Element>, tok: string, out': seq<Element>)
    requires s != [] && s[0] == ' '
    requires out' == out + Words(if tok == [] then [] else [tok])
    ensures Scan(s, State(out, tok, [])) == Scan(s[1..], State(out', [], []))
  {
    var st := State(out, tok, []);
    assert Flush(st) == State(out', [], []);
    assert Step(st, ' ') == Ok(State(out', [], []));
  }

  lemma {:induction false} ScanPlainChar(s: string, out: seq<Element>, tok: string)
    requires '{' !in s && s != [] && s[0] != ' '
    requires forall i :: 0 <= i < |tok| ==> !IsBlank(tok[i])
    ensures Scan(s, State(out, tok, [])).Ok?
    ensures Scan(s, State(out, tok, [])).value.open == []
    ensures Finish(Scan(s, State(out, tok, [])).value) == out + Words(Fields(tok + s, IsBlank))
    decreases |s|, 0
  {
    var st := State(out, tok, []);
    assert s[0] in s;
    var st' := State(out, tok + [s[0]], []);
    assert Step(st, s[0]) == Ok(st');
    assert Scan(s, st) == Scan(s[1..], st');
    assert s == [s[0]] + s[1..];
    ScanPlain(s[1..], out, tok + [s[0]]);
    assert tok + [s[0]] + s[1..] == tok + s;
  }

  /** A line part without `{` is its space-separated words. */
  lemma PlainBody(s: string)
    requires '{' !in s
    ensures ParseBody(s) == Ok(Words(Fields(s, IsBlank)))
  {
    ScanPlain(s, [], []);
    assert [] + s == s;
    assert [] + Words(Fields(s, IsBlank)) == Words(Fields(s, IsBlank));
  }

  lemma {:induction false} ScanBlanks(ws: string, st: State)
    requires st.token == [] && forall i :: 0 <= i < |ws| ==> IsBlank(ws[i])
    ensures Scan(ws, st) == Ok(st)
    decreases |ws|
  {
    if ws != [] {
      assert Step(st, ws[0]) == Ok(st);
      ScanBlanks(ws[1..], st);
    }
  }

  /** An empty alteration `{ }` is rejected wherever it appears. */
  lemma EmptyAlternateRejected(st: State, ws: string, rest: string)
    requires forall i :: 0 <= i < |ws| ==> IsBlank(ws[i])
    ensures Scan("{" + ws + "}" + rest, st) == Err(IOError)
  {
    var s1 := Flush(st);
    var a := State(s1.out, [], s1.open + [Frame([], [])]);
    assert Step(st, '{') == Ok(a);
    ScanBlanks(ws, a);
    assert Step(a, '}') == Err(IOError);
    assert Scan("}" + rest, a) == Err(IOError);
    ScanConcat("{", ws + "}" + rest, st);
    ScanConcat(ws, "}" + rest, a);
    assert ws + "}" + rest == ws + ("}" + rest);
    assert "{" + ws + "}" + rest == "{" + (ws + "}" + rest);
  }

  /** Inside an alteration, a last branch left empty (`/ }`) is rejected. */
  lemma EmptyLastBranchRejected(st: State, ws: string, rest: string)
    requires st.open != []
    requires forall i :: 0 <= i < |ws| ==> IsBlank(ws[i])
    ensures Scan("/" + ws + "}" + rest, st) == Err(IOError)
  {
    var s1 := Flush(st);
    var top := Top(s1.open);
    var f := Frame(top.done + [Branch(top.cur)], []);
    var b := State(s1.out, [], WithTop(s1.open, f));
    assert Step(st, '/') == Ok(b);
    ScanBlanks(ws, b);
    WithTopTwice(s1.open, f, f);
    assert Step(b, '}') == Err(IOError);
    assert Scan("}" + rest, b) == Err(IOError);
    ScanConcat("/", ws + "}" + rest, st);
    ScanConcat(ws, "}" + rest, b);
    assert ws + "}" + rest == ws + ("}" + rest);
    assert "/" + ws + "}" + rest == "/" + (ws + "}" + rest);
  }

  /** Inside an open alteration, text without `}` neither fails nor closes it,
      and adds nothing to the transcript. */
  lemma {:induction false} ScanInsideOpen(b: string, st: State)
    requires st.open != [] && '}' !in b
    ensures Scan(b, st).Ok?
    ensures Scan(b, st).value.out == st.out && Scan(b, st).value.open != []
    decreases |b|
  {
    if b != [] {
      assert b[0] in b;
      var r := Step(st, b[0]);
      assert r.Ok? && r.value.out == st.out && r.value.open != [];
      ScanInsideOpen(b[1..], r.value);
    }
  }

  /** An alteration still open at the end of the line is dropped together with
      everything after its `{`. */
  lemma UnclosedAlternateDropped(a: string, b: string)
    requires '{' !in a && '}' !in b
    ensures ParseBody(a + "{" + b) == ParseBody(a)
  {
    ScanPlain(a, [], []);
    var sa := Scan(a, Start).value;
    ScanConcat(a, "{" + b, Start);
    assert a + "{" + b == a + ("{" + b);
    var s1 := Flush(sa);
    var o := State(s1.out, [], s1.open + [Frame([], [])]);
    assert Step(sa, '{') == Ok(o);
    ScanConcat("{", b, sa);
    ScanInsideOpen(b, o);
    assert s1.out == Finish(sa);
  }
}

=== FILE: windows.dfy ===
/** Context windows: `extract_window` and `context_window_seq_to_batch` of
    `pydrobert/torch/data.py`.

    A feature matrix is a sequence of frames (rows); a window around a centre
    frame holds `left` frames before it and `right` after it, with frames past
    either edge of the utterance repeated from that edge. */
module Windows {

  import opened Results

  /** One frame: a vector of filter coefficients. */
  type Frame = seq<real>

  /** A `(T, F)` feature matrix, or a `(C, F)` window. */
  type Matrix = seq<Frame>

  function Max(a: int, b: int): int {
    if a >= b then a else b
  }

  /** `i` brought into `0..n-1`. */
  function Clamp(i: int, n: nat): (r: nat)
    requires n > 0
    ensures r < n
    ensures 0 <= i < n ==> r == i
  {
    if i < 0 then 0 else if i >= n then n - 1 else i
  }

  function Reverse<T>(s: seq<T>): (r: seq<T>)
    ensures |r| == |s| && forall j :: 0 <= j < |s| ==> r[j] == s[|s| - 1 - j]
  {
    if s == [] then [] else Reverse(s[1..]) + [s[0]]
  }

  /** `extract_window`: when the window fits inside the utterance it is a
      slice of it; otherwise the part that fits is copied and the rest filled
      with the first or last frame. */
  function ExtractWindow(feat: Matrix, frameIdx: nat, left: nat, right: nat, reverse: bool): (r: Matrix)
    requires frameIdx < |feat|
    ensures |r| == 1 + left + right
  {
    var window :=
      if frameIdx - left < 0 || frameIdx + right + 1 > |feat| then Padded(feat, frameIdx, left, right)
      else feat[frameIdx - left..frameIdx + right + 1];
    if reverse then Reverse(window) else window
  }

  /** The padded branch of `extract_window`: `left_pad` copies of the first
      frame, the frames that exist, then `right_pad` copies of the last. */
  function Padded(feat: Matrix, frameIdx: nat, left: nat, right: nat): (r: Matrix)
    requires frameIdx < |feat|
    ensures |r| == 1 + left + right
  {
    var t := |feat|;
    var leftPad := Max(left - frameIdx, 0);
    var rightPad := Max(frameIdx + right + 1 - t, 0);
    var lo := Max(0, frameIdx - left);
    var hi := frameIdx + right + 1 - rightPad;
    seq(leftPad, _ => feat[0]) + feat[lo..hi] + seq(rightPad, _ => feat[t - 1])
  }

  /** Row `j` of the window around `frameIdx` is the frame `left` before the
      centre plus `j`, clamped to the utterance; a reversed window holds the
      same frames in the opposite order. */
  lemma WindowFrames(feat: Matrix, frameIdx: nat, left: nat, right: nat, reverse: bool)
    requires frameIdx < |feat|
    ensures var r := ExtractWindow(feat, frameIdx, left, right, reverse);
            forall j :: 0 <= j < |r| ==>
              r[j] == feat[Clamp(if reverse then frameIdx + right - j else frameIdx - left + j, |feat|)]
  {
    ForwardFrames(feat, frameIdx, left, right);
    if reverse {
      var w := ExtractWindow(feat, frameIdx, left, right, false);
      assert ExtractWindow(feat, frameIdx, left, right, true) == Reverse(w);
      ReversedFrames(feat, w, frameIdx, left, right);
    }
  }

  lemma ForwardFrames(feat: Matrix, frameIdx: nat, left: nat, right: nat)
    requires frameIdx < |feat|
    ensures var w := ExtractWindow(feat, frameIdx, left, right, false);
            forall j :: 0 <= j < |w| ==> w[j] == feat[Clamp(frameIdx - left + j, |feat|)]
  {
    if frameIdx - left < 0 || frameIdx + right + 1 > |feat| {
      PaddedFrames(feat, frameIdx, left, right);
    }
  }

  lemma ReversedFrames(feat: Matrix, w: Matrix, frameIdx: nat, left: nat, right: nat)
    requires |feat| > 0 && |w| == 1 + left + right
    requires forall j :: 0 <= j < |w| ==> w[j] == feat[Clamp(frameIdx - left + j, |feat|)]
    ensures forall j :: 0 <= j < |w| ==> Reverse(w)[j] == feat[Clamp(frameIdx + right - j, |feat|)]
  {
    forall j | 0 <= j < |w|
      ensures Reverse(w)[j] == feat[Clamp(frameIdx + right - j, |feat|)]
    {
      assert Reverse(w)[j] == w[|w| - 1 - j];
      assert frameIdx - left + (|w| - 1 - j) == frameIdx + right - j;
    }
  }

  lemma PaddedFrames(feat: Matrix, frameIdx: nat, left: nat, right: nat)
    requires frameIdx < |feat|
    ensures var w := Padded(feat, frameIdx, left, right);
            forall j :: 0 <= j < |w| ==> w[j] == feat[Clamp(frameIdx - left + j, |feat|)]
  {
    var t := |feat|;
    var leftPad := Max(left - frameIdx, 0);
    var rightPad := Max(frameIdx + right + 1 - t, 0);
    var lo := Max(0, frameIdx - left);
    var hi := frameIdx + right + 1 - rightPad;
    var a := seq(leftPad, _ => feat[0]);
    var b := feat[lo..hi];
    var c := seq(rightPad, _ => feat[t - 1]);
    var w := Padded(feat, frameIdx, left, right);
    assert w == a + b + c;
    assert lo - leftPad == frameIdx - left;
    assert |b| == hi - lo;
    forall j | 0 <= j < |w|
      ensures w[j] == feat[Clamp(frameIdx - left + j, t)]
    {
      if j < leftPad {
        assert w[j] == a[j] == feat[0];
        assert frameIdx - left + j < 0;
      } else if j < leftPad + |b| {
        assert w[j] == b[j - leftPad] == feat[lo + j - leftPad];
      } else {
        assert w[j] == c[j - leftPad - |b|] == feat[t - 1];
        assert frameIdx - left + j >= t;
      }
    }
  }

  /** The windows around every frame of an utterance: a `(T, C, F)` tensor.
      Window `t` is centred on frame `t` (row `left` of it, or row `right`
      when reversed), and its other rows are the neighbouring frames, clamped
      to the utterance. */
  function UtteranceWindows(feat: Matrix, left: nat, right: nat, reverse: bool): (r: seq<Matrix>)
    ensures |r| == |feat|
    ensures forall t :: 0 <= t < |feat| ==> |r[t]| == 1 + left + right
    ensures forall t, j :: 0 <= t < |feat| && 0 <= j < 1 + left + right ==>
              r[t][j] == feat[Clamp(if reverse then t + right - j else t - left + j, |feat|)]
    ensures forall t :: 0 <= t < |feat| ==> r[t][if reverse then right else left] == feat[t]
  {
    AllWindowFrames(feat, left, right, reverse);
    seq(|feat|, t requires 0 <= t < |feat| => ExtractWindow(feat, t, left, right, reverse))
  }

  lemma AllWindowFrames(feat: Matrix, left: nat, right: nat, reverse: bool)
    ensures forall t, j :: 0 <= t < |feat| && 0 <= j < 1 + left + right ==>
              ExtractWindow(feat, t, left, right, reverse)[j]
              == feat[Clamp(if reverse then t + right - j else t - left + j, |feat|)]
  {
    forall t, j | 0 <= t < |feat| && 0 <= j < 1 + left + right
      ensures ExtractWindow(feat, t, left, right, reverse)[j]
              == feat[Clamp(if reverse then t + right - j else t - left + j, |feat|)]
    {
      WindowFrames(feat, t, left, right, reverse);
    }
  }

  // ----------------------------------------------------------------------
  // Batching

  /** A `(T, C, F)` tensor of windows; `c` and `f` are its trailing sizes. */
  datatype Block = Block(c: nat, f: nat, windows: seq<Matrix>)

  /** One element of the sequence being batched: windows and their optional
      per-window alignment. */
  datatype Item = Item(block: Block, ali: Option<seq<int>>)

  function ConcatBlocks(bs: seq<Block>): (r: seq<Matrix>)
  {
    if bs == [] then [] else bs[0].windows + ConcatBlocks(bs[1..])
  }

  /** `torch.cat` of window tensors: empty input, or tensors whose trailing
      sizes differ, are a `RuntimeError`. */
  function CatBlocks(bs: seq<Block>): (r: Result<Block>)
    ensures r.Ok? <==> bs != [] && forall i :: 0 <= i < |bs| ==> bs[i].c == bs[0].c && bs[i].f == bs[0].f
    ensures r.Ok? ==> r.value == Block(bs[0].c, bs[0].f, ConcatBlocks(bs))
    ensures r.Err? ==> r.error == RuntimeError
  {
    if bs == [] then Err(RuntimeError)
    else if exists i :: 0 <= i < |bs| && (bs[i].c != bs[0].c || bs[i].f != bs[0].f) then Err(RuntimeError)
    else Ok(Block(bs[0].c, bs[0].f, ConcatBlocks(bs)))
  }

  function Blocks(items: seq<Item>): (r: seq<Block>)
    ensures |r| == |items| && forall i :: 0 <= i < |items| ==> r[i] == items[i].block
  {
    if items == [] then [] else [items[0].block] + Blocks(items[1..])
  }

  function ConcatAlis(items: seq<Item>): seq<int>
    requires forall i :: 0 <= i < |items| ==> items[i].ali.Some?
  {
    if items == [] then [] else items[0].ali.value + ConcatAlis(items[1..])
  }

  /** The alignment list of the loop, as written: it becomes `None` at the
      first missing alignment, and a later present alignment is appended to
      `None` (`AttributeError`). */
  function AccumulateAlis(items: seq<Item>, acc: Option<seq<int>>): Result<Option<seq<int>>>
  {
    if items == [] then Ok(acc)
    else match items[0].ali
      case None => AccumulateAlis(items[1..], None)
      case Some(a) =>
        if acc.None? then Err(AttributeError)
        else AccumulateAlis(items[1..], Some(acc.value + a))
  }

  /** `context_window_seq_to_batch` as written. */
  function SeqToBatchAsWritten(items: seq<Item>): Result<(Block, Option<seq<int>>)>
  {
    var alis :- AccumulateAlis(items, Some([]));
    var windows :- CatBlocks(Blocks(items));
    Ok((windows, alis))
  }

  /** `context_window_seq_to_batch` as documented: the alignments are `None`
      when any element lacks one, and otherwise concatenated. */
  function SeqToBatch(items: seq<Item>): (r: Result<(Block, Option<seq<int>>)>)
    ensures r.Ok? <==> CatBlocks(Blocks(items)).Ok?
    ensures r.Ok? ==> r.value.0 == CatBlocks(Blocks(items)).value
    ensures r.Ok? ==> (r.value.1.None? <==> exists i :: 0 <= i < |items| && items[i].ali.None?)
    ensures r.Ok? && r.value.1.Some? ==>
              && (forall i :: 0 <= i < |items| ==> items[i].ali.Some?)
              && r.value.1.value == ConcatAlis(items)
  {
    var windows :- CatBlocks(Blocks(items));
    var alis := if forall i :: 0 <= i < |items| ==> items[i].ali.Some? then Some(ConcatAlis(items)) else None;
    Ok((windows, alis))
  }

  // ----------------------------------------------------------------------
  // Properties

  /** The batch holds every element's windows in order: its length is the sum
      of theirs and the windows of element `i` start after those of earlier
      elements. */
  lemma {:induction false} ConcatBlocksAt(bs: seq<Block>, i: nat, k: nat)
    requires i < |bs| && k < |bs[i].windows|
    ensures |ConcatBlocks(bs[..i])| + k < |ConcatBlocks(bs)|
    ensures ConcatBlocks(bs)[|ConcatBlocks(bs[..i])| + k] == bs[i].windows[k]
  {
    if i == 0 {
      assert bs[..0] == [];
    } else {
      ConcatBlocksAt(bs[1..], i - 1, k);
      assert bs[1..][..i - 1] == bs[..i][1..];
      assert bs[..i][0] == bs[0];
    }
  }

  /** The alignments are concatenated in the order of the elements, as the
      windows are: alignment `k` of element `i` follows those of the earlier
      elements. */
  lemma {:induction false} ConcatAlisAt(items: seq<Item>, i: nat, k: nat)
    requires forall m :: 0 <= m < |items| ==> items[m].ali.Some?
    requires i < |items| && k < |items[i].ali.value|
    ensures |ConcatAlis(items[..i])| + k < |ConcatAlis(items)|
    ensures ConcatAlis(items)[|ConcatAlis(items[..i])| + k] == items[i].ali.value[k]
  {
    if i == 0 {
      assert items[..0] == [];
    } else {
      ConcatAlisAt(items[1..], i - 1, k);
      assert items[1..][..i - 1] == items[..i][1..];
      assert items[..i][0] == items[0];
    }
  }

  /** With every alignment present, the alignments are concatenated as the
      windows are; then the loop as written agrees with the documented
      behaviour. */
  lemma {:induction false} AllAlisPresent(items: seq<Item>, acc: seq<int>)
    requires forall i :: 0 <= i < |items| ==> items[i].ali.Some?
    ensures AccumulateAlis(items, Some(acc)) == Ok(Some(acc + ConcatAlis(items)))
  {
    if items == [] {
      assert acc + [] == acc;
    } else {
      AllAlisPresent(items[1..], acc + items[0].ali.value);
      assert acc + items[0].ali.value + ConcatAlis(items[1..]) == acc + ConcatAlis(items);
    }
  }

  lemma {:induction false} NoneSuffix(items: seq<Item>, acc: Option<seq<int>>)
    requires forall i :: 0 <= i < |items| ==> items[i].ali.None?
    ensures AccumulateAlis(items, acc) == Ok(if items == [] then acc else None)
  {
    if items != [] {
      NoneSuffix(items[1..], None);
    }
  }

  /** The loop as written fails exactly when a missing alignment is followed
      by a present one. */
  lemma {:induction false} AccumulateFails(items: seq<Item>, acc: Option<seq<int>>)
    ensures AccumulateAlis(items, acc).Err? <==>
              (exists j :: 0 <= j < |items| && items[j].ali.Some? && (acc.None? || exists i :: 0 <= i < j && items[i].ali.None?))
    ensures AccumulateAlis(items, acc).Err? ==> AccumulateAlis(items, acc).error == AttributeError
  {
    if items != [] {
      var next := if items[0].ali.None? then None else if acc.None? then None else Some(acc.value + items[0].ali.value);
      if items[0].ali.None? || acc.Some? {
        AccumulateFails(items[1..], next);
        if AccumulateAlis(items, acc).Err? {
          var j' :| 0 <= j' < |items[1..]| && items[1..][j'].ali.Some?
                    && (next.None? || exists i :: 0 <= i < j' && items[1..][i].ali.None?);
          if next.None? && items[0].ali.None? {
            assert items[1 + j'].ali.Some? && items[0].ali.None?;
          } else {
            var i :| 0 <= i < j' && items[1..][i].ali.None?;
            assert items[1 + i].ali.None?;
          }
        } else {
          forall j | 0 <= j < |items| && items[j].ali.Some?
            ensures acc.Some? && forall i :: 0 <= i < j ==> items[i].ali.Some?
          {
            if j > 0 {
              assert items[1..][j - 1].ali.Some?;
              forall i | 0 <= i < j ensures items[i].ali.Some? {
                if i > 0 {
                  assert items[1..][i - 1] == items[i];
                }
              }
            }
          }
        }
      }
    }
  }

  /** Whenever the loop as written succeeds, it returns what the documented
      behaviour returns. */
  lemma AsWrittenAgrees(items: seq<Item>)
    requires SeqToBatchAsWritten(items).Ok?
    ensures SeqToBatchAsWritten(items) == SeqToBatch(items)
  {
    AccumulateFails(items, Some([]));
    if forall i :: 0 <= i < |items| ==> items[i].ali.Some? {
      AllAlisPresent(items, []);
      assert [] + ConcatAlis(items) == ConcatAlis(items);
    } else {
      var k :| 0 <= k < |items| && items[k].ali.None?;
      MissingThenNone(items, Some([]), k);
    }
  }

  /** Once an alignment is missing and none follows, the loop ends with
      `None`. */
  lemma {:induction false} MissingThenNone(items: seq<Item>, acc: Option<seq<int>>, k: nat)
    requires k < |items| && items[k].ali.None?
    requires AccumulateAlis(items, acc).Ok?
    ensures AccumulateAlis(items, acc) == Ok(None)
  {
    if k > 0 {
      var next := if items[0].ali.None? then None else if acc.None? then None else Some(acc.value + items[0].ali.value);
      assert AccumulateAlis(items, acc) == AccumulateAlis(items[1..], next);
      MissingThenNone(items[1..], next, k - 1);
    } else {
      AccumulateFails(items, acc);
      var rest := items[1..];
      forall j | 0 <= j < |rest| ensures rest[j].ali.None? {
        assert rest[j] == items[j + 1];
      }
      NoneSuffix(rest, None);
    }
  }

  /** A missing alignment followed by a present one: the loop as written
      fails where the documented behaviour returns windows without
      alignments. */
  lemma MissingThenPresent(b: Block, a: seq<int>)
    ensures SeqToBatchAsWritten([Item(b, None), Item(b, Some(a))]) == Err(AttributeError)
    ensures SeqToBatch([Item(b, None), Item(b, Some(a))]).Ok?
    ensures SeqToBatch([Item(b, None), Item(b, Some(a))]).value.1 == None
  {
    var items := [Item(b, None), Item(b, Some(a))];
    assert items[1..] == [Item(b, Some(a))];
    assert AccumulateAlis(items, Some([])) == AccumulateAlis(items[1..], None);
    assert AccumulateAlis(items[1..], None) == Err(AttributeError);
    assert Blocks(items) == [b, b];
  }

  /** An empty sequence has nothing to concatenate. */
  lemma EmptyBatch()
    ensures SeqToBatchAsWritten([]) == Err(RuntimeError)
    ensures SeqToBatch([]) == Err(RuntimeError)
  {
  }
}
